=== FILE: README.md ===
# Reto Agrotech — a Dafny model of the farm-monitoring core

Reto Agrotech is a farm-monitoring web application. Farmers own parcels of
land, and sensors on those parcels post readings to an HTTP API. A reading
outside a sensor's thresholds opens an alert, and the alert moves from open
to acknowledged to resolved. The pages show dashboards, alert lists and
per-sensor analytics, with CSV and JSON downloads. This project models the
application's sequential logic over an in-memory store and proves
properties of that model.

The store is an immutable `Db` holding one sequence per table: users,
parcels, sensors, readings and alerts. Every request handler and page event
is a pure function from the state before to the state after.

Things outside the program become parameters:

- the clock (`now`);
- the random source (`pick`, one index into the 62 key characters per draw);
- bcrypt (`hash` and `checkPw`);
- Python's number parsers (`parseReal`, `parseInt`), which return `None`
  where Python raises `ValueError`.

Timestamps are tuples of date, hour, minute, second and microsecond,
ordered lexicographically. Sorting by timestamp is therefore chronological.
Dates are real Gregorian calendar dates in years 1 to 9999, as in Python's
`datetime`. Date text uses the `YYYY-MM-DD` form of ISO 8601:2004,
section 4.1.2.2.

| file | module | what it holds |
|---|---|---|
| basics.dfy | Basics | `Option`, `Result`, `Min`, `Max` |
| calendar.dfy | Calendar | dates and timestamps, their order, day arithmetic, `strptime`/`strftime` for `%Y-%m-%d` |
| query.dfy | Query | `WHERE`, `ORDER BY … ASC/DESC`, `LIMIT` over sequences |
| database.py → database.dfy | Database | the five tables, column defaults, key lookup, integrity (`Valid`, `Attached`), ownership joins |
| api.py → api.dfy | Api | API-key check, ingestion and alerting, sensor history, parcel listing, dashboard counts |
| alert_state.py → alerts.dfy | Alerts | alert lifecycle, acknowledge/resolve, active and history lists |
| dashboard_state.py → dashboard.dfy | Dashboard | dashboard counts, recent readings, chart window and down-sampling |
| analytics_state.py → analytics.dfy | Analytics | sensor selection, date presets, bucketing, per-bucket means, statistics, page events |
| analytics_state.py → export.dfy | Export | legend, CSV table, JSON record |
| parcel_state.py → parcels.dfy | Parcels | parcel and sensor pages, modals, dialogs, saves, and deletes as written and with a full cascade |
| auth_state.py → auth.dfy | Auth | API-key shape, login, logout, registration, page guards |
| settings_state.py → settings.dfy | Settings | tab and notification switches, password change, key regeneration |
| navbar_state.py → navbar.dfy | Navbar | the mobile menu flag |

Where the written description of the system and the code disagree, the
model follows the code:

- Ingestion reports `alert_triggered = true` for every out-of-range value,
  even when an existing open alert suppresses the new one
  (`app/api.py:71-98`). It does not report `false` in that case.
- A request without the `X-API-Key` header is rejected by FastAPI's
  validation with status 422 (`x_api_key: str = Header(...)`), not 401.
  `Api.VerifyApiKey` keeps that error (`MissingApiKey`) separate from
  `Unauthorized`.
- The sensor-history endpoint does not restrict results to the caller's
  data (see Findings).
- The ingestion endpoint accepts a reading for any sensor from any valid
  key. It writes data but returns nothing from another user, and the model
  keeps this behaviour.
- The analytics and dashboard handlers that should fetch or reload after
  a setting changes do not, and deleting a sensor or a parcel whose sensors
  hold readings or alerts fails (see Findings). Both behaviours are
  modelled as written and as evidently intended.

## Model

| member | source | states |
|---|---|---|
| Database.FindById | app/api.py:63 | `session.get`: a row it returns carries the key and is in the table; it returns nothing exactly when no row carries the key |
| Database.FreshId | app/database.py:37 | a new row's key is positive and larger than every key already in the table |
| Database.FindByIdFindsRow | app/database.py:37 | with unique primary keys, looking a row up by its own key returns that row |
| Database.FindUserByEmail | app/states/auth_state.py:23-34 | the user returned has the address asked for; nothing is returned exactly when no user has it |
| Database.JoinSensor | app/states/alert_state.py:30-33 | the sensor–parcel join: the sensor in the result is the stored sensor with that key; a missing sensor joins to nothing |
| Database.OnParcelOfIsOwnership | app/states/dashboard_state.py:44-48 | with unique keys, looking up a sensor's parcel by key agrees with "some stored parcel with that key belongs to the user" |
| Database.OwnsSensorIdIsOwnership | app/states/alert_state.py:30-38 | with unique keys, a row's sensor key joins to the user exactly when a stored sensor with that key sits on a parcel of the user |
| Api.VerifyApiKey | app/api.py:46-52 | a missing header is its own error; a key no user holds is `Unauthorized`, and only then; an accepted key belongs to the user returned |
| Api.FindByApiKey | app/api.py:49 | the user found holds the key; nothing is found exactly when no user holds it |
| Api.Classify | app/api.py:73-78 | below-low exactly when `value < low`; above-high exactly when not below-low and `value > high`; in range exactly when `low <= value <= high` |
| Api.StampSensor | app/api.py:69 | the ingested sensor's `last_reading_time` becomes the reading's timestamp; every other sensor is unchanged |
| Api.Record | app/api.py:66-98 | exactly one reading is appended, with the value and timestamp and a fresh key; the sensor is stamped; users and parcels are untouched; `alert_triggered` holds exactly for out-of-range values; an alert is appended only for a breach on a sensor with no open alert, and that alert is active, unacknowledged, at level "warning", dated at the reading, with a low message exactly for a low breach |
| Api.IngestSensorData | app/api.py:55-98 | key errors pass through; an unknown sensor gives 404; success happens exactly for a valid key and a known sensor, and records the reading at the payload's timestamp, or at `now` when there is none |
| Api.InRangeValueOpensNoAlert | app/api.py:71-79 | a value inside `[threshold_low, threshold_high]` is not reported and leaves the alerts unchanged |
| Api.RecordKeepsOneOpenAlertPerSensor | app/api.py:79-96 | if no sensor has two open alerts before an ingestion, none has two after it |
| Api.RecordKeepsStoreValid | app/api.py:63-97 | recording a reading of a stored sensor keeps keys unique, references intact, and the new reading and alert attached to a stored sensor |
| Api.RepeatedBreachIsSuppressed | app/api.py:79-98 | a second out-of-range value after a first one is still reported, but opens no second alert |
| Api.SensorHistory | app/api.py:112-119 | readings of that sensor only, newest first, as many as `LIMIT` lets through (all for a negative limit); no reading of the sensor that is left out is newer than one returned; no reading comes out more often than it is stored |
| Api.GetSensorHistoryAsWritten | app/api.py:101-119 | as written: any valid key, and any existing sensor, gets the sensor's history |
| Api.GetSensorHistory | app/api.py:101-119 | corrected: success exactly when the key is valid, the sensor exists and it sits on a parcel of the key's owner; the result is the sensor's history |
| Api.ScopedHistoryReturnsOnlyOwnReadings | app/api.py:109-119 | with unique sensor keys, every reading the corrected endpoint returns belongs to a sensor of the caller |
| Api.HistoryAsWrittenLeaksOtherUsersReadings | app/api.py:109-119 | a concrete store where a second user's valid key reads the owner's sensor history through the endpoint as written, while the corrected endpoint answers 404 |
| Api.ListParcels | app/api.py:122-138 | for a valid key, exactly the parcels whose `farmer_id` is the key's owner, as many as there are stored, none listed more often than it is stored |
| Api.LatestValue | app/api.py:155-166 | no value exactly when the sensor has no reading; otherwise the value of a reading of the sensor that no other reading of it postdates |
| Api.ParcelSensorSummaries | app/api.py:151-170 | one summary per sensor on the parcel, every such sensor covered and nothing else, each with its newest reading's value and its `last_reading_time` |
| Api.ListParcelSensors | app/api.py:141-170 | for a valid key, 404 exactly when the parcel is missing or another user owns it; otherwise the parcel's sensor summaries |
| Api.SummaryFor | app/api.py:178-203 | all three counts are zero for a user without parcels; the parcel count is the number of the user's parcels |
| Api.GetDashboardSummary | app/api.py:173-203 | success exactly for a valid key, with the counts of the key's owner |
| Alerts.StageOf | app/states/alert_state.py:75 | open exactly when active and unacknowledged; resolved exactly when inactive; closed (history) exactly when not open |
| Alerts.AcknowledgeAlert | app/states/alert_state.py:83-87 | sets `acknowledged` and leaves `is_active` and every other column unchanged; an open alert becomes acknowledged and a resolved one stays resolved |
| Alerts.ResolveAlert | app/states/alert_state.py:93-98 | clears `is_active` and sets `acknowledged`, leaving every other column unchanged; the alert ends resolved |
| Alerts.TransitionsMoveForward | app/states/alert_state.py:80-98 | neither transition moves an alert back along open → acknowledged → resolved |
| Alerts.Acknowledge | app/states/alert_state.py:80-88 | the alert with that key is acknowledged; nothing else in the store changes; an unknown key changes nothing |
| Alerts.Resolve | app/states/alert_state.py:90-99 | the alert with that key is resolved; nothing else changes; an unknown key changes nothing |
| Alerts.AcknowledgeIsIdempotent | app/states/alert_state.py:83-87 | acknowledging twice is acknowledging once |
| Alerts.ResolveIsIdempotent | app/states/alert_state.py:93-98 | resolving twice is resolving once |
| Alerts.ResolveAbsorbsAcknowledge | app/states/alert_state.py:83-98 | acknowledge then resolve equals resolve alone; acknowledging a resolved alert changes nothing |
| Alerts.TransitionsKeepOneOpenAlertPerSensor | app/states/alert_state.py:83-98 | acknowledging or resolving never gives a sensor a second open alert |
| Alerts.ActiveAlerts | app/states/alert_state.py:30-41 | exactly the user's active, unacknowledged alerts, newest first |
| Alerts.ClosedAlerts | app/states/alert_state.py:54-65 | the user's acknowledged or inactive alerts, newest first, at most 50; none of them that is left out is newer than one listed; no alert is listed more often than it is stored |
| Alerts.ActiveRows | app/states/alert_state.py:42-53 | one line per active alert, in order, each joined to its sensor and parcel |
| Alerts.HistoryRows | app/states/alert_state.py:66-78 | one line per history alert, in order; the status is "Resolved" exactly when the alert is inactive and "Acknowledged" otherwise |
| Alerts.LoadAlerts | app/states/alert_state.py:18-78 | nobody logged in changes nothing; otherwise the two lists are the user's active and history alerts; the filter is kept |
| Alerts.ViewsAreDisjoint | app/states/alert_state.py:34-61 | no alert is in both the active list and the history |
| Alerts.OtherUsersAlertsAreHidden | app/states/alert_state.py:34-61 | with unique keys, an alert on a sensor of another user's parcel is in neither list |
| Alerts.AcknowledgedAlertLeavesActiveList | app/states/alert_state.py:80-88 | after an acknowledgement, the active list no longer holds that alert |
| Query.Filter | app/api.py:114 | `WHERE`: a row is kept exactly when it is in the table and passes the condition; no row comes out more often than it is stored |
| Query.SortOldestFirst | app/states/analytics_state.py:163 | `ORDER BY timestamp`: oldest first, and a permutation of the input |
| Query.SortNewestFirst | app/api.py:115 | `ORDER BY timestamp DESC`: newest first, and a permutation of the input |
| Query.LimitCount | app/api.py:116 | `LIMIT n` lets through at most `n` rows and at most what there is; a negative limit lets everything through |
| Query.Newest | app/api.py:112-117 | `ORDER BY … DESC LIMIT n`: newest first, drawn from the input, as many as the limit allows; no row left out is newer than a row returned |
| Query.NewestWhere | app/states/alert_state.py:54-64 | the rows passing the condition, newest first, as many as the limit allows; no passing row left out is newer than one returned; no row comes out more often than it passes; with no limit, every passing row exactly as often as it is stored |
| Query.OldestFirstSince | app/states/dashboard_state.py:106-116 | exactly the rows at or after the start, oldest first, each exactly as often as it is stored |
| Calendar.BeforeIsStrictTotalOrder | app/api.py:115 | the timestamp order is irreflexive, asymmetric, transitive and total |
| Calendar.NextDay | app/states/analytics_state.py:147-149 | `+ timedelta(days=1)`: a later day; valid exactly while the year stays at most 9999 |
| Calendar.NextDayIsImmediate | app/states/analytics_state.py:147-149 | no valid day lies strictly between a day and the next one |
| Calendar.DaysBefore | app/states/analytics_state.py:83-87 | `- timedelta(days=k)`: succeeds exactly when the day is at least `k` days after 0001-01-01, and then gives the valid day whose day number is `k` less (strictly earlier for `k > 0`) |
| Calendar.DaysAfterUndoesDaysBefore | app/states/analytics_state.py:83-87 | going back `k` days and forward `k` days returns to the start |
| Calendar.DaysBeforeUndoesDaysAfter | app/states/analytics_state.py:83-87 | going forward `k` days and, when that stays in range, back `k` days returns to the start |
| Calendar.DayNumberOfNextDay | app/states/analytics_state.py:147-149 | day numbers count days from 0001-01-01: the next day's is one more |
| Calendar.DayNumberOfPrevDay | app/states/analytics_state.py:83-87 | the day before has a day number one less |
| Calendar.DaysBeforeSucceedsFromYearTwo | app/states/analytics_state.py:83-87 | from year 2 on, going back at most 365 days never overflows |
| Calendar.ShiftBackDays | app/states/dashboard_state.py:99-105 | the same time of day `k` days earlier; it exists exactly when `k` is at most the day number of `now`, so it fails only in the first `k` days of year 1 |
| Calendar.EndDayIncludedInFull | app/states/analytics_state.py:146-161 | `start <= ts < end + 1 day` holds exactly when the timestamp's date lies from `start` through `end` |
| Calendar.ParseDate | app/states/analytics_state.py:146-149 | `strptime(s, "%Y-%m-%d")`: whatever it accepts is a valid date, read from a string of 8 to 10 characters that spells it: four year digits, a dash, a month of one or two digits, a dash, and a day of two digits, one digit, or a space and one digit |
| Calendar.FormatDate | app/states/analytics_state.py:81 | `strftime("%Y-%m-%d")`: ten characters with dashes at positions 4 and 7 |
| Calendar.ParseDateReadsFormatDate | app/states/analytics_state.py:146 | parsing a formatted valid date gives the date back |
| Calendar.ParseDateAcceptsEverySpelling | app/states/analytics_state.py:146-149 | every such spelling of a valid date is accepted, as that date |
| Calendar.ParseDateExactly | app/states/analytics_state.py:146-149 | `ParseDate` reads a string as a date exactly when the date is valid and the string spells it |
| Dashboard.RecentReadings | app/states/dashboard_state.py:74-82 | at most ten of the user's readings, newest first; none of the user's readings left out is newer than one listed; none is listed more often than it is stored |
| Dashboard.RecentRows | app/states/dashboard_state.py:83-93 | one row per recent reading, in order, joined to its sensor and parcel |
| Dashboard.WindowDays | app/states/dashboard_state.py:100-105 | "24h" reaches back one day, "7d" seven, anything else thirty |
| Dashboard.WindowStart | app/states/dashboard_state.py:99-105 | the window start is `now` shifted back by the filter's days (1, 7, or 30), strictly before `now`; it exists exactly when that many days fit after 0001-01-01 |
| Dashboard.WindowStartExistsFromYearTwo | app/states/dashboard_state.py:99-105 | from year 2 on, every filter's window start exists |
| Dashboard.ChartPoints | app/states/dashboard_state.py:106-117 | exactly the user's readings of the chosen sensor type at or after the start, oldest first, none more often than it is stored |
| Dashboard.DownsampleStep | app/states/dashboard_state.py:120 | `step = max(1, n // 50)`: 1 below 50 points; otherwise the largest step with `50 · step <= n` |
| Dashboard.Downsample | app/states/dashboard_state.py:118-132 | points `0, step, 2·step, …` in order: empty exactly for empty input, and covering the whole input |
| Dashboard.DownsampleSize | app/states/dashboard_state.py:119-121 | fewer than 50 points are all kept; from 50 points on, between 50 and 99 are kept |
| Dashboard.LoadDashboard | app/states/dashboard_state.py:26-95 | nobody logged in only clears the loading flag; otherwise the user's parcel and sensor counts, open alerts and their count, recent readings, and the down-sampled chart for the window; a window before year 1 leaves the chart as it was and the page still loading |
| Dashboard.SetTimeFilterAsWritten | app/states/dashboard_state.py:134-137 | as written: the window setting changes and nothing else on the page does, since awaiting the reload fails |
| Dashboard.SetTimeFilter | app/states/dashboard_state.py:134-137 | corrected: the window changes and the sensor type is kept; nobody logged in changes only the window and clears the loading flag; for a logged-in user the counts, open alerts and recent readings are the user's, the chart is reloaded for the new window, and the page stays loading with the old chart exactly when the window falls before year 1 |
| Dashboard.SetSensorTypeFilter | app/states/dashboard_state.py:139-142 | corrected: the type changes and the window is kept; nobody logged in changes only the type and clears the loading flag; for a logged-in user the counts, open alerts and recent readings are the user's, the chart is the down-sampled chart of the new type with every point a reading of a sensor of that type, and the page stays loading with the old chart exactly when the window falls before year 1 |
| Dashboard.SetSensorTypeFilterAsWritten | app/states/dashboard_state.py:139-142 | as written: the type setting changes and nothing else on the page does |
| Dashboard.TypeSwitchAsWrittenShowsOtherTypes | app/states/dashboard_state.py:106-142 | a charted point of a sensor of another type stays on the chart after the switch as written, and is gone after the corrected switch |
| Dashboard.ChartKeepsItsType | app/states/dashboard_state.py:106-116 | every down-sampled chart point is a reading of a stored sensor of the chosen type |
| Dashboard.ApiSummaryMatchesDashboard | app/api.py:173-203 | with unique keys, the HTTP summary, built from lists of keys, gives the same three counts as the page's joins |
| Dashboard.NothingOwnedNothingCounted | app/api.py:182-183 | a user without parcels has no sensors and no open alerts, so the early all-zero answer agrees with the joins |
| Dashboard.AcknowledgeFromDashboard | app/states/dashboard_state.py:144-152 | after the dashboard acknowledges an alert, the reloaded open list lacks it and keeps every other open alert |
| Analytics.RemoveFirst | app/states/analytics_state.py:119 | `list.remove`: exactly one occurrence fewer when present (as a multiset, one `x` less), the same list when absent, nothing new |
| Analytics.IndexOf | app/states/analytics_state.py:119 | the position `list.remove` searches for: an occurrence of the id with none before it |
| Analytics.RemoveFirstCutsFirstOccurrence | app/states/analytics_state.py:119 | `list.remove` keeps order: the result is the list with its first occurrence of the id cut out, everything before and after in place |
| Analytics.ToggleSensor | app/states/analytics_state.py:111-119 | checking with five selected is refused, and only then; checking appends an absent id and leaves a present one; unchecking cuts out the first occurrence and keeps the others in order, and an absent id changes nothing |
| Analytics.ToggleKeepsSelectionGood | app/states/analytics_state.py:113-119 | toggling keeps the selection free of duplicates and at most five long; an unchecked id is gone |
| Analytics.RemoveFirstKeepsNoDuplicates | app/states/analytics_state.py:118-119 | removing from a duplicate-free list leaves it duplicate-free and without the id |
| Analytics.SetPresetDates | app/states/analytics_state.py:77-90 | the end date is today's text; "7d", "30d" and "90d" move the start back that many days when that stays after 0001-01-01 (always from year 2 on, when the start then parses) and otherwise keep it, as Python raises after setting the end; any other value keeps the start |
| Analytics.PresetRangeSpansPreset | app/states/analytics_state.py:80-90 | after a preset, the start date parses to exactly the preset's number of days before the end date |
| Analytics.BucketKey | app/states/analytics_state.py:172-177 | "hour" truncates to the hour, "day" to midnight, anything else to the second |
| Analytics.BucketKeyIsTruncation | app/states/analytics_state.py:172-177 | the key of a key is itself, a key is never after its instant, and keys keep the order of instants |
| Analytics.SortedKeys | app/states/analytics_state.py:178-185 | the distinct bucket keys of the readings, strictly ascending |
| Analytics.MinOf | app/states/analytics_state.py:208 | `min`: a member no larger than any value |
| Analytics.MaxOf | app/states/analytics_state.py:209 | `max`: a member no smaller than any value |
| Analytics.MeanBetweenExtremes | app/states/analytics_state.py:208-210 | `min <= avg <= max` |
| Analytics.MeanOfEqualValues | app/states/analytics_state.py:192-193 | equal values average to that value |
| Analytics.RowFor | app/states/analytics_state.py:186-194 | a row carries `sensor_<id>` exactly for the selected sensors with readings in the bucket, and the value is their mean |
| Analytics.ChartRows | app/states/analytics_state.py:184-195 | one row per distinct bucket key, keys strictly ascending, each row built for its key |
| Analytics.LoneReadingShowsItsValue | app/states/analytics_state.py:176-193 | in raw aggregation, a reading alone in its bucket is shown as its own value |
| Analytics.FindOption | app/states/analytics_state.py:199-201 | the option found has the id; nothing is found exactly when no offered sensor has it |
| Analytics.Stats | app/states/analytics_state.py:196-214 | no more cards than selected sensors; a card exactly for each offered selected sensor with in-range readings; each card's count is the number of those readings, its `min` and `max` are attained and bound them, and `min <= avg <= max` |
| Analytics.StatsFollowSelection | app/states/analytics_state.py:196-214 | the card keys are exactly the selected keys that are offered and have in-range readings, in selection order, and each card is `StatOf` of its sensor's option and all its in-range readings |
| Analytics.OneCardPerSensor | app/states/analytics_state.py:196-214 | a selection without duplicates gives at most one card per sensor |
| Analytics.StatOf | app/states/analytics_state.py:202-213 | the card carries the option's key, name, parcel name and type; count is the number of readings; `avg` is their mean; `min` and `max` are attained, bound every value, and enclose the mean |
| Analytics.InRange | app/states/analytics_state.py:155-165 | exactly the readings of selected sensors with `start <= ts < end + 1 day` |
| Analytics.RangeHoldsWholeDays | app/states/analytics_state.py:146-161 | a valid reading is in range exactly when its date lies from the start date through the end date |
| Analytics.Fetch | app/states/analytics_state.py:131-215 | an empty selection or date clears the chart and the statistics; an unparseable date keeps the previous data; otherwise the chart rows and the statistics of the in-range readings |
| Analytics.OptionOf | app/states/analytics_state.py:63-70 | an option carries the sensor's key, name and type |
| Analytics.AvailableFor | app/states/analytics_state.py:56-72 | one option per sensor on the user's parcels, and nothing else |
| Analytics.FetchSettles | app/states/analytics_state.py:131-215 | a fetched page is settled: fetching it again with its own settings changes nothing |
| Analytics.LoadInitialDataAsWritten | app/states/analytics_state.py:48-90 | as written: an empty start date is set from the "7d" preset; if that preset overflows (the first 7 days of year 1) only the end date changes and the handler stops; nobody logged in then stops too; otherwise the user's sensors are offered and the first is selected when nothing was; chart, statistics and loading flag are untouched |
| Analytics.LoadInitialData | app/states/analytics_state.py:48-90 | corrected: nobody logged in, or an overflowing preset, gives the as-written result; otherwise every setting is the as-written handler's and only the chart, statistics and loading flag differ, being fetched for those settings; when a date does not parse or the end is 9999-12-31 the old chart and statistics stay |
| Analytics.SetRangePreset | app/states/analytics_state.py:77-97 | corrected: the preset is recorded, "custom" keeps the dates and any other value resets them; every other setting (selection, options, aggregation, chart type) is kept; a preset that overflows stops before the fetch, otherwise chart and statistics are fetched for the new range; an unparseable date or a 9999-12-31 end keeps the old chart and statistics |
| Analytics.SetRangePresetAsWritten | app/states/analytics_state.py:92-97 | as written: the preset and the dates change as above and nothing else does |
| Analytics.SetCustomDates | app/states/analytics_state.py:99-109 | corrected: a typed date is taken as it is and the preset becomes "custom"; every other setting is kept; chart and statistics are fetched for the new range, and stay as they were when a date does not parse or the end is 9999-12-31 |
| Analytics.SetCustomDatesAsWritten | app/states/analytics_state.py:99-109 | as written: the date and the preset change and nothing else does |
| Analytics.ToggleSensorEvent | app/states/analytics_state.py:111-120 | corrected: a refused check changes nothing, and a check is refused exactly with five selected; otherwise the new selection is taken, every other setting is kept, and chart and statistics are fetched, staying as they were when a date does not parse or the end is 9999-12-31 |
| Analytics.ToggleSensorEventAsWritten | app/states/analytics_state.py:111-120 | as written: a refused check changes nothing; otherwise only the selection changes |
| Analytics.SetAggregation | app/states/analytics_state.py:126-129 | corrected: the aggregation changes and every other setting is kept; chart and statistics are fetched again, staying as they were when a date does not parse or the end is 9999-12-31 |
| Analytics.SetAggregationAsWritten | app/states/analytics_state.py:126-129 | as written: only the aggregation changes |
| Analytics.HandlersAsWrittenNeverFetch | app/states/analytics_state.py:75-129 | none of the five handlers as written changes the chart, the statistics or the loading flag |
| Analytics.UncheckingLastSensorLeavesItsChart | app/states/analytics_state.py:111-120 | unchecking the only selected sensor leaves its chart on screen as written; the corrected handler clears chart and cards |
| Analytics.SetChartType | app/states/analytics_state.py:122-124 | only the chart type changes |
| Export.LegendEntriesAreOffered | app/states/analytics_state.py:35-46 | every legend entry is a selected sensor the page offers, named `"<parcel> - <sensor>"` |
| Export.LegendLength | app/states/analytics_state.py:36-45 | the legend has one entry per offered id of the selection, so ids the page does not offer are skipped |
| Export.LegendColorsFollowPositions | app/states/analytics_state.py:36-43 | every entry sits at its sensor's index in the selection, which picks `colors[idx % 5]` |
| Export.LegendListsEveryOfferedSensor | app/states/analytics_state.py:36-45 | every offered selected sensor has an entry at its index |
| Export.FullyOfferedLegendFollowsSelection | app/states/analytics_state.py:36-46 | when every selected sensor is offered, entry `k` is the `k`-th selected sensor with the `k`-th colour |
| Export.PositionsPickDistinctColors | app/states/analytics_state.py:30 | different indices among the first five get different colours |
| Export.LegendPositionsIncrease | app/states/analytics_state.py:36-46 | legend entries keep the selection's order |
| Export.SmallSelectionHasDistinctColors | app/states/analytics_state.py:36-46 | a selection of at most five gives every legend entry its own colour |
| Export.DataCells | app/states/analytics_state.py:230-232 | one cell per legend entry: the row's mean for that sensor, or a blank |
| Export.CsvRow | app/states/analytics_state.py:228-233 | every CSV line has `1 + |legend|` cells: the key, then the data cells |
| Export.DownloadCsv | app/states/analytics_state.py:217-237 | refused exactly for an empty chart; otherwise the header "Timestamp" plus legend names, one line per chart row, and the file name of the range |
| Export.ReadCellsUndoesCsvRow | app/states/analytics_state.py:229-233 | reading a CSV line's cells back gives the row's means for exactly the legend's sensors |
| Export.CsvCellIsBucketMean | app/states/analytics_state.py:228-233 | a non-blank cell of the CSV is the mean of that sensor's readings in that bucket |
| Export.DownloadJson | app/states/analytics_state.py:239-253 | refused exactly for an empty chart; otherwise the period, the legend's names, the chart and the statistics under the range's file name |
| Parcels.LoadParcels | app/states/parcel_state.py:28-36 | nobody logged in changes nothing; otherwise exactly the user's parcels, as many as are stored, none listed more often than it is stored, and nothing else on the page changes |
| Parcels.LoadParcelDetail | app/states/parcel_state.py:38-58 | an empty parameter does nothing; a non-integer is refused; a missing parcel, or another user's parcel while someone is logged in, is refused and changes nothing; otherwise the parcel with the parsed key is shown with exactly its sensors, and nothing else on the page changes |
| Parcels.DetailShowsRequestedParcel | app/states/parcel_state.py:38-58 | asking for a stored parcel by its key, as its owner or logged out, shows that very parcel and exactly its sensors |
| Parcels.OpenAddParcelModal | app/states/parcel_state.py:60-63 | the modal opens with nothing being edited; nothing else changes |
| Parcels.OpenEditParcelModal | app/states/parcel_state.py:65-68 | the modal opens on the given parcel; nothing else changes |
| Parcels.CloseParcelModal | app/states/parcel_state.py:70-73 | the modal closes and the edited parcel is cleared; nothing else changes |
| Parcels.OpenAddSensorModal | app/states/parcel_state.py:155-158 | the sensor modal opens with nothing being edited; nothing else changes |
| Parcels.OpenEditSensorModal | app/states/parcel_state.py:160-163 | the sensor modal opens on the given sensor; nothing else changes |
| Parcels.CloseSensorModal | app/states/parcel_state.py:165-168 | the sensor modal closes and the edited sensor is cleared; nothing else changes |
| Parcels.ConfirmDeleteParcel | app/states/parcel_state.py:128-131 | the dialog opens holding the parcel's key; nothing else changes |
| Parcels.CancelDeleteParcel | app/states/parcel_state.py:133-136 | the dialog closes and the pending key is cleared; nothing else changes |
| Parcels.ConfirmDeleteSensor | app/states/parcel_state.py:210-213 | the dialog opens holding the sensor's key; nothing else changes |
| Parcels.CancelDeleteSensor | app/states/parcel_state.py:215-218 | the dialog closes and the pending key is cleared; nothing else changes |
| Parcels.CloseUndoesOpen | app/states/parcel_state.py:60-73 | opening a modal and then closing it is the same as just closing it |
| Parcels.SaveParcel | app/states/parcel_state.py:75-126 | refused, with nothing changed, when nobody is logged in, a field is empty or the size does not parse; editing rewrites the four fields of the edited parcel only; creating appends a parcel with a fresh key for the current user; success closes the modal; the list is reloaded |
| Parcels.SaveParcelKeepsStoreValid | app/states/parcel_state.py:102-125 | saving a parcel for a stored user keeps keys unique and references intact |
| Parcels.DeleteParcel | app/states/parcel_state.py:138-153 | corrected: with no pending key (or key 0) nothing happens; otherwise an existing parcel is removed together with exactly its sensors and their readings and alerts, the dialog closes, the pending key is cleared, nothing else on the page changes but the list, and a logged-in user's list holds exactly their parcels left in the store, each as often as stored |
| Parcels.DeleteParcelKeepsStoreValid | app/states/parcel_state.py:142-150 | the corrected deletion keeps the store's integrity and leaves no reading or alert without its sensor |
| Parcels.DeleteParcelAsWritten | app/states/parcel_state.py:138-153 | as written: with no pending key nothing happens; a parcel whose sensors have readings or alerts is not deleted and the dialog stays open; otherwise the parcel and exactly its sensors are removed, the dialog closes, the pending key is cleared, nothing else on the page changes but the list, and a logged-in user's list holds exactly their parcels left in the store |
| Parcels.DeleteParcelAsWrittenKeepsStoreValid | app/states/parcel_state.py:142-150 | the deletion as written keeps the store's integrity, since it only gets through when nothing would be left without its sensor |
| Parcels.DeletingAParcelWithReadingsFails | app/states/parcel_state.py:145-150 | with a sensor that has readings or alerts, deleting the parcel as written changes neither page nor store; the corrected deletion removes it and those readings |
| Parcels.DeleteSensor | app/states/parcel_state.py:220-231 | corrected: with no pending key nothing happens; otherwise the dialog closes, and an existing sensor is removed with exactly its readings and alerts |
| Parcels.DeleteSensorKeepsStoreValid | app/states/parcel_state.py:224-228 | the corrected deletion keeps the store's integrity and leaves nothing referring to the deleted sensor |
| Parcels.DeleteSensorAsWritten | app/states/parcel_state.py:220-231 | as written: with no pending key nothing happens; a sensor with readings or alerts is not deleted and the dialog stays open; otherwise exactly that sensor is removed and the dialog closes |
| Parcels.DeleteSensorAsWrittenKeepsStoreValid | app/states/parcel_state.py:224-228 | the deletion as written keeps the store's integrity |
| Parcels.DeletingASensorWithReadingsFails | app/states/parcel_state.py:226-228 | a sensor with readings or alerts cannot be deleted as written: page and store stay; the corrected deletion removes it and everything that refers to it |
| Parcels.Threshold | app/states/parcel_state.py:181-182 | a blank threshold takes the default (0.0 low, 100.0 high); anything else must parse |
| Parcels.SaveSensor | app/states/parcel_state.py:170-208 | nothing without a parcel on screen; refused without name or type; an unparsable threshold saves nothing; editing rewrites name, type and thresholds only; adding appends an active sensor with no reading yet, on the parcel on screen, with a fresh key; success closes the modal |
| Parcels.SaveSensorKeepsStoreValid | app/states/parcel_state.py:183-207 | saving a sensor on a stored parcel keeps the store's integrity |
| Auth.KeyChar | app/states/auth_state.py:77 | every key character is an ASCII letter or digit |
| Auth.KeyCharIndex | app/states/auth_state.py:77 | every letter or digit is the key character of some draw |
| Auth.ApiKey | app/states/auth_state.py:77-78 | a generated key is "key_" followed by twenty letters or digits, the `i`-th chosen by the `i`-th draw |
| Auth.EveryShapedKeyCanBeDrawn | app/states/auth_state.py:77-78 | every string of that shape is a key the generator can produce |
| Auth.Login | app/states/auth_state.py:36-53 | an empty field is refused first; login succeeds exactly when the first user with the address has a hash that bcrypt accepts for the password; success stores that user, sets the flag, clears the password and redirects home; failure changes nothing |
| Auth.Logout | app/states/auth_state.py:55-60 | the user and the flag are cleared and the browser goes to `/login` |
| Auth.Register | app/states/auth_state.py:62-95 | an empty field is refused; a taken address is refused exactly when some user holds it; otherwise one user is appended with a fresh key, the hashed password, the chosen role and a key of the right shape, and is logged in with the three fields cleared |
| Auth.RegisterKeepsStoreValid | app/states/auth_state.py:71-90 | registration keeps every address unique and the store valid |
| Auth.RegisteredUserCanLogIn | app/states/auth_state.py:62-95 | whoever has just registered can log in with the same address and password and becomes the new user |
| Auth.NewUserIsFoundByEmail | app/states/auth_state.py:23-34 | a user appended under an unused address is the one found by that address |
| Auth.CheckLogin | app/states/auth_state.py:97-101 | redirects to `/login` exactly when not authenticated |
| Auth.CheckAlreadyLoggedIn | app/states/auth_state.py:103-107 | redirects home exactly when authenticated |
| Auth.GuardsAreComplementary | app/states/auth_state.py:97-107 | exactly one of the two guards redirects; after logout the login guard does |
| Settings.SetActiveTab | app/states/settings_state.py:18-21 | only the active tab changes |
| Settings.ToggleNotifications | app/states/settings_state.py:23-26 | the switch takes the value given (it is set, not flipped); nothing else changes |
| Settings.ToggleNotificationsLastWins | app/states/settings_state.py:23-26 | of two settings of the switch the second wins, so repeating one changes nothing |
| Settings.UpdatePassword | app/states/settings_state.py:50-72 | an empty password is refused first, then a confirmation that differs; the change happens exactly when a logged-in user's row exists, rewrites only that row's hash and clears both fields; the session is not touched |
| Settings.RegenerateApiKey | app/states/settings_state.py:28-48 | happens exactly when a logged-in user's row exists; only that row's key changes, to a freshly drawn one, and the session gets the refreshed row |
| Settings.UpdatePasswordKeepsStoreValid | app/states/settings_state.py:64-69 | a password change keeps the store valid |
| Settings.RegenerateKeepsStoreValid | app/states/settings_state.py:40-46 | a key regeneration keeps the store valid |
| Settings.NewPasswordGovernsLogin | app/states/settings_state.py:61-69 | after a change, logging in with an attempt succeeds exactly when bcrypt accepts the attempt against the hash of the new password |
| Settings.NewKeyAuthenticates | app/states/settings_state.py:38-47 | when no other user holds the drawn key, the API accepts it as the refreshed user |
| Settings.OldKeyIsRevoked | app/states/settings_state.py:30-33 | the previous key, if different from the new one, no longer authenticates as this user |
| Navbar.ToggleMenu | app/states/navbar_state.py:9-12 | the menu flag flips |
| Navbar.CloseMenu | app/states/navbar_state.py:14-17 | the menu ends closed |
| Navbar.MenuEventsCompose | app/states/navbar_state.py:9-17 | two toggles restore the menu; closing twice is closing once; toggling after closing opens it |

## Left out

- The HTTP layer, sessions, page rendering, toasts and the `is_loading` `yield` points of the Reflex events. An event's state is given by its final value only.
- Floating point: values, sizes and thresholds are exact reals. `round(x, 2)` and `round(x, 1)` are not modelled, so `Analytics.RowFor` and `Analytics.StatOf` state the unrounded means, and `Dashboard.Downsample` the unrounded values. Python's `float("nan")` would also make every threshold comparison false; that case is not modelled.
- The text of timestamps (`strftime("%Y-%m-%d %H:%M")` and the bucket key's text). Bucket keys and chart labels are timestamps; their sort order is the text's order for years 1000 to 9999.
- Calendar.FormatDate: pads every year to four digits. C libraries differ on `%Y` for years below 1000 (glibc writes `999`, not `0999`); only years 1000 to 9999 are formatted as the source's platform would.
- Calendar.ParseDate: reads ASCII digits only. Python's `strptime` also accepts other Unicode decimal digits; those are left out.
- CSV quoting and JSON serialisation. `Export.DownloadCsv` and `Export.DownloadJson` return the table and the record, not their text.
- Analytics.Stats: each card carries the sensor's key in addition to the source's fields, so that cards can be related to readings.
- Export.LegendFrom: an entry stores the sensor's index in the selection. The colour is `Export.ColorOf` of the entry, not a stored string.
- The plain setters (`set_login_email`, `set_new_password`, `set_confirm_password` and the like): each assigns one field and is not separately modelled.
- The reload chained after `save_sensor` and `delete_sensor`. `Parcels.SaveParcel`, `Parcels.DeleteParcel` and `Parcels.DeleteParcelAsWritten` return the reloaded parcel list. `Parcels.SaveSensor`, `Parcels.DeleteSensor` and `Parcels.DeleteSensorAsWritten` return the page before `load_parcel_detail` runs again, which is modelled as `Parcels.LoadParcelDetail`.
- Api.Record: an alert's message is the datatype `Api.BreachMessage` (low or high, with the sensor type, the value and the threshold), not the f-string text of app/api.py:75-78, so the `:.2f` rounding and the float formatting are not modelled.
- The `IntegrityError` of the as-written deletions: the model returns page and store unchanged with the notice `DeleteFailed`. Reflex's error toast is not modelled.
- Parcels.SaveSensor: when a threshold does not parse, `float` raises and the event stops with nothing saved. The model returns the page and store unchanged and does not model the exception.
- Parcels.SaveSensor: editing does not check that the edited sensor is on the parcel on screen. The source does not check this either.
- Concurrency: two requests interleaving (for example two ingestions racing past the open-alert check) are not modelled. Every operation runs alone.
- The `created_at` columns of users and parcels, and `auth_token`, which nothing reads.
- The sample-data and simulator scripts and the page layouts, which are outside the core.
- Dashboard.LoadDashboard: a window starting before year 1 makes Python raise `OverflowError`. The model stops the chart update there and leaves the loading flag set.

## Findings

| source | as written | input that shows it | evidently intended | confidence | as-written member | corrected member |
|---|---|---|---|---|---|---|
| app/api.py:101-119 | `GET /sensors/{sensor_id}/data` checks only that the sensor exists, so any valid API key reads the history of any user's sensor | two users, the first owning the only parcel and its sensor; the second user's key asks for sensor 1 and receives its reading | like `GET /parcels/{parcel_id}/sensors` (app/api.py:148-150), answer 404 unless the sensor sits on a parcel of the key's owner | not executed | Api.GetSensorHistoryAsWritten, Api.HistoryAsWrittenLeaksOtherUsersReadings | Api.GetSensorHistory, Api.ScopedHistoryReturnsOnlyOwnReadings |
| app/states/analytics_state.py:75, 97, 103, 109, 120, 129; app/states/dashboard_state.py:137, 142 | each handler ends with `await self.fetch_analytics_data()` or `await self.load_dashboard_data()`. Both handlers contain `yield`, so the call returns an async generator, and awaiting it raises TypeError before any of its body runs. The setting changes; chart, statistics and lists keep their old values | the analytics page shows one sensor's chart; the user unchecks that sensor; nothing is selected but the chart and cards stay. Likewise a dashboard chart of "Temperature" points still shows them after switching the type to "Humidity" | after each setting, fetch or reload with the new settings (for example `yield ...fetch_analytics_data` or `async for`) | not executed | Analytics.LoadInitialDataAsWritten, Analytics.SetRangePresetAsWritten, Analytics.SetCustomDatesAsWritten, Analytics.ToggleSensorEventAsWritten, Analytics.SetAggregationAsWritten, Analytics.HandlersAsWrittenNeverFetch, Analytics.UncheckingLastSensorLeavesItsChart, Dashboard.SetTimeFilterAsWritten, Dashboard.SetSensorTypeFilterAsWritten, Dashboard.TypeSwitchAsWrittenShowsOtherTypes | Analytics.LoadInitialData, Analytics.SetRangePreset, Analytics.SetCustomDates, Analytics.ToggleSensorEvent, Analytics.SetAggregation, Analytics.FetchSettles, Dashboard.SetTimeFilter, Dashboard.SetSensorTypeFilter |
| app/states/parcel_state.py:145-150, 225-228 with app/database.py:46-47, 54, 64 | `Sensor.readings` and `Sensor.alerts` have no delete cascade and the children's `sensor_id` is NOT NULL. Deleting a sensor through the session sets its readings' and alerts' `sensor_id` to NULL, and the commit raises IntegrityError. Nothing is deleted and the dialog stays open | a parcel with one sensor that has stored one reading; confirming the parcel's deletion deletes nothing. The same holds for deleting that sensor | delete the sensors' readings and alerts with them (a `cascade="all, delete-orphan"` relationship, or explicit deletes) | not executed | Parcels.DeleteParcelAsWritten, Parcels.DeleteSensorAsWritten, Parcels.DeletingAParcelWithReadingsFails, Parcels.DeletingASensorWithReadingsFails | Parcels.DeleteParcel, Parcels.DeleteSensor, Parcels.DeleteParcelKeepsStoreValid, Parcels.DeleteSensorKeepsStoreValid |

=== FILE: alerts.dfy ===
/**
 * The alerts page (`app/states/alert_state.py`): the two views of a user's
 * alerts and the two transitions that move an alert through its lifecycle.
 *
 * An alert's two flags encode its stage: open (active, unacknowledged),
 * acknowledged (active, acknowledged) and resolved (inactive). Acknowledging
 * moves an open alert on; resolving ends any alert. The page lists the open
 * alerts of the user's sensors and, separately, the 50 newest closed ones.
 */
module Alerts {
  import opened Basics
  import opened Calendar
  import opened Query
  import opened Database

  // ---------------------------------------------------------------------
  // Lifecycle
  // ---------------------------------------------------------------------

  datatype Stage = Open | Acknowledged | Resolved

  /** The stage the flags encode; an inactive alert is resolved whatever its acknowledgement. */
  function StageOf(a: Alert): (st: Stage)
    ensures st == Open <==> IsOpen(a)
    ensures st == Resolved <==> !a.isActive
    ensures st != Open <==> IsClosed(a)
  {
    if !a.isActive then Resolved
    else if a.acknowledged then Acknowledged
    else Open
  }

  /** How far along the lifecycle a stage is. */
  function Rank(st: Stage): nat {
    match st
    case Open => 0
    case Acknowledged => 1
    case Resolved => 2
  }

  /** The alert with `acknowledged` set; `is_active` and every other column are kept. */
  function AcknowledgeAlert(a: Alert): (b: Alert)
    ensures b.acknowledged && b.isActive == a.isActive
    ensures b.(acknowledged := a.acknowledged) == a
    ensures StageOf(b) == if StageOf(a) == Resolved then Resolved else Acknowledged
  {
    a.(acknowledged := true)
  }

  /** The alert made inactive and acknowledged; every other column is kept. */
  function ResolveAlert(a: Alert): (b: Alert)
    ensures b.acknowledged && !b.isActive
    ensures b.(acknowledged := a.acknowledged, isActive := a.isActive) == a
    ensures StageOf(b) == Resolved
  {
    a.(isActive := false, acknowledged := true)
  }

  /** Neither transition moves an alert back along its lifecycle. */
  lemma TransitionsMoveForward(a: Alert)
    ensures Rank(StageOf(a)) <= Rank(StageOf(AcknowledgeAlert(a)))
    ensures Rank(StageOf(a)) <= Rank(StageOf(ResolveAlert(a)))
    ensures StageOf(a) == Open ==> StageOf(AcknowledgeAlert(a)) == Acknowledged
  {
  }

  /**
   * `acknowledge_alert`: the alert with key `alertId` becomes acknowledged,
   * its `is_active` untouched; an unknown key changes nothing.
   */
  function Acknowledge(db: Db, alertId: int): (r: Db)
    ensures r == db.(alerts := r.alerts)
    ensures |r.alerts| == |db.alerts|
    ensures forall i | 0 <= i < |db.alerts| ::
              && r.alerts[i].acknowledged == (db.alerts[i].acknowledged || db.alerts[i].id == alertId)
              && r.alerts[i].(acknowledged := db.alerts[i].acknowledged) == db.alerts[i]
    ensures FindAlert(db, alertId).None? ==> r == db
  {
    var alerts := UpdateById(db.alerts, AlertId, alertId, AcknowledgeAlert);
    assert FindAlert(db, alertId).None? ==> forall i | 0 <= i < |db.alerts| :: AlertId(db.alerts[i]) != alertId;
    assert FindAlert(db, alertId).None? ==> alerts == db.alerts;
    db.(alerts := alerts)
  }

  /**
   * `resolve_alert`: the alert with key `alertId` becomes inactive and
   * acknowledged; an unknown key changes nothing.
   */
  function Resolve(db: Db, alertId: int): (r: Db)
    ensures r == db.(alerts := r.alerts)
    ensures |r.alerts| == |db.alerts|
    ensures forall i | 0 <= i < |db.alerts| ::
              && r.alerts[i].isActive == (db.alerts[i].isActive && db.alerts[i].id != alertId)
              && r.alerts[i].acknowledged == (db.alerts[i].acknowledged || db.alerts[i].id == alertId)
              && r.alerts[i].(isActive := db.alerts[i].isActive, acknowledged := db.alerts[i].acknowledged)
                 == db.alerts[i]
    ensures FindAlert(db, alertId).None? ==> r == db
  {
    var alerts := UpdateById(db.alerts, AlertId, alertId, ResolveAlert);
    assert FindAlert(db, alertId).None? ==> forall i | 0 <= i < |db.alerts| :: AlertId(db.alerts[i]) != alertId;
    assert FindAlert(db, alertId).None? ==> alerts == db.alerts;
    db.(alerts := alerts)
  }

  lemma AcknowledgeIsIdempotent(db: Db, alertId: int)
    ensures Acknowledge(Acknowledge(db, alertId), alertId) == Acknowledge(db, alertId)
  {
    var once := Acknowledge(db, alertId);
    var twice := Acknowledge(once, alertId);
    assert twice.alerts == once.alerts;
  }

  lemma ResolveIsIdempotent(db: Db, alertId: int)
    ensures Resolve(Resolve(db, alertId), alertId) == Resolve(db, alertId)
  {
    var once := Resolve(db, alertId);
    var twice := Resolve(once, alertId);
    assert twice.alerts == once.alerts;
  }

  /** Acknowledging first makes no difference to resolving, and a resolved alert stays resolved. */
  lemma ResolveAbsorbsAcknowledge(db: Db, alertId: int)
    ensures Resolve(Acknowledge(db, alertId), alertId) == Resolve(db, alertId)
    ensures Acknowledge(Resolve(db, alertId), alertId) == Resolve(db, alertId)
  {
    ResolveAfterAcknowledge(db, alertId);
    AcknowledgeAfterResolve(db, alertId);
  }

  lemma ResolveAfterAcknowledge(db: Db, alertId: int)
    ensures Resolve(Acknowledge(db, alertId), alertId) == Resolve(db, alertId)
  {
    var a := Resolve(Acknowledge(db, alertId), alertId).alerts;
    var b := Resolve(db, alertId).alerts;
    forall i | 0 <= i < |b| ensures a[i] == b[i] {
      var x := db.alerts[i];
      assert a[i] == if x.id == alertId then ResolveAlert(AcknowledgeAlert(x)) else x;
    }
    assert a == b;
  }

  lemma AcknowledgeAfterResolve(db: Db, alertId: int)
    ensures Acknowledge(Resolve(db, alertId), alertId) == Resolve(db, alertId)
  {
    var a := Acknowledge(Resolve(db, alertId), alertId).alerts;
    var b := Resolve(db, alertId).alerts;
    forall i | 0 <= i < |b| ensures a[i] == b[i] {
      var x := db.alerts[i];
      assert a[i] == if x.id == alertId then AcknowledgeAlert(ResolveAlert(x)) else x;
    }
    assert a == b;
  }

  /** The transitions only close alerts, so no sensor gains a second open one. */
  lemma TransitionsKeepOneOpenAlertPerSensor(db: Db, alertId: int)
    requires AtMostOneOpenPerSensor(db.alerts)
    ensures AtMostOneOpenPerSensor(Acknowledge(db, alertId).alerts)
    ensures AtMostOneOpenPerSensor(Resolve(db, alertId).alerts)
  {
    var ack := Acknowledge(db, alertId).alerts;
    var res := Resolve(db, alertId).alerts;
    assert forall i | 0 <= i < |ack| :: IsOpen(ack[i]) ==> IsOpen(db.alerts[i]) && ack[i] == db.alerts[i];
    assert forall i | 0 <= i < |res| :: IsOpen(res[i]) ==> IsOpen(db.alerts[i]) && res[i] == db.alerts[i];
  }

  // ---------------------------------------------------------------------
  // The two views
  // ---------------------------------------------------------------------

  /** The most history entries the page shows. */
  const HistoryLimit: nat := 50

  function CreatedAt(a: Alert): Timestamp { a.createdAt }

  /** `WHERE farmer_id == userId AND is_active AND NOT acknowledged`, through the sensor and parcel joins. */
  function OpenOf(db: Db, userId: int): Alert -> bool {
    (a: Alert) => IsOpen(a) && OwnsSensorId(db, a.sensorId, userId)
  }

  /** `WHERE farmer_id == userId AND (acknowledged OR NOT is_active)`, through the joins. */
  function ClosedOf(db: Db, userId: int): Alert -> bool {
    (a: Alert) => IsClosed(a) && OwnsSensorId(db, a.sensorId, userId)
  }

  /** The user's open alerts, newest first: every one of them and nothing else. */
  function ActiveAlerts(db: Db, userId: int): (r: seq<Alert>)
    ensures NewestFirst(r, CreatedAt)
    ensures forall a :: a in r <==> a in db.alerts && IsOpen(a) && OwnsSensorId(db, a.sensorId, userId)
    ensures |r| == Count(db.alerts, OpenOf(db, userId))
  {
    var r := NewestWhere(db.alerts, OpenOf(db, userId), CreatedAt, -1);
    assert forall a | a in db.alerts && IsOpen(a) && OwnsSensorId(db, a.sensorId, userId) :: OpenOf(db, userId)(a);
    r
  }

  /**
   * The user's closed alerts, newest first, at most 50 of them; no closed
   * alert of the user that is left out is newer than one shown.
   */
  function ClosedAlerts(db: Db, userId: int): (r: seq<Alert>)
    ensures NewestFirst(r, CreatedAt)
    ensures |r| == Min(HistoryLimit, Count(db.alerts, ClosedOf(db, userId)))
    ensures forall a | a in r :: a in db.alerts && IsClosed(a) && OwnsSensorId(db, a.sensorId, userId)
    ensures forall a, b | a in r && b in db.alerts && IsClosed(b) && OwnsSensorId(db, b.sensorId, userId) && b !in r ::
              NotAfter(b.createdAt, a.createdAt)
    ensures multiset(r) <= multiset(Filter(db.alerts, ClosedOf(db, userId)))
  {
    var r := NewestWhere(db.alerts, ClosedOf(db, userId), CreatedAt, HistoryLimit);
    assert forall a, b | a in r && b in db.alerts && IsClosed(b) && OwnsSensorId(db, b.sensorId, userId) && b !in r ::
             NotAfter(b.createdAt, a.createdAt) by {
      forall a, b | a in r && b in db.alerts && IsClosed(b) && OwnsSensorId(db, b.sensorId, userId) && b !in r
        ensures NotAfter(b.createdAt, a.createdAt)
      {
        assert ClosedOf(db, userId)(b);
        assert NotAfter(CreatedAt(b), CreatedAt(a));
      }
    }
    r
  }

  /** One line of the active list: the alert with its sensor and parcel. */
  datatype ActiveRow = ActiveRow(alert: Alert, sensor: Sensor, parcel: Parcel)

  /** One line of the history: the alert, its sensor and parcel, and the status shown. */
  datatype HistoryRow = HistoryRow(alert: Alert, sensor: Sensor, parcel: Parcel, status: Stage)

  predicate AllJoin(db: Db, alerts: seq<Alert>) {
    forall a | a in alerts :: JoinSensor(db, a.sensorId).Some?
  }

  function ActiveRows(db: Db, alerts: seq<Alert>): (r: seq<ActiveRow>)
    requires AllJoin(db, alerts)
    ensures |r| == |alerts|
    ensures forall i | 0 <= i < |alerts| ::
              r[i].alert == alerts[i] && Some(Joined(r[i].sensor, r[i].parcel)) == JoinSensor(db, alerts[i].sensorId)
  {
    seq(|alerts|, i requires 0 <= i < |alerts| =>
      assert alerts[i] in alerts;
      var j := JoinSensor(db, alerts[i].sensorId).value;
      ActiveRow(alerts[i], j.sensor, j.parcel))
  }

  /** The history lines; the status is "Resolved" for an inactive alert and "Acknowledged" otherwise. */
  function HistoryRows(db: Db, alerts: seq<Alert>): (r: seq<HistoryRow>)
    requires AllJoin(db, alerts)
    requires forall a | a in alerts :: IsClosed(a)
    ensures |r| == |alerts|
    ensures forall i | 0 <= i < |alerts| ::
              && r[i].alert == alerts[i]
              && Some(Joined(r[i].sensor, r[i].parcel)) == JoinSensor(db, alerts[i].sensorId)
              && (r[i].status == Resolved <==> !alerts[i].isActive)
              && (r[i].status == Acknowledged <==> alerts[i].isActive)
  {
    seq(|alerts|, i requires 0 <= i < |alerts| =>
      assert alerts[i] in alerts;
      var j := JoinSensor(db, alerts[i].sensorId).value;
      HistoryRow(alerts[i], j.sensor, j.parcel, StageOf(alerts[i])))
  }

  /** The page's state. */
  datatype AlertsPage = AlertsPage(active: seq<ActiveRow>, history: seq<HistoryRow>, filterType: string)

  /**
   * `load_alerts`: without a logged-in user nothing changes; otherwise both
   * lists are rebuilt from the store.
   */
  function LoadAlerts(page: AlertsPage, db: Db, user: Option<User>): (r: AlertsPage)
    ensures user.None? ==> r == page
    ensures r.filterType == page.filterType
    ensures user.Some? ==> && |r.active| == |ActiveAlerts(db, user.value.id)|
                           && (forall i | 0 <= i < |r.active| :: r.active[i].alert == ActiveAlerts(db, user.value.id)[i])
                           && |r.history| == |ClosedAlerts(db, user.value.id)|
                           && (forall i | 0 <= i < |r.history| :: r.history[i].alert == ClosedAlerts(db, user.value.id)[i])
  {
    match user
    case None => page
    case Some(u) =>
      var active := ActiveAlerts(db, u.id);
      var closed := ClosedAlerts(db, u.id);
      page.(active := ActiveRows(db, active), history := HistoryRows(db, closed))
  }

  /** No alert appears in both lists. */
  lemma ViewsAreDisjoint(db: Db, userId: int)
    ensures forall a | a in ActiveAlerts(db, userId) :: a !in ClosedAlerts(db, userId)
  {
  }

  /**
   * With unique keys, an alert whose sensor sits on another user's parcel
   * appears in neither list.
   */
  lemma OtherUsersAlertsAreHidden(db: Db, userId: int, other: int, a: Alert)
    requires UniqueIds(db.sensors, SensorId) && UniqueIds(db.parcels, ParcelId)
    requires other != userId
    requires exists s | s in db.sensors :: s.id == a.sensorId && SensorOwnedBy(db, s, other)
    ensures a !in ActiveAlerts(db, userId) && a !in ClosedAlerts(db, userId)
  {
    OwnsSensorIdIsOwnership(db, a.sensorId, other);
  }

  /** Once acknowledged, an alert is gone from its owner's active list. */
  lemma AcknowledgedAlertLeavesActiveList(db: Db, userId: int, alertId: int)
    ensures forall a | a in ActiveAlerts(Acknowledge(db, alertId), userId) :: a.id != alertId
  {
    var db' := Acknowledge(db, alertId);
    forall a | a in ActiveAlerts(db', userId) ensures a.id != alertId {
      var i :| 0 <= i < |db'.alerts| && db'.alerts[i] == a;
    }
  }
}

=== FILE: analytics.dfy ===
/**
 * The analytics page (`app/states/analytics_state.py`): the sensor
 * selection, the date range, and the aggregation of the selected sensors'
 * readings into chart rows (one per time bucket) and per-sensor statistics.
 *
 * Bucket keys are truncated timestamps; the source formats them as
 * zero-padded text and sorts the text, which orders them as the tuples
 * here are ordered. Means are exact: the source's rounding to two places is
 * not modelled.
 */
module Analytics {
  import opened Basics
  import opened Calendar
  import opened Query
  import opened Database
  import opened Api
  import opened Dashboard

  // ---------------------------------------------------------------------
  // Selection
  // ---------------------------------------------------------------------

  /** How many sensors can be compared at once. */
  const MaxSelected: nat := 5

  predicate NoDuplicates(s: seq<int>) {
    forall i, j | 0 <= i < j < |s| :: s[i] != s[j]
  }

  /** A selection the page can reach: no sensor twice, at most five. */
  predicate GoodSelection(s: seq<int>) {
    NoDuplicates(s) && |s| <= MaxSelected
  }

  /** The position of the first occurrence of `x` in `s`. */
  function IndexOf(s: seq<int>, x: int): (i: nat)
    requires x in s
    ensures i < |s| && s[i] == x && x !in s[..i]
  {
    if s[0] == x then 0
    else
      var j := IndexOf(s[1..], x);
      assert s[..j + 1] == [s[0]] + s[1..][..j];
      j + 1
  }

  /** `list.remove(x)`: the first occurrence of `x` taken out. */
  function RemoveFirst(s: seq<int>, x: int): (r: seq<int>)
    ensures x in s ==> |r| == |s| - 1
    ensures x !in s ==> r == s
    ensures multiset(r) == multiset(s) - multiset{x}
    ensures forall y | y in r :: y in s
  {
    if s == [] then []
    else if s[0] == x then
      RemovalAtHead(s, x);
      s[1..]
    else
      var rest := RemoveFirst(s[1..], x);
      RemovalAfterHead(s, x, rest);
      [s[0]] + rest
  }

  /** When the head is `x`, dropping it removes one `x`. */
  lemma RemovalAtHead(s: seq<int>, x: int)
    requires s != [] && s[0] == x
    ensures multiset(s[1..]) == multiset(s) - multiset{x}
    ensures forall y | y in s[1..] :: y in s
  {
    assert s == [s[0]] + s[1..];
  }

  /** Keeping a head other than `x` in front of the tail's removal removes one `x` from the whole. */
  lemma RemovalAfterHead(s: seq<int>, x: int, rest: seq<int>)
    requires s != [] && s[0] != x
    requires multiset(rest) == multiset(s[1..]) - multiset{x}
    requires forall y | y in rest :: y in s[1..]
    requires x in s[1..] ==> |rest| == |s| - 2
    requires x !in s[1..] ==> rest == s[1..]
    ensures multiset([s[0]] + rest) == multiset(s) - multiset{x}
    ensures forall y | y in [s[0]] + rest :: y in s
    ensures x in s ==> |[s[0]] + rest| == |s| - 1
    ensures x !in s ==> [s[0]] + rest == s
  {
    var t := s[1..];
    assert s == [s[0]] + t;
    assert multiset(s) == multiset{s[0]} + multiset(t);
    assert multiset([s[0]] + rest) == multiset{s[0]} + multiset(rest);
    assert x in s <==> x in t;
  }

  /**
   * `list.remove` keeps order: the result is the list with the element at
   * the first occurrence of `x` cut out, everything before and after it
   * in place.
   */
  lemma {:induction false} RemoveFirstCutsFirstOccurrence(s: seq<int>, x: int)
    requires x in s
    ensures RemoveFirst(s, x) == s[..IndexOf(s, x)] + s[IndexOf(s, x) + 1..]
  {
    if s[0] != x {
      var t := s[1..];
      var j := IndexOf(t, x);
      assert IndexOf(s, x) == j + 1;
      RemoveFirstCutsFirstOccurrence(t, x);
      assert RemoveFirst(s, x) == [s[0]] + (t[..j] + t[j + 1..]);
      CutBehindHead(s, j);
    }
  }

  /** Cutting position `j` out of the tail, with the head in front, cuts position `j + 1` out of the list. */
  lemma CutBehindHead(s: seq<int>, j: nat)
    requires j + 1 < |s|
    ensures [s[0]] + (s[1..][..j] + s[1..][j + 1..]) == s[..j + 1] + s[j + 2..]
  {
    assert s[..j + 1] == [s[0]] + s[1..][..j];
    assert s[1..][j + 1..] == s[j + 2..];
  }

  /** What toggling a checkbox does to the selection: the new selection, or a warning and no change. */
  datatype Toggled = Selection(ids: seq<int>) | TooMany

  /**
   * `toggle_sensor`: checking with five already selected warns; checking
   * adds the id unless present; unchecking removes it if present.
   */
  function ToggleSensor(selected: seq<int>, sensorId: int, checked: bool): (r: Toggled)
    ensures r == TooMany <==> checked && |selected| >= MaxSelected
    ensures r.Selection? && checked ==> sensorId in r.ids
    ensures r.Selection? && checked ==> (sensorId in selected <==> r.ids == selected)
    ensures r.Selection? && checked && sensorId !in selected ==> r.ids == selected + [sensorId]
    ensures r.Selection? && !checked ==> multiset(r.ids) == multiset(selected) - multiset{sensorId}
    ensures r.Selection? && !checked && sensorId in selected ==>
              r.ids == selected[..IndexOf(selected, sensorId)] + selected[IndexOf(selected, sensorId) + 1..]
    ensures !checked && sensorId !in selected ==> r == Selection(selected)
  {
    if checked then
      if |selected| >= MaxSelected then TooMany
      else if sensorId !in selected then Selection(selected + [sensorId])
      else Selection(selected)
    else if sensorId in selected then
      RemoveFirstCutsFirstOccurrence(selected, sensorId);
      Selection(RemoveFirst(selected, sensorId))
    else Selection(selected)
  }

  /** Toggling keeps the selection free of duplicates and at most five long. */
  lemma ToggleKeepsSelectionGood(selected: seq<int>, sensorId: int, checked: bool)
    requires GoodSelection(selected)
    ensures var r := ToggleSensor(selected, sensorId, checked);
            r.Selection? ==> GoodSelection(r.ids)
    ensures !checked ==> sensorId !in ToggleSensor(selected, sensorId, checked).ids
  {
    var r := ToggleSensor(selected, sensorId, checked);
    if !checked && sensorId in selected {
      RemoveFirstKeepsNoDuplicates(selected, sensorId);
    }
  }

  lemma {:induction false} RemoveFirstKeepsNoDuplicates(s: seq<int>, x: int)
    requires NoDuplicates(s)
    ensures NoDuplicates(RemoveFirst(s, x))
    ensures x !in RemoveFirst(s, x)
  {
    if s != [] {
      NoDuplicatesSplits(s);
      if s[0] != x {
        RemoveFirstKeepsNoDuplicates(s[1..], x);
        NoDuplicatesJoin(s[0], RemoveFirst(s[1..], x));
      }
    }
  }

  /** A list without duplicates is its head in front of a tail without duplicates that lacks the head. */
  lemma NoDuplicatesSplits(s: seq<int>)
    requires s != [] && NoDuplicates(s)
    ensures s[0] !in s[1..] && NoDuplicates(s[1..])
  {
    forall i, j | 0 <= i < j < |s[1..]| ensures s[1..][i] != s[1..][j] {
      assert s[1..][i] == s[i + 1] && s[1..][j] == s[j + 1];
    }
  }

  /** A head missing from a tail without duplicates gives a list without duplicates. */
  lemma NoDuplicatesJoin(a: int, rest: seq<int>)
    requires a !in rest && NoDuplicates(rest)
    ensures NoDuplicates([a] + rest)
  {
    var r := [a] + rest;
    forall i, j | 0 <= i < j < |r| ensures r[i] != r[j] {
      assert r[j] == rest[j - 1];
      if i > 0 {
        assert r[i] == rest[i - 1];
      }
    }
  }

  // ---------------------------------------------------------------------
  // Date range
  // ---------------------------------------------------------------------

  /** The days each preset reaches back; other values are not presets. */
  function PresetDays(preset: string): Option<nat> {
    if preset == "7d" then Some(7)
    else if preset == "30d" then Some(30)
    else if preset == "90d" then Some(90)
    else None
  }

  /** The range as the page holds it: two `YYYY-MM-DD` strings, possibly empty or malformed. */
  datatype Range = Range(startDate: string, endDate: string)

  /**
   * `set_preset_dates` at the instant `now`: the end becomes today; for a
   * known preset the start becomes that many days back. An unknown preset,
   * or a start before year 1 (where Python raises after the end has been
   * set), leaves the start as it was.
   */
  function SetPresetDates(range: Range, preset: string, now: Timestamp): (r: Range)
    requires ValidTimestamp(now)
    ensures r.endDate == FormatDate(now.date)
    ensures PresetDays(preset).None? ==> r.startDate == range.startDate
    ensures PresetDays(preset).Some? && DaysBefore(now.date, PresetDays(preset).value).Some? ==>
              r.startDate == FormatDate(DaysBefore(now.date, PresetDays(preset).value).value)
    ensures PresetDays(preset).Some? && DaysBefore(now.date, PresetDays(preset).value).None? ==>
              r.startDate == range.startDate
    ensures PresetDays(preset).Some? && now.date.year >= 2 ==> ParseDate(r.startDate).Some?
  {
    var ended := range.(endDate := FormatDate(now.date));
    match PresetDays(preset)
    case None => ended
    case Some(k) =>
      if now.date.year >= 2 then
        DaysBeforeSucceedsFromYearTwo(now.date, k);
        var d := DaysBefore(now.date, k).value;
        ParseDateReadsFormatDate(d);
        ended.(startDate := FormatDate(d))
      else
        match DaysBefore(now.date, k)
        case None => ended
        case Some(d) => ended.(startDate := FormatDate(d))
  }

  /**
   * A preset whose start would precede year 1: Python sets the end date,
   * then raises OverflowError, and the event handler stops there.
   */
  predicate PresetOverflows(preset: string, now: Timestamp)
    requires ValidTimestamp(now)
  {
    PresetDays(preset).Some? && DaysBefore(now.date, PresetDays(preset).value).None?
  }

  /**
   * A preset range reads back as two valid dates exactly the preset's
   * number of days apart, ending today.
   */
  lemma PresetRangeSpansPreset(range: Range, preset: string, now: Timestamp)
    requires ValidTimestamp(now)
    requires PresetDays(preset).Some? && DaysBefore(now.date, PresetDays(preset).value).Some?
    ensures var r := SetPresetDates(range, preset, now);
            && ParseDate(r.endDate) == Some(now.date)
            && ParseDate(r.startDate).Some?
            && DaysAfter(ParseDate(r.startDate).value, PresetDays(preset).value) == Some(now.date)
  {
    var k := PresetDays(preset).value;
    var d := DaysBefore(now.date, k).value;
    ParseDateReadsFormatDate(now.date);
    ParseDateReadsFormatDate(d);
    DaysAfterUndoesDaysBefore(now.date, k);
  }

  // ---------------------------------------------------------------------
  // Buckets
  // ---------------------------------------------------------------------

  datatype Aggregation = Raw | Hour | Day

  /** The aggregation setting: "hour", "day", and anything else is raw. */
  function AggregationOf(setting: string): Aggregation {
    if setting == "hour" then Hour
    else if setting == "day" then Day
    else Raw
  }

  /**
   * The bucket a timestamp falls in: truncated to the hour, to the day, or
   * (raw) to the second — the key's text carries no microseconds.
   */
  function BucketKey(agg: Aggregation, t: Timestamp): (k: Timestamp)
    ensures k.date == t.date && k.micro == 0
    ensures agg == Hour ==> k == Timestamp(t.date, t.hour, 0, 0, 0)
    ensures agg == Day ==> k == Midnight(t.date)
    ensures agg == Raw ==> k == t.(micro := 0)
  {
    match agg
    case Raw => t.(micro := 0)
    case Hour => Timestamp(t.date, t.hour, 0, 0, 0)
    case Day => Midnight(t.date)
  }

  /** A key is the start of its own bucket, never after the instant, and truncation keeps order. */
  lemma BucketKeyIsTruncation(agg: Aggregation, t: Timestamp, u: Timestamp)
    requires ValidTimestamp(t) && ValidTimestamp(u)
    ensures BucketKey(agg, BucketKey(agg, t)) == BucketKey(agg, t)
    ensures NotAfter(BucketKey(agg, t), t)
    ensures NotAfter(t, u) ==> NotAfter(BucketKey(agg, t), BucketKey(agg, u))
  {
  }

  /** Strictly increasing timestamps: sorted with no key twice. */
  predicate StrictlyAscending(s: seq<Timestamp>) {
    forall i, j | 0 <= i < j < |s| :: Before(s[i], s[j])
  }

  /** `k` put in its place in a strictly ascending sequence, unless already there. */
  function InsertKey(k: Timestamp, s: seq<Timestamp>): (r: seq<Timestamp>)
    requires StrictlyAscending(s)
    ensures StrictlyAscending(r)
    ensures forall x :: x in r <==> x == k || x in s
  {
    if s == [] then [k]
    else if k == s[0] then s
    else if Before(k, s[0]) then
      assert forall j | 0 < j < |s| :: Before(s[0], s[j]);
      [k] + s
    else
      var rest := InsertKey(k, s[1..]);
      assert forall x | x in rest :: Before(s[0], x) by {
        forall x | x in rest ensures Before(s[0], x) {
          if x != k {
            var j :| 0 <= j < |s[1..]| && s[1..][j] == x;
            assert s[j + 1] == x;
          }
        }
      }
      assert s == [s[0]] + s[1..];
      [s[0]] + rest
  }

  /** `sorted(buckets.keys())`: the distinct bucket keys of the readings, ascending. */
  function SortedKeys(agg: Aggregation, readings: seq<Reading>): (r: seq<Timestamp>)
    ensures StrictlyAscending(r)
    ensures forall k :: k in r <==> exists x | x in readings :: BucketKey(agg, x.timestamp) == k
  {
    if readings == [] then []
    else
      var rest := SortedKeys(agg, readings[1..]);
      assert forall x | x in readings :: x == readings[0] || x in readings[1..];
      InsertKey(BucketKey(agg, readings[0].timestamp), rest)
  }

  // ---------------------------------------------------------------------
  // Values, means and extremes
  // ---------------------------------------------------------------------

  function Values(readings: seq<Reading>): (v: seq<real>)
    ensures |v| == |readings|
    ensures forall i | 0 <= i < |readings| :: v[i] == readings[i].value
  {
    seq(|readings|, i requires 0 <= i < |readings| => readings[i].value)
  }

  function Sum(v: seq<real>): real {
    if v == [] then 0.0 else v[0] + Sum(v[1..])
  }

  function Mean(v: seq<real>): real
    requires v != []
  {
    Sum(v) / (|v| as real)
  }

  function MinOf(v: seq<real>): (m: real)
    requires v != []
    ensures m in v
    ensures forall x | x in v :: m <= x
  {
    if |v| == 1 then v[0]
    else
      var rest := MinOf(v[1..]);
      assert forall x | x in v :: x == v[0] || x in v[1..];
      if v[0] <= rest then v[0] else rest
  }

  function MaxOf(v: seq<real>): (m: real)
    requires v != []
    ensures m in v
    ensures forall x | x in v :: x <= m
  {
    if |v| == 1 then v[0]
    else
      var rest := MaxOf(v[1..]);
      assert forall x | x in v :: x == v[0] || x in v[1..];
      if rest <= v[0] then v[0] else rest
  }

  /** The sum of `n` values, each at least `c`, is at least `n` times `c`. */
  lemma {:induction false} SumAtLeast(v: seq<real>, c: real)
    requires forall x | x in v :: c <= x
    ensures (|v| as real) * c <= Sum(v)
  {
    if v != [] {
      var rest := v[1..];
      assert forall x | x in rest :: x in v;
      SumAtLeast(rest, c);
      assert v[0] in v;
      OneMoreTimes(|rest| as real, c);
    }
  }

  /** The sum of `n` values, each at most `c`, is at most `n` times `c`. */
  lemma {:induction false} SumAtMost(v: seq<real>, c: real)
    requires forall x | x in v :: x <= c
    ensures Sum(v) <= (|v| as real) * c
  {
    if v != [] {
      var rest := v[1..];
      assert forall x | x in rest :: x in v;
      SumAtMost(rest, c);
      assert v[0] in v;
      OneMoreTimes(|rest| as real, c);
    }
  }

  lemma OneMoreTimes(n: real, m: real)
    ensures (n + 1.0) * m == n * m + m
  {
  }

  lemma ScaleKeepsOrder(a: real, b: real, n: real)
    requires a <= b && n >= 0.0
    ensures n * a <= n * b
  {
  }

  lemma ScaleKeepsStrictOrder(a: real, b: real, n: real)
    requires a < b && n > 0.0
    ensures n * a < n * b
  {
  }

  /** Dividing by a positive count keeps a lower bound scaled by it. */
  lemma DivideKeepsLowerBound(lo: real, s: real, n: real)
    requires n > 0.0 && n * lo <= s
    ensures lo <= s / n
  {
    var m := s / n;
    assert n * m == s;
    if m < lo {
      ScaleKeepsStrictOrder(m, lo, n);
    }
  }

  /** Dividing by a positive count keeps an upper bound scaled by it. */
  lemma DivideKeepsUpperBound(s: real, hi: real, n: real)
    requires n > 0.0 && s <= n * hi
    ensures s / n <= hi
  {
    var m := s / n;
    assert n * m == s;
    if hi < m {
      ScaleKeepsStrictOrder(hi, m, n);
    }
  }

  lemma MinNotAboveMean(v: seq<real>)
    requires v != []
    ensures MinOf(v) <= Mean(v)
  {
    SumAtLeast(v, MinOf(v));
    DivideKeepsLowerBound(MinOf(v), Sum(v), |v| as real);
  }

  lemma MaxNotBelowMean(v: seq<real>)
    requires v != []
    ensures Mean(v) <= MaxOf(v)
  {
    SumAtMost(v, MaxOf(v));
    DivideKeepsUpperBound(Sum(v), MaxOf(v), |v| as real);
  }

  /** A mean lies between the least and the greatest value. */
  lemma MeanBetweenExtremes(v: seq<real>)
    requires v != []
    ensures MinOf(v) <= Mean(v) <= MaxOf(v)
  {
    MinNotAboveMean(v);
    MaxNotBelowMean(v);
  }

  /** `n` equal values sum to `n` times the value. */
  lemma {:induction false} SumOfEqualValues(v: seq<real>, c: real)
    requires forall y | y in v :: y == c
    ensures Sum(v) == (|v| as real) * c
  {
    if v != [] {
      var rest := v[1..];
      assert forall y | y in rest :: y in v;
      SumOfEqualValues(rest, c);
      assert v[0] in v;
      assert (|v| as real) == (|rest| as real) + 1.0;
      assert Sum(v) == c + (|rest| as real) * c;
    }
  }

  /** Equal values average to that value. */
  lemma MeanOfEqualValues(v: seq<real>, c: real)
    requires v != []
    requires forall y | y in v :: y == c
    ensures Mean(v) == c
  {
    var n := |v| as real;
    SumOfEqualValues(v, c);
    assert Sum(v) == n * c;
    assert Mean(v) == (n * c) / n;
  }

  // ---------------------------------------------------------------------
  // Chart rows and statistics
  // ---------------------------------------------------------------------

  /** One chart row: a bucket key and, per selected sensor with readings in the bucket, their mean. */
  datatype ChartRow = ChartRow(key: Timestamp, means: map<int, real>)

  /** The readings of one sensor that fall in the bucket `key`. */
  function InBucket(agg: Aggregation, sensorId: int, key: Timestamp): Reading -> bool {
    (x: Reading) => x.sensorId == sensorId && BucketKey(agg, x.timestamp) == key
  }

  function BucketValues(agg: Aggregation, readings: seq<Reading>, sensorId: int, key: Timestamp): seq<real> {
    Values(Filter(readings, InBucket(agg, sensorId, key)))
  }

  /**
   * The row for one bucket: a sensor of the selection has an entry exactly
   * when it has a reading in the bucket, and the entry is the mean of those
   * readings' values.
   */
  function RowFor(agg: Aggregation, selected: seq<int>, readings: seq<Reading>, key: Timestamp): (row: ChartRow)
    ensures row.key == key
    ensures forall id :: id in row.means <==>
              id in selected && exists x | x in readings :: x.sensorId == id && BucketKey(agg, x.timestamp) == key
    ensures forall id | id in row.means :: BucketValues(agg, readings, id, key) != []
                                           && row.means[id] == Mean(BucketValues(agg, readings, id, key))
  {
    var means := map id | id in selected && BucketValues(agg, readings, id, key) != [] ::
                   Mean(BucketValues(agg, readings, id, key));
    assert forall id :: id in means <==>
             id in selected && exists x | x in readings :: x.sensorId == id && BucketKey(agg, x.timestamp) == key by {
      forall id
        ensures id in means <==>
                id in selected && exists x | x in readings :: x.sensorId == id && BucketKey(agg, x.timestamp) == key
      {
        var kept := Filter(readings, InBucket(agg, id, key));
        if exists x | x in readings :: x.sensorId == id && BucketKey(agg, x.timestamp) == key {
          var x :| x in readings && x.sensorId == id && BucketKey(agg, x.timestamp) == key;
          assert InBucket(agg, id, key)(x);
          assert x in kept;
        } else if kept != [] {
          assert kept[0] in kept;
        }
      }
    }
    ChartRow(key, means)
  }

  function KeysOf(rows: seq<ChartRow>): (keys: seq<Timestamp>)
    ensures |keys| == |rows|
    ensures forall i | 0 <= i < |rows| :: keys[i] == rows[i].key
  {
    seq(|rows|, i requires 0 <= i < |rows| => rows[i].key)
  }

  /** The chart: one row per distinct bucket key, in ascending key order. */
  function ChartRows(agg: Aggregation, selected: seq<int>, readings: seq<Reading>): (r: seq<ChartRow>)
    ensures StrictlyAscending(KeysOf(r))
    ensures forall k :: k in KeysOf(r) <==> exists x | x in readings :: BucketKey(agg, x.timestamp) == k
    ensures forall i | 0 <= i < |r| :: r[i] == RowFor(agg, selected, readings, r[i].key)
  {
    var keys := SortedKeys(agg, readings);
    var r := seq(|keys|, i requires 0 <= i < |keys| => RowFor(agg, selected, readings, keys[i]));
    assert KeysOf(r) == keys;
    r
  }

  /** In raw aggregation, a bucket holding a single reading shows that reading's value. */
  lemma LoneReadingShowsItsValue(selected: seq<int>, readings: seq<Reading>, x: Reading)
    requires x in readings && x.sensorId in selected
    requires forall y | y in readings && y != x ::
               y.sensorId != x.sensorId || BucketKey(Raw, y.timestamp) != BucketKey(Raw, x.timestamp)
    ensures var row := RowFor(Raw, selected, readings, BucketKey(Raw, x.timestamp));
            x.sensorId in row.means && row.means[x.sensorId] == x.value
  {
    var key := BucketKey(Raw, x.timestamp);
    var vals := BucketValues(Raw, readings, x.sensorId, key);
    LoneReadingFillsItsBucket(readings, x);
    MeanOfEqualValues(vals, x.value);
  }

  /** The values in the bucket of a reading alone in it are all that reading's value. */
  lemma LoneReadingFillsItsBucket(readings: seq<Reading>, x: Reading)
    requires x in readings
    requires forall y | y in readings && y != x ::
               y.sensorId != x.sensorId || BucketKey(Raw, y.timestamp) != BucketKey(Raw, x.timestamp)
    ensures var vals := BucketValues(Raw, readings, x.sensorId, BucketKey(Raw, x.timestamp));
            vals != [] && forall v | v in vals :: v == x.value
  {
    var keep := InBucket(Raw, x.sensorId, BucketKey(Raw, x.timestamp));
    var kept := Filter(readings, keep);
    var vals := Values(kept);
    assert keep(x);
    assert x in kept;
    forall v | v in vals ensures v == x.value {
      var i :| 0 <= i < |vals| && vals[i] == v;
      assert kept[i] in kept;
      assert keep(kept[i]);
    }
  }

  /** What the page shows for a sensor it can offer. */
  datatype SensorOption = SensorOption(id: int, name: string, kind: string, parcelName: string)

  /** `next(s for s in available_sensors if s["id"] == id)`. */
  function FindOption(available: seq<SensorOption>, id: int): (r: Option<SensorOption>)
    ensures r.Some? ==> r.value in available && r.value.id == id
    ensures r.None? <==> forall o | o in available :: o.id != id
  {
    if available == [] then None
    else if available[0].id == id then Some(available[0])
    else FindOption(available[1..], id)
  }

  /** One statistics card: the sensor, and the least, greatest and mean value and the count. */
  datatype SensorStat = SensorStat(
    sensorId: int, name: string, parcel: string, kind: string,
    min: real, max: real, avg: real, count: nat)

  /**
   * The statistics, in selection order: one card per selected sensor that
   * the page offers and that has readings in range.
   */
  function Stats(selected: seq<int>, available: seq<SensorOption>, readings: seq<Reading>): (r: seq<SensorStat>)
    ensures |r| <= |selected|
    ensures forall st | st in r ::
              && st.sensorId in selected
              && FindOption(available, st.sensorId).Some?
              && st.count == Count(readings, OfSensor(st.sensorId)) > 0
              && st.min <= st.avg <= st.max
              && (exists x | x in readings && x.sensorId == st.sensorId :: x.value == st.min)
              && (exists x | x in readings && x.sensorId == st.sensorId :: x.value == st.max)
              && (forall x | x in readings && x.sensorId == st.sensorId :: st.min <= x.value <= st.max)
    ensures forall id | id in selected && FindOption(available, id).Some?
                        && exists x | x in readings :: x.sensorId == id ::
              exists st | st in r :: st.sensorId == id
  {
    if selected == [] then []
    else
      var rest := Stats(selected[1..], available, readings);
      var id := selected[0];
      var mine := Filter(readings, OfSensor(id));
      var vals := Values(mine);
      match FindOption(available, id)
      case None => rest
      case Some(info) =>
        if vals == [] then rest
        else
          var st := StatOf(info, mine);
          [st] + rest
  }

  /** The card for one sensor from its in-range readings. */
  function StatOf(info: SensorOption, mine: seq<Reading>): (st: SensorStat)
    requires mine != []
    ensures st.sensorId == info.id && st.count == |mine|
    ensures st.name == info.name && st.parcel == info.parcelName && st.kind == info.kind
    ensures st.avg == Mean(Values(mine))
    ensures st.min <= st.avg <= st.max
    ensures exists x | x in mine :: x.value == st.min
    ensures exists x | x in mine :: x.value == st.max
    ensures forall x | x in mine :: st.min <= x.value <= st.max
  {
    var vals := Values(mine);
    MeanBetweenExtremes(vals);
    var lo := MinOf(vals);
    var hi := MaxOf(vals);
    assert forall x | x in mine :: x.value in vals by {
      forall x | x in mine ensures x.value in vals {
        var i :| 0 <= i < |mine| && mine[i] == x;
        assert vals[i] == x.value;
      }
    }
    var i :| 0 <= i < |vals| && vals[i] == lo;
    var j :| 0 <= j < |vals| && vals[j] == hi;
    assert mine[i] in mine && mine[j] in mine;
    SensorStat(info.id, info.name, info.parcelName, info.kind, lo, hi, Mean(vals), |vals|)
  }

  /** The sensors that get a card: offered by the page and with readings in range. */
  function HasCard(available: seq<SensorOption>, readings: seq<Reading>): int -> bool {
    (id: int) => FindOption(available, id).Some? && Filter(readings, OfSensor(id)) != []
  }

  /** The card a sensor that gets one shows: its option and all its readings in range. */
  function CardFor(available: seq<SensorOption>, readings: seq<Reading>, id: int): (st: SensorStat)
    requires HasCard(available, readings)(id)
    ensures st.sensorId == id
  {
    StatOf(FindOption(available, id).value, Filter(readings, OfSensor(id)))
  }

  function CardIds(cards: seq<SensorStat>): (ids: seq<int>)
    ensures |ids| == |cards|
    ensures forall i | 0 <= i < |cards| :: ids[i] == cards[i].sensorId
  {
    seq(|cards|, i requires 0 <= i < |cards| => cards[i].sensorId)
  }

  /**
   * The statistics are exactly the cards of the selected sensors that get
   * one, in selection order, each computed from all of that sensor's
   * readings in range.
   */
  lemma {:induction false} StatsFollowSelection(selected: seq<int>, available: seq<SensorOption>, readings: seq<Reading>)
    ensures CardIds(Stats(selected, available, readings)) == Filter(selected, HasCard(available, readings))
    ensures forall st | st in Stats(selected, available, readings) ::
              HasCard(available, readings)(st.sensorId) && st == CardFor(available, readings, st.sensorId)
  {
    if selected != [] {
      var r := Stats(selected, available, readings);
      var rest := Stats(selected[1..], available, readings);
      var id := selected[0];
      var shown := HasCard(available, readings);
      StatsFollowSelection(selected[1..], available, readings);
      UnfoldStats(selected, available, readings);
      assert Filter(selected, shown) == if shown(id) then [id] + Filter(selected[1..], shown) else Filter(selected[1..], shown);
      if shown(id) {
        var st := CardFor(available, readings, id);
        assert r == [st] + rest;
        CardIdsPrepend(st, rest);
        assert forall x | x in r :: x == st || x in rest;
      }
    }
  }

  lemma CardIdsPrepend(st: SensorStat, rest: seq<SensorStat>)
    ensures CardIds([st] + rest) == [st.sensorId] + CardIds(rest)
  {
    var r := [st] + rest;
    assert forall i | 0 < i < |r| :: r[i] == rest[i - 1];
  }

  /** One step of `Stats`: the head's card, if it gets one, in front of the tail's cards. */
  lemma UnfoldStats(selected: seq<int>, available: seq<SensorOption>, readings: seq<Reading>)
    requires selected != []
    ensures Stats(selected, available, readings) ==
              if HasCard(available, readings)(selected[0])
              then [CardFor(available, readings, selected[0])] + Stats(selected[1..], available, readings)
              else Stats(selected[1..], available, readings)
  {
  }

  /** Keeping some entries of a list without duplicates leaves a list without duplicates. */
  lemma {:induction false} FilterKeepsNoDuplicates(s: seq<int>, keep: int -> bool)
    requires NoDuplicates(s)
    ensures NoDuplicates(Filter(s, keep))
  {
    if s != [] {
      NoDuplicatesSplits(s);
      FilterKeepsNoDuplicates(s[1..], keep);
      if keep(s[0]) {
        NoDuplicatesJoin(s[0], Filter(s[1..], keep));
      }
    }
  }

  /** A selection without duplicates gets at most one card per sensor. */
  lemma OneCardPerSensor(selected: seq<int>, available: seq<SensorOption>, readings: seq<Reading>)
    requires NoDuplicates(selected)
    ensures NoDuplicates(CardIds(Stats(selected, available, readings)))
  {
    StatsFollowSelection(selected, available, readings);
    FilterKeepsNoDuplicates(selected, HasCard(available, readings));
  }

  // ---------------------------------------------------------------------
  // Fetching
  // ---------------------------------------------------------------------

  /** `SensorData.sensor_id IN selected`. */
  function SelectedIn(selected: seq<int>): Reading -> bool {
    (x: Reading) => x.sensorId in selected
  }

  /**
   * The readings of the selected sensors from the first instant of `start`
   * up to, not including, the first instant of the day after `end`.
   */
  function InRange(db: Db, selected: seq<int>, start: Date, end: Date): (r: seq<Reading>)
    requires ValidDate(end)
    ensures forall x :: x in r <==> && x in db.readings && x.sensorId in selected
                                     && NotAfter(Midnight(start), x.timestamp)
                                     && Before(x.timestamp, Midnight(NextDay(end)))
  {
    var selectedReadings := Filter(db.readings, SelectedIn(selected));
    var from := Midnight(start);
    var until := Midnight(NextDay(end));
    Filter(selectedReadings, (x: Reading) => NotAfter(from, x.timestamp) && Before(x.timestamp, until))
  }

  /** With valid timestamps, the range holds exactly the readings dated `start` through `end`. */
  lemma RangeHoldsWholeDays(db: Db, selected: seq<int>, start: Date, end: Date, x: Reading)
    requires ValidDate(start) && ValidDate(end) && ValidTimestamp(x.timestamp)
    ensures x in InRange(db, selected, start, end) <==>
            && x in db.readings && x.sensorId in selected
            && !DateBefore(x.timestamp.date, start) && !DateBefore(end, x.timestamp.date)
  {
    EndDayIncludedInFull(x.timestamp, start, end);
  }

  datatype AnalyticsPage = AnalyticsPage(
    available: seq<SensorOption>,
    selected: seq<int>,
    preset: string,
    range: Range,
    chartType: string,
    aggregation: string,
    chartData: seq<ChartRow>,
    stats: seq<SensorStat>,
    isLoading: bool)

  /**
   * `fetch_analytics_data`. With no selection or an empty date the results
   * are cleared. A date that does not parse leaves the results as they
   * were. An end date of 9999-12-31 makes "the day after" overflow, which
   * Python raises uncaught, leaving the page loading. Otherwise the chart
   * and statistics are rebuilt from the readings in range.
   */
  function Fetch(page: AnalyticsPage, db: Db): (r: AnalyticsPage)
    ensures r.available == page.available && r.selected == page.selected && r.range == page.range
    ensures r.aggregation == page.aggregation && r.preset == page.preset && r.chartType == page.chartType
    ensures page.selected == [] || page.range.startDate == [] || page.range.endDate == [] ==>
              r == page.(chartData := [], stats := [], isLoading := false)
    ensures page.selected != [] && page.range.startDate != [] && page.range.endDate != []
            && (ParseDate(page.range.startDate).None? || ParseDate(page.range.endDate).None?) ==>
              r == page.(isLoading := false)
    ensures page.selected != [] && page.range.startDate != [] && page.range.endDate != []
            && ParseDate(page.range.startDate).Some? && ParseDate(page.range.endDate).Some? ==>
              var start := ParseDate(page.range.startDate).value;
              var end := ParseDate(page.range.endDate).value;
              if !ValidDate(NextDay(end)) then r == page.(isLoading := true)
              else
                var readings := InRange(db, page.selected, start, end);
                && r.chartData == ChartRows(AggregationOf(page.aggregation), page.selected, readings)
                && r.stats == Stats(page.selected, page.available, readings)
                && !r.isLoading
  {
    if page.selected == [] || page.range.startDate == [] || page.range.endDate == [] then
      page.(chartData := [], stats := [], isLoading := false)
    else
      match (ParseDate(page.range.startDate), ParseDate(page.range.endDate))
      case (Some(start), Some(end)) =>
        if !ValidDate(NextDay(end)) then page.(isLoading := true)
        else
          var readings := InRange(db, page.selected, start, end);
          var agg := AggregationOf(page.aggregation);
          page.(chartData := ChartRows(agg, page.selected, readings),
                stats := Stats(page.selected, page.available, readings),
                isLoading := false)
      case _ => page.(isLoading := false)
  }

  // ---------------------------------------------------------------------
  // Page events
  // ---------------------------------------------------------------------

  /** The option a sensor on a known parcel offers: its id, name and type, and its parcel's name. */
  function OptionOf(db: Db, s: Sensor): (o: SensorOption)
    requires FindParcel(db, s.parcelId).Some?
    ensures o.id == s.id && o.name == s.name && o.kind == s.kind
  {
    SensorOption(s.id, s.name, s.kind, FindParcel(db, s.parcelId).value.name)
  }

  /** `select(Sensor, Parcel).join(Parcel).where(farmer_id == userId)`: one option per sensor of the user. */
  function AvailableFor(db: Db, userId: int): (r: seq<SensorOption>)
    ensures |r| == Count(db.sensors, SensorsOf(db, userId))
    ensures forall o | o in r :: exists s | s in db.sensors :: OnParcelOf(db, s, userId) && o == OptionOf(db, s)
    ensures forall s | s in db.sensors && OnParcelOf(db, s, userId) :: OptionOf(db, s) in r
  {
    var kept := Filter(db.sensors, SensorsOf(db, userId));
    assert forall s | s in kept :: OnParcelOf(db, s, userId) by {
      forall s | s in kept ensures OnParcelOf(db, s, userId) {
        assert SensorsOf(db, userId)(s);
      }
    }
    var r := OptionsOf(db, kept);
    OptionsListTheirSensors(db, kept, r);
    forall s | s in db.sensors && OnParcelOf(db, s, userId) ensures OptionOf(db, s) in r {
      assert SensorsOf(db, userId)(s);
    }
    r
  }

  /** One option per sensor, in order. */
  function OptionsOf(db: Db, sensors: seq<Sensor>): (r: seq<SensorOption>)
    requires forall s | s in sensors :: FindParcel(db, s.parcelId).Some?
    ensures |r| == |sensors|
    ensures forall i | 0 <= i < |sensors| :: r[i] == OptionOf(db, sensors[i])
  {
    seq(|sensors|, i requires 0 <= i < |sensors| => OptionOf(db, sensors[i]))
  }

  lemma OptionsListTheirSensors(db: Db, sensors: seq<Sensor>, r: seq<SensorOption>)
    requires forall s | s in sensors :: FindParcel(db, s.parcelId).Some?
    requires |r| == |sensors|
    requires forall i | 0 <= i < |sensors| :: r[i] == OptionOf(db, sensors[i])
    ensures forall o | o in r :: exists s | s in sensors :: o == OptionOf(db, s)
    ensures forall s | s in sensors :: OptionOf(db, s) in r
  {
    forall o | o in r ensures exists s | s in sensors :: o == OptionOf(db, s) {
      var i :| 0 <= i < |r| && r[i] == o;
      assert sensors[i] in sensors;
    }
    forall s | s in sensors ensures OptionOf(db, s) in r {
      var i :| 0 <= i < |sensors| && sensors[i] == s;
      assert r[i] == OptionOf(db, s);
    }
  }

  // The handlers below end with `await self.fetch_analytics_data()`. That
  // handler contains `yield`, so calling it makes an async generator, and
  // awaiting one raises TypeError before any of its body runs: the chart,
  // the statistics and the loading flag keep their values. Each handler is
  // therefore modelled twice: `...AsWritten` sets its own fields and
  // nothing else, and the plain name is the evidently intended handler,
  // which fetches afterwards.

  /**
   * The settings with which fetching keeps the old chart and statistics:
   * a date that does not parse, or an end date with no day after it.
   */
  predicate FetchKeepsResults(page: AnalyticsPage) {
    && page.selected != [] && page.range.startDate != [] && page.range.endDate != []
    && (|| ParseDate(page.range.startDate).None?
        || ParseDate(page.range.endDate).None?
        || !ValidDate(NextDay(ParseDate(page.range.endDate).value)))
  }

  /** The chart and statistics are what fetching with the page's own settings gives. */
  predicate Settled(page: AnalyticsPage, db: Db) {
    Fetch(page, db) == page
  }

  /** Fetching twice gives what fetching once gives: a fetched page is settled. */
  lemma FetchSettles(page: AnalyticsPage, db: Db)
    ensures Settled(Fetch(page, db), db)
  {
  }

  /** The results a handler leaves alone: chart, statistics and the loading flag. */
  predicate SameResults(r: AnalyticsPage, page: AnalyticsPage) {
    r.chartData == page.chartData && r.stats == page.stats && r.isLoading == page.isLoading
  }

  /**
   * The corrected handler `r` keeps every setting `w` holds, the as-written
   * handler's result: only the chart, the statistics and the loading flag
   * may differ.
   */
  predicate SameSettings(r: AnalyticsPage, w: AnalyticsPage) {
    r.(chartData := w.chartData, stats := w.stats, isLoading := w.isLoading) == w
  }

  /**
   * `load_initial_data` as written: an empty start date gets the seven-day
   * preset; if that preset overflows, or nobody is logged in, nothing
   * else happens; otherwise the user's sensors are offered and the first
   * of them is selected when nothing is. The chart and statistics are not
   * touched.
   */
  function LoadInitialDataAsWritten(page: AnalyticsPage, db: Db, user: Option<User>, now: Timestamp): (r: AnalyticsPage)
    requires ValidTimestamp(now)
    ensures SameResults(r, page)
    ensures r.preset == page.preset && r.chartType == page.chartType && r.aggregation == page.aggregation
    ensures page.range.startDate != [] && user.None? ==> r == page
    ensures page.range.startDate == [] ==> r.range == SetPresetDates(page.range, "7d", now)
    ensures page.range.startDate != [] ==> r.range == page.range
    ensures InitialPresetOverflows(page, now) ==> r == page.(range := SetPresetDates(page.range, "7d", now))
    ensures user.None? ==> r.available == page.available && r.selected == page.selected
    ensures user.Some? && !InitialPresetOverflows(page, now) ==> r.available == AvailableFor(db, user.value.id)
    ensures user.Some? && page.selected != [] ==> r.selected == page.selected
    ensures user.Some? && !InitialPresetOverflows(page, now) && page.selected == [] ==>
              if r.available == [] then r.selected == []
              else |r.selected| == 1 && (exists s | s in db.sensors ::
                                           OnParcelOf(db, s, user.value.id) && s.id == r.selected[0])
  {
    var dated := if page.range.startDate == [] then page.(range := SetPresetDates(page.range, "7d", now)) else page;
    if InitialPresetOverflows(page, now) then dated
    else
    match user
    case None => dated
    case Some(u) =>
      var available := AvailableFor(db, u.id);
      var selected := if dated.selected == [] && available != [] then [available[0].id] else dated.selected;
      assert available != [] ==> available[0] in available;
      dated.(available := available, selected := selected)
  }

  /** The start date is empty and the seven-day preset reaching back from `now` would precede year 1. */
  predicate InitialPresetOverflows(page: AnalyticsPage, now: Timestamp)
    requires ValidTimestamp(now)
  {
    page.range.startDate == [] && PresetOverflows("7d", now)
  }

  /**
   * `load_initial_data` as intended: the same, then, for a logged-in user
   * whose preset did not overflow, a fetch.
   */
  function LoadInitialData(page: AnalyticsPage, db: Db, user: Option<User>, now: Timestamp): (r: AnalyticsPage)
    requires ValidTimestamp(now)
    ensures user.None? || InitialPresetOverflows(page, now) ==> r == LoadInitialDataAsWritten(page, db, user, now)
    ensures user.Some? && !InitialPresetOverflows(page, now) ==>
              && Settled(r, db)
              && SameSettings(r, LoadInitialDataAsWritten(page, db, user, now))
              && r.available == AvailableFor(db, user.value.id)
    ensures r.range == LoadInitialDataAsWritten(page, db, user, now).range
    ensures r.selected == LoadInitialDataAsWritten(page, db, user, now).selected
    ensures FetchKeepsResults(r) ==> r.chartData == page.chartData && r.stats == page.stats
  {
    var loaded := LoadInitialDataAsWritten(page, db, user, now);
    if user.None? || InitialPresetOverflows(page, now) then loaded
    else
      FetchSettles(loaded, db);
      Fetch(loaded, db)
  }

  /** `set_range_preset` as written: records the choice, and anything but "custom" resets the dates. */
  function SetRangePresetAsWritten(page: AnalyticsPage, value: string, now: Timestamp): (r: AnalyticsPage)
    requires ValidTimestamp(now)
    ensures r.preset == value
    ensures value == "custom" ==> r.range == page.range
    ensures value != "custom" ==> r.range == SetPresetDates(page.range, value, now)
    ensures r.(preset := page.preset, range := page.range) == page
  {
    var chosen := page.(preset := value);
    if value != "custom" then chosen.(range := SetPresetDates(page.range, value, now)) else chosen
  }

  /**
   * `set_range_preset` as intended: the same settings, then a fetch, unless
   * the preset overflowed and stopped the handler.
   */
  function SetRangePreset(page: AnalyticsPage, db: Db, value: string, now: Timestamp): (r: AnalyticsPage)
    requires ValidTimestamp(now)
    ensures r.preset == value && r.selected == page.selected && r.aggregation == page.aggregation
    ensures value == "custom" ==> r.range == page.range
    ensures value != "custom" ==> r.range == SetPresetDates(page.range, value, now)
    ensures PresetOverflows(value, now) ==> r == SetRangePresetAsWritten(page, value, now)
    ensures !PresetOverflows(value, now) ==> Settled(r, db)
    ensures SameSettings(r, SetRangePresetAsWritten(page, value, now))
    ensures FetchKeepsResults(r) ==> r.chartData == page.chartData && r.stats == page.stats
  {
    var chosen := SetRangePresetAsWritten(page, value, now);
    if PresetOverflows(value, now) then chosen
    else
      FetchSettles(chosen, db);
      Fetch(chosen, db)
  }

  /**
   * `set_custom_start_date` and `set_custom_end_date` as written: the date
   * is taken as typed and the preset becomes "custom".
   */
  function SetCustomDatesAsWritten(page: AnalyticsPage, start: Option<string>, end: Option<string>): (r: AnalyticsPage)
    ensures r.preset == "custom"
    ensures r.range.startDate == start.GetOr(page.range.startDate)
    ensures r.range.endDate == end.GetOr(page.range.endDate)
    ensures r.(preset := page.preset, range := page.range) == page
  {
    page.(range := Range(start.GetOr(page.range.startDate), end.GetOr(page.range.endDate)), preset := "custom")
  }

  /** The custom-date handlers as intended: the same settings, then a fetch. */
  function SetCustomDates(page: AnalyticsPage, db: Db, start: Option<string>, end: Option<string>): (r: AnalyticsPage)
    ensures r.preset == "custom" && r.selected == page.selected && r.aggregation == page.aggregation
    ensures r.range.startDate == start.GetOr(page.range.startDate)
    ensures r.range.endDate == end.GetOr(page.range.endDate)
    ensures Settled(r, db)
    ensures SameSettings(r, SetCustomDatesAsWritten(page, start, end))
    ensures FetchKeepsResults(r) ==> r.chartData == page.chartData && r.stats == page.stats
  {
    var typed := SetCustomDatesAsWritten(page, start, end);
    FetchSettles(typed, db);
    Fetch(typed, db)
  }

  /** `toggle_sensor` as written: the selection changes as `ToggleSensor` says, or a refusal changes nothing. */
  function ToggleSensorEventAsWritten(page: AnalyticsPage, sensorId: int, checked: bool): (r: AnalyticsPage)
    ensures ToggleSensor(page.selected, sensorId, checked) == TooMany ==> r == page
    ensures ToggleSensor(page.selected, sensorId, checked).Selection? ==>
              r.selected == ToggleSensor(page.selected, sensorId, checked).ids
    ensures r.(selected := page.selected) == page
  {
    match ToggleSensor(page.selected, sensorId, checked)
    case TooMany => page
    case Selection(ids) => page.(selected := ids)
  }

  /** `toggle_sensor` as intended: a refused check changes nothing and fetches nothing; otherwise a fetch follows. */
  function ToggleSensorEvent(page: AnalyticsPage, db: Db, sensorId: int, checked: bool): (r: AnalyticsPage)
    ensures ToggleSensor(page.selected, sensorId, checked) == TooMany <==> r == page && checked && |page.selected| >= MaxSelected
    ensures ToggleSensor(page.selected, sensorId, checked).Selection? ==>
              && r.selected == ToggleSensor(page.selected, sensorId, checked).ids && r.range == page.range
              && Settled(r, db)
              && SameSettings(r, ToggleSensorEventAsWritten(page, sensorId, checked))
    ensures FetchKeepsResults(r) ==> r.chartData == page.chartData && r.stats == page.stats
  {
    var toggled := ToggleSensorEventAsWritten(page, sensorId, checked);
    match ToggleSensor(page.selected, sensorId, checked)
    case TooMany => page
    case Selection(ids) =>
      FetchSettles(toggled, db);
      Fetch(toggled, db)
  }

  /** `set_aggregation_val` as written: only the setting changes. */
  function SetAggregationAsWritten(page: AnalyticsPage, value: string): (r: AnalyticsPage)
    ensures r.aggregation == value
    ensures r.(aggregation := page.aggregation) == page
  {
    page.(aggregation := value)
  }

  /** `set_aggregation_val` as intended: the setting changes and the data is fetched again. */
  function SetAggregation(page: AnalyticsPage, db: Db, value: string): (r: AnalyticsPage)
    ensures r.aggregation == value && r.selected == page.selected && r.range == page.range
    ensures Settled(r, db)
    ensures SameSettings(r, SetAggregationAsWritten(page, value))
    ensures FetchKeepsResults(r) ==> r.chartData == page.chartData && r.stats == page.stats
  {
    var chosen := SetAggregationAsWritten(page, value);
    FetchSettles(chosen, db);
    Fetch(chosen, db)
  }

  /**
   * Every handler as written leaves the chart, the statistics and the
   * loading flag as they were, whatever the store holds.
   */
  lemma HandlersAsWrittenNeverFetch(page: AnalyticsPage, db: Db, user: Option<User>, now: Timestamp,
                                    value: string, start: Option<string>, end: Option<string>,
                                    sensorId: int, checked: bool)
    requires ValidTimestamp(now)
    ensures SameResults(LoadInitialDataAsWritten(page, db, user, now), page)
    ensures SameResults(SetRangePresetAsWritten(page, value, now), page)
    ensures SameResults(SetCustomDatesAsWritten(page, start, end), page)
    ensures SameResults(ToggleSensorEventAsWritten(page, sensorId, checked), page)
    ensures SameResults(SetAggregationAsWritten(page, value), page)
  {
  }

  /**
   * Unchecking the only selected sensor: as written, the chart and cards
   * of that sensor stay on screen with nothing selected; as intended, both
   * are cleared.
   */
  lemma UncheckingLastSensorLeavesItsChart(page: AnalyticsPage, db: Db, id: int)
    requires page.selected == [id] && page.chartData != []
    ensures var w := ToggleSensorEventAsWritten(page, id, false);
            w.selected == [] && w.chartData == page.chartData && w.chartData != []
    ensures var c := ToggleSensorEvent(page, db, id, false);
            c.selected == [] && c.chartData == [] && c.stats == []
  {
    assert RemoveFirst([id], id) == [];
  }

  function SetChartType(page: AnalyticsPage, value: string): (r: AnalyticsPage)
    ensures r.chartType == value
    ensures r.(chartType := page.chartType) == page
  {
    page.(chartType := value)
  }
}

=== FILE: api.dfy ===
/**
 * The device-facing HTTP API (`app/api.py`): API-key authentication,
 * reading ingestion with threshold alerting, and the read endpoints for
 * sensor history, parcels, a parcel's sensors and the dashboard summary.
 *
 * Every endpoint takes the store as input and returns either a response
 * (with the new store, for ingestion) or the HTTP error it raises. The
 * clock is the `now` parameter.
 */
module Api {
  import opened Basics
  import opened Calendar
  import opened Query
  import opened Database

  /** The HTTP errors the endpoints raise: 422 missing header, 401 unknown key, 404 not found. */
  datatype ApiError = MissingApiKey | Unauthorized | NotFound

  /**
   * `verify_api_key`: the first user holding exactly this key. Without the
   * `X-API-Key` header the request fails validation before the check runs.
   */
  function VerifyApiKey(db: Db, apiKey: Option<string>): (r: Result<User, ApiError>)
    ensures apiKey.None? <==> r == Err(MissingApiKey)
    ensures r.Ok? ==> r.value in db.users && r.value.apiKey == apiKey
    ensures r == Err(Unauthorized) <==> apiKey.Some? && forall u | u in db.users :: u.apiKey != apiKey
  {
    match apiKey
    case None => Err(MissingApiKey)
    case Some(k) =>
      match FindByApiKey(db.users, k)
      case None => Err(Unauthorized)
      case Some(u) => Ok(u)
  }

  function FindByApiKey(users: seq<User>, key: string): (r: Option<User>)
    ensures r.Some? ==> r.value in users && r.value.apiKey == Some(key)
    ensures r.None? <==> forall u | u in users :: u.apiKey != Some(key)
  {
    if users == [] then None
    else if users[0].apiKey == Some(key) then Some(users[0])
    else FindByApiKey(users[1..], key)
  }

  // ---------------------------------------------------------------------
  // Ingestion and threshold alerting
  // ---------------------------------------------------------------------

  /** Where a value falls against a sensor's thresholds; the low bound is checked first. */
  datatype Breach = BelowLow | AboveHigh | WithinRange

  function Classify(value: real, low: real, high: real): (b: Breach)
    ensures b == BelowLow <==> value < low
    ensures b == AboveHigh <==> low <= value && high < value
    ensures b == WithinRange <==> low <= value <= high
  {
    if value < low then BelowLow
    else if value > high then AboveHigh
    else WithinRange
  }

  /** The endpoint's reply `{"status": "success", "alert_triggered": ...}` with the store it commits. */
  datatype Ingested = Ingested(db: Db, alertTriggered: bool)

  /** The sensors with `last_reading_time` of sensor `id` set to `ts`. */
  function StampSensor(sensors: seq<Sensor>, id: int, ts: Timestamp): (r: seq<Sensor>)
    ensures |r| == |sensors|
    ensures forall i | 0 <= i < |sensors| ::
              r[i] == if sensors[i].id == id then sensors[i].(lastReadingTime := Some(ts)) else sensors[i]
  {
    seq(|sensors|, i requires 0 <= i < |sensors| =>
      if sensors[i].id == id then sensors[i].(lastReadingTime := Some(ts)) else sensors[i])
  }

  function BreachMessage(s: Sensor, value: real, b: Breach): AlertMessage {
    if b == BelowLow then LowReading(s.kind, value, s.thresholdLow)
    else HighReading(s.kind, value, s.thresholdHigh)
  }

  /**
   * The store after a reading of `s` is recorded at `ts`: the reading is
   * appended, the sensor stamped, and a "warning" alert opened for a value
   * outside `[low, high]` unless the sensor already has an open one.
   * `alertTriggered` reports the breach whether or not an alert was opened.
   */
  function Record(db: Db, s: Sensor, value: real, ts: Timestamp): (r: Ingested)
    // exactly one reading is appended, with a fresh id
    ensures |r.db.readings| == |db.readings| + 1
    ensures r.db.readings[..|db.readings|] == db.readings
    ensures var x := r.db.readings[|db.readings|];
            x.sensorId == s.id && x.value == value && x.timestamp == ts
            && forall y | y in db.readings :: y.id != x.id
    // the sensor records the reading time; nothing else about sensors, users or parcels changes
    ensures r.db.users == db.users && r.db.parcels == db.parcels
    ensures |r.db.sensors| == |db.sensors|
    ensures forall i | 0 <= i < |db.sensors| ::
              r.db.sensors[i] == if db.sensors[i].id == s.id
                                 then db.sensors[i].(lastReadingTime := Some(ts)) else db.sensors[i]
    ensures r.alertTriggered <==> value < s.thresholdLow || value > s.thresholdHigh
    // no new alert unless a breach meets a sensor without an open alert
    ensures !r.alertTriggered || HasOpenAlert(db.alerts, s.id) ==> r.db.alerts == db.alerts
    ensures r.alertTriggered && !HasOpenAlert(db.alerts, s.id) ==>
              && |r.db.alerts| == |db.alerts| + 1
              && r.db.alerts[..|db.alerts|] == db.alerts
              && var a := r.db.alerts[|db.alerts|];
                 && a.sensorId == s.id && a.level == "warning"
                 && a.isActive && !a.acknowledged
                 && a.createdAt == ts
                 && (a.message.LowReading? <==> value < s.thresholdLow)
                 && (forall y | y in db.alerts :: y.id != a.id)
  {
    var reading := Reading(FreshId(db.readings, ReadingId), s.id, value, ts);
    var b := Classify(value, s.thresholdLow, s.thresholdHigh);
    var triggered := b != WithinRange;
    var alerts' :=
      if triggered && !HasOpenAlert(db.alerts, s.id)
      then db.alerts + [NewAlert(FreshId(db.alerts, AlertId), s.id, BreachMessage(s, value, b), ts)]
      else db.alerts;
    var db' := db.(readings := db.readings + [reading],
                   sensors := StampSensor(db.sensors, s.id, ts),
                   alerts := alerts');
    assert db'.readings[..|db.readings|] == db.readings;
    assert alerts' != db.alerts ==> alerts'[..|db.alerts|] == db.alerts;
    Ingested(db', triggered)
  }

  /**
   * `POST /sensors/{sensor_id}/data`: authenticate, look the sensor up, and
   * record the reading, time-stamped now when the payload has none. Any
   * valid key may post to any sensor.
   */
  function IngestSensorData(db: Db, apiKey: Option<string>, sensorId: int, value: real,
                            timestamp: Option<Timestamp>, now: Timestamp): (r: Result<Ingested, ApiError>)
    ensures VerifyApiKey(db, apiKey).Err? ==> r == Err(VerifyApiKey(db, apiKey).error)
    ensures VerifyApiKey(db, apiKey).Ok? && FindSensor(db, sensorId).None? ==> r == Err(NotFound)
    ensures r.Ok? <==> VerifyApiKey(db, apiKey).Ok? && FindSensor(db, sensorId).Some?
    ensures r.Ok? ==> r.value == Record(db, FindSensor(db, sensorId).value, value, timestamp.GetOr(now))
  {
    match VerifyApiKey(db, apiKey)
    case Err(e) => Err(e)
    case Ok(_) =>
      match FindSensor(db, sensorId)
      case None => Err(NotFound)
      case Some(s) => Ok(Record(db, s, value, timestamp.GetOr(now)))
  }

  /** A value inside `[threshold_low, threshold_high]` is not reported and opens no alert. */
  lemma InRangeValueOpensNoAlert(db: Db, s: Sensor, value: real, ts: Timestamp)
    requires s.thresholdLow <= value <= s.thresholdHigh
    ensures !Record(db, s, value, ts).alertTriggered
    ensures Record(db, s, value, ts).db.alerts == db.alerts
  {
  }

  /** Sequential ingestion keeps at most one open alert per sensor. */
  lemma RecordKeepsOneOpenAlertPerSensor(db: Db, s: Sensor, value: real, ts: Timestamp)
    requires AtMostOneOpenPerSensor(db.alerts)
    ensures AtMostOneOpenPerSensor(Record(db, s, value, ts).db.alerts)
  {
    var alerts' := Record(db, s, value, ts).db.alerts;
    if alerts' != db.alerts {
      var n := |db.alerts|;
      forall i, j | 0 <= i < |alerts'| && 0 <= j < |alerts'|
        && IsOpen(alerts'[i]) && IsOpen(alerts'[j]) && alerts'[i].sensorId == alerts'[j].sensorId
        ensures i == j
      {
        if i < n && j < n {
          assert alerts'[i] == db.alerts[i] && alerts'[j] == db.alerts[j];
        }
      }
    }
  }

  /** Recording a reading of a stored sensor keeps the store's integrity and attaches the new rows. */
  lemma RecordKeepsStoreValid(db: Db, s: Sensor, value: real, ts: Timestamp)
    requires Valid(db) && Attached(db)
    requires s in db.sensors
    ensures Valid(Record(db, s, value, ts).db)
    ensures Attached(Record(db, s, value, ts).db)
  {
    var db' := Record(db, s, value, ts).db;
    FreshRowKeepsIdsUnique(db.readings, db'.readings, ReadingId);
    if db'.alerts != db.alerts {
      FreshRowKeepsIdsUnique(db.alerts, db'.alerts, AlertId);
    }
    SameSensorKeysKeepIntegrity(db, db');
    AppendedRowsStayAttached(db, db', s);
  }

  /**
   * A store whose users and parcels are unchanged and whose sensors keep
   * their keys and parcels position by position keeps the integrity of the
   * old one, given unique reading and alert keys.
   */
  lemma SameSensorKeysKeepIntegrity(db: Db, db': Db)
    requires Valid(db)
    requires db'.users == db.users && db'.parcels == db.parcels
    requires |db'.sensors| == |db.sensors|
    requires forall i | 0 <= i < |db.sensors| ::
               db'.sensors[i].id == db.sensors[i].id && db'.sensors[i].parcelId == db.sensors[i].parcelId
    requires UniqueIds(db'.readings, ReadingId) && UniqueIds(db'.alerts, AlertId)
    ensures Valid(db')
    ensures forall x | x in db.sensors :: HasSensor(db', x.id)
  {
    forall x | x in db.sensors ensures HasSensor(db', x.id) {
      var i :| 0 <= i < |db.sensors| && db.sensors[i] == x;
      assert db'.sensors[i] in db'.sensors;
    }
    forall x | x in db'.sensors ensures HasParcel(db', x.parcelId) {
      var i :| 0 <= i < |db'.sensors| && db'.sensors[i] == x;
      assert db.sensors[i] in db.sensors;
    }
  }

  lemma AppendedRowsStayAttached(db: Db, db': Db, s: Sensor)
    requires Attached(db) && s in db.sensors
    requires forall x | x in db.sensors :: HasSensor(db', x.id)
    requires |db'.readings| == |db.readings| + 1 && db'.readings[..|db.readings|] == db.readings
    requires db'.readings[|db.readings|].sensorId == s.id
    requires db'.alerts == db.alerts
             || (&& |db'.alerts| == |db.alerts| + 1 && db'.alerts[..|db.alerts|] == db.alerts
                 && db'.alerts[|db.alerts|].sensorId == s.id)
    ensures Attached(db')
  {
    forall x | x in db.readings ensures HasSensor(db', x.sensorId) {
      var t :| t in db.sensors && t.id == x.sensorId;
    }
    forall x | x in db.alerts ensures HasSensor(db', x.sensorId) {
      var t :| t in db.sensors && t.id == x.sensorId;
    }
    forall x | x in db'.readings ensures HasSensor(db', x.sensorId) {
      var i :| 0 <= i < |db'.readings| && db'.readings[i] == x;
      if i < |db.readings| {
        assert db'.readings[..|db.readings|][i] in db.readings;
      }
    }
    forall x | x in db'.alerts ensures HasSensor(db', x.sensorId) {
      var i :| 0 <= i < |db'.alerts| && db'.alerts[i] == x;
      if i < |db.alerts| {
        assert db'.alerts[..|db.alerts|][i] in db.alerts;
      }
    }
  }

  /** Appending one row whose key no old row carries keeps keys unique. */
  lemma FreshRowKeepsIdsUnique<T>(rows: seq<T>, rows': seq<T>, idOf: T -> int)
    requires UniqueIds(rows, idOf)
    requires |rows'| == |rows| + 1 && rows'[..|rows|] == rows
    requires forall y | y in rows :: idOf(y) != idOf(rows'[|rows|])
    ensures UniqueIds(rows', idOf)
  {
    forall i, j | 0 <= i < j < |rows'| ensures idOf(rows'[i]) != idOf(rows'[j]) {
      assert rows'[i] == rows[i];
      if j < |rows| {
        assert rows'[j] == rows[j];
      } else {
        assert rows[i] in rows;
      }
    }
  }

  /**
   * Once a breach has been recorded for a sensor, a second breach for it is
   * still reported but opens no further alert until the first is
   * acknowledged or resolved.
   */
  lemma RepeatedBreachIsSuppressed(db: Db, s: Sensor, v1: real, t1: Timestamp, v2: real, t2: Timestamp)
    requires v1 < s.thresholdLow || v1 > s.thresholdHigh
    requires v2 < s.thresholdLow || v2 > s.thresholdHigh
    ensures var db1 := Record(db, s, v1, t1).db;
            var r2 := Record(db1, s, v2, t2);
            r2.alertTriggered && r2.db.alerts == db1.alerts
  {
    var db1 := Record(db, s, v1, t1).db;
    if HasOpenAlert(db.alerts, s.id) {
      var a :| a in db.alerts && a.sensorId == s.id && IsOpen(a);
      assert a in db1.alerts;
    } else {
      assert db1.alerts[|db.alerts|] in db1.alerts;
    }
    assert HasOpenAlert(db1.alerts, s.id);
  }

  // ---------------------------------------------------------------------
  // Read endpoints
  // ---------------------------------------------------------------------

  function ReadingTime(r: Reading): Timestamp { r.timestamp }

  /** `WHERE SensorData.sensor_id == sensorId`. */
  function OfSensor(sensorId: int): Reading -> bool {
    (x: Reading) => x.sensorId == sensorId
  }

  /** The readings of one sensor, newest first, at most `limit` of them (all when negative). */
  function SensorHistory(db: Db, sensorId: int, limit: int): (r: seq<Reading>)
    ensures NewestFirst(r, ReadingTime)
    ensures forall x | x in r :: x in db.readings && x.sensorId == sensorId
    ensures |r| == LimitCount(limit, Count(db.readings, OfSensor(sensorId)))
    ensures forall x, y | x in r && y in db.readings && y.sensorId == sensorId && y !in r ::
              NotAfter(y.timestamp, x.timestamp)
    ensures multiset(r) <= multiset(Filter(db.readings, OfSensor(sensorId)))
  {
    var r := NewestWhere(db.readings, OfSensor(sensorId), ReadingTime, limit);
    assert forall x, y | x in r && y in db.readings && y.sensorId == sensorId && y !in r ::
             NotAfter(y.timestamp, x.timestamp) by {
      forall x, y | x in r && y in db.readings && y.sensorId == sensorId && y !in r
        ensures NotAfter(y.timestamp, x.timestamp)
      {
        assert OfSensor(sensorId)(y);
        assert NotAfter(ReadingTime(y), ReadingTime(x));
      }
    }
    r
  }

  /**
   * `GET /sensors/{sensor_id}/data` as written: it checks that the sensor
   * exists but not who owns it, so any valid key reads any sensor's history.
   */
  function GetSensorHistoryAsWritten(db: Db, apiKey: Option<string>, sensorId: int, limit: int)
    : (r: Result<seq<Reading>, ApiError>)
    ensures VerifyApiKey(db, apiKey).Err? ==> r == Err(VerifyApiKey(db, apiKey).error)
    ensures r.Ok? <==> VerifyApiKey(db, apiKey).Ok? && FindSensor(db, sensorId).Some?
    ensures r.Ok? ==> r.value == SensorHistory(db, sensorId, limit)
  {
    match VerifyApiKey(db, apiKey)
    case Err(e) => Err(e)
    case Ok(_) =>
      if FindSensor(db, sensorId).None? then Err(NotFound)
      else Ok(SensorHistory(db, sensorId, limit))
  }

  /**
   * `GET /sensors/{sensor_id}/data` scoped to the key's owner, the way the
   * parcel-sensor endpoint scopes its parcel: a sensor on someone else's
   * parcel is reported as not found, so no other user's reading is returned.
   */
  function GetSensorHistory(db: Db, apiKey: Option<string>, sensorId: int, limit: int)
    : (r: Result<seq<Reading>, ApiError>)
    ensures VerifyApiKey(db, apiKey).Err? ==> r == Err(VerifyApiKey(db, apiKey).error)
    ensures r.Ok? <==> VerifyApiKey(db, apiKey).Ok? && FindSensor(db, sensorId).Some?
                       && SensorOwnedBy(db, FindSensor(db, sensorId).value, VerifyApiKey(db, apiKey).value.id)
    ensures r.Ok? ==> r.value == SensorHistory(db, sensorId, limit)
  {
    match VerifyApiKey(db, apiKey)
    case Err(e) => Err(e)
    case Ok(user) =>
      match FindSensor(db, sensorId)
      case None => Err(NotFound)
      case Some(s) =>
        if !SensorOwnedBy(db, s, user.id) then Err(NotFound)
        else Ok(SensorHistory(db, sensorId, limit))
  }

  /**
   * With unique sensor keys, every reading the scoped history returns
   * belongs to a sensor on one of the caller's parcels.
   */
  lemma ScopedHistoryReturnsOnlyOwnReadings(db: Db, apiKey: Option<string>, sensorId: int, limit: int)
    requires UniqueIds(db.sensors, SensorId)
    ensures var r := GetSensorHistory(db, apiKey, sensorId, limit);
            r.Ok? ==> forall x | x in r.value ::
              x in db.readings
              && forall s | s in db.sensors && s.id == x.sensorId :: SensorOwnedBy(db, s, VerifyApiKey(db, apiKey).value.id)
  {
    var r := GetSensorHistory(db, apiKey, sensorId, limit);
    if r.Ok? {
      var found := FindSensor(db, sensorId).value;
      forall s | s in db.sensors && s.id == sensorId
        ensures s == found
      {
        FindByIdFindsRow(db.sensors, SensorId, s);
      }
    }
  }

  /** A database in which a stranger holds a valid key and another user owns the only sensor. */
  function StrangerScenario(): Db {
    var ts := Timestamp(Date(2024, 1, 1), 0, 0, 0, 0);
    Db([User(1, "owner", "o@x", "h", "farmer", Some("key_owner")),
        User(2, "stranger", "s@x", "h", "farmer", Some("key_stranger"))],
       [Parcel(1, "field", 1.0, "wheat", "north", 1)],
       [Sensor(1, "probe", "temperature", "active", 1, Some(ts), 0.0, 100.0)],
       [Reading(1, 1, 21.5, ts)],
       [])
  }

  /**
   * The unscoped endpoint hands a stranger the readings of a sensor on
   * another user's parcel; the scoped one refuses the same request.
   */
  lemma HistoryAsWrittenLeaksOtherUsersReadings()
    ensures var db := StrangerScenario();
            && GetSensorHistoryAsWritten(db, Some("key_stranger"), 1, 100) == Ok(db.readings)
            && db.readings[0].sensorId == 1 && db.sensors[0].id == 1
            && !SensorOwnedBy(db, db.sensors[0], 2)
            && VerifyApiKey(db, Some("key_stranger")) == Ok(db.users[1])
            && GetSensorHistory(db, Some("key_stranger"), 1, 100) == Err(NotFound)
  {
    var db := StrangerScenario();
    assert FindByApiKey(db.users, "key_stranger") == Some(db.users[1]);
    assert FindSensor(db, 1) == Some(db.sensors[0]);
    var h := SensorHistory(db, 1, 100);
    assert Filter(db.readings, OfSensor(1)) == db.readings;
    assert |h| == 1;
    assert h[0] in db.readings;
    assert h == db.readings;
  }

  /** `WHERE Parcel.farmer_id == userId`. */
  function OwnedBy(userId: int): Parcel -> bool {
    (p: Parcel) => ParcelOwnedBy(p, userId)
  }

  /** `GET /parcels`: the parcels of the key's owner. */
  function ListParcels(db: Db, apiKey: Option<string>): (r: Result<seq<Parcel>, ApiError>)
    ensures r.Ok? <==> VerifyApiKey(db, apiKey).Ok?
    ensures r.Ok? ==> forall p :: p in r.value <==> p in db.parcels && p.farmerId == VerifyApiKey(db, apiKey).value.id
    ensures r.Ok? ==> var uid := VerifyApiKey(db, apiKey).value.id;
                      && |r.value| == Count(db.parcels, OwnedBy(uid))
                      && multiset(r.value) <= multiset(Filter(db.parcels, OwnedBy(uid)))
  {
    match VerifyApiKey(db, apiKey)
    case Err(e) => Err(e)
    case Ok(user) => Ok(Filter(db.parcels, OwnedBy(user.id)))
  }

  /** One element of `GET /parcels/{id}/sensors`. */
  datatype SensorSummary = SensorSummary(sensor: Sensor, lastReading: Option<real>, lastUpdate: Option<Timestamp>)

  /** The value of a newest reading of the sensor, if it has any. */
  function LatestValue(readings: seq<Reading>, sensorId: int): (v: Option<real>)
    ensures v.None? <==> forall x | x in readings :: x.sensorId != sensorId
    ensures v.Some? ==> exists x | x in readings && x.sensorId == sensorId :: x.value == v.value
                          && forall y | y in readings && y.sensorId == sensorId :: NotAfter(y.timestamp, x.timestamp)
  {
    var top := NewestWhere(readings, OfSensor(sensorId), ReadingTime, 1);
    if top == [] then None
    else
      var x := top[0];
      assert x in top;
      assert forall y | y in readings && y.sensorId == sensorId :: NotAfter(y.timestamp, x.timestamp) by {
        forall y | y in readings && y.sensorId == sensorId ensures NotAfter(y.timestamp, x.timestamp) {
          assert OfSensor(sensorId)(y);
          if y in top {
            assert y == x;
          } else {
            assert NotAfter(ReadingTime(y), ReadingTime(x));
          }
        }
      }
      Some(x.value)
  }

  /** `WHERE Sensor.parcel_id == parcelId`. */
  function OnParcel(parcelId: int): Sensor -> bool {
    (s: Sensor) => s.parcelId == parcelId
  }

  /**
   * The sensors of a parcel, in table order, each with the value of its
   * newest reading and its recorded last reading time: every sensor on the
   * parcel appears, and nothing else does.
   */
  function ParcelSensorSummaries(db: Db, parcelId: int): (r: seq<SensorSummary>)
    ensures forall e | e in r ::
              e.sensor in db.sensors && e.sensor.parcelId == parcelId
              && e.lastUpdate == e.sensor.lastReadingTime
              && e.lastReading == LatestValue(db.readings, e.sensor.id)
    ensures forall s | s in db.sensors && s.parcelId == parcelId :: exists e | e in r :: e.sensor == s
    ensures |r| == Count(db.sensors, OnParcel(parcelId))
  {
    var sensors := Filter(db.sensors, OnParcel(parcelId));
    var r := SummariesOf(db.readings, sensors);
    SummariesListTheirSensors(db.readings, sensors, r);
    forall s | s in db.sensors && s.parcelId == parcelId ensures exists e | e in r :: e.sensor == s {
      assert OnParcel(parcelId)(s);
    }
    r
  }

  /** One summary per sensor, in order. */
  function SummariesOf(readings: seq<Reading>, sensors: seq<Sensor>): (r: seq<SensorSummary>)
    ensures |r| == |sensors|
    ensures forall i | 0 <= i < |sensors| :: r[i] == Summarize(readings, sensors[i])
  {
    seq(|sensors|, i requires 0 <= i < |sensors| => Summarize(readings, sensors[i]))
  }

  lemma SummariesListTheirSensors(readings: seq<Reading>, sensors: seq<Sensor>, r: seq<SensorSummary>)
    requires |r| == |sensors|
    requires forall i | 0 <= i < |sensors| :: r[i] == Summarize(readings, sensors[i])
    ensures forall e | e in r :: e.sensor in sensors && e == Summarize(readings, e.sensor)
    ensures forall s | s in sensors :: exists e | e in r :: e.sensor == s
  {
    forall s | s in sensors ensures exists e | e in r :: e.sensor == s {
      var i :| 0 <= i < |sensors| && sensors[i] == s;
      assert r[i] in r;
    }
  }

  function Summarize(readings: seq<Reading>, s: Sensor): SensorSummary {
    SensorSummary(s, LatestValue(readings, s.id), s.lastReadingTime)
  }

  /**
   * `GET /parcels/{parcel_id}/sensors`: 404 unless the parcel exists and
   * belongs to the key's owner; otherwise the parcel's sensor summaries.
   */
  function ListParcelSensors(db: Db, apiKey: Option<string>, parcelId: int)
    : (r: Result<seq<SensorSummary>, ApiError>)
    ensures VerifyApiKey(db, apiKey).Err? ==> r == Err(VerifyApiKey(db, apiKey).error)
    ensures VerifyApiKey(db, apiKey).Ok? ==>
              (r == Err(NotFound) <==> FindParcel(db, parcelId).None?
                                       || FindParcel(db, parcelId).value.farmerId != VerifyApiKey(db, apiKey).value.id)
    ensures r.Ok? ==> r.value == ParcelSensorSummaries(db, parcelId)
  {
    match VerifyApiKey(db, apiKey)
    case Err(e) => Err(e)
    case Ok(user) =>
      match FindParcel(db, parcelId)
      case None => Err(NotFound)
      case Some(p) =>
        if p.farmerId != user.id then Err(NotFound)
        else Ok(ParcelSensorSummaries(db, parcelId))
  }

  /** `GET /dashboard`'s counts. */
  datatype DashboardSummary = DashboardSummary(totalParcels: nat, totalSensors: nat, activeAlerts: nat)

  /** `WHERE Sensor.parcel_id IN parcelIds`. */
  function OnParcels(parcelIds: set<int>): Sensor -> bool {
    (s: Sensor) => s.parcelId in parcelIds
  }

  /** `WHERE Alert.sensor_id IN sensorIds AND is_active AND NOT acknowledged`. */
  function OpenOnSensors(sensorIds: set<int>): Alert -> bool {
    (a: Alert) => a.sensorId in sensorIds && IsOpen(a)
  }

  /**
   * The counts for one user: all zero without parcels; otherwise the user's
   * parcels, the sensors on them, and the open alerts on those sensors, each
   * counted through the id lists the endpoint builds.
   */
  function SummaryFor(db: Db, userId: int): (r: DashboardSummary)
    ensures (forall p | p in db.parcels :: p.farmerId != userId) ==> r == DashboardSummary(0, 0, 0)
    ensures r.totalParcels == Count(db.parcels, OwnedBy(userId))
  {
    var parcels := Filter(db.parcels, OwnedBy(userId));
    if parcels == [] then DashboardSummary(0, 0, 0)
    else
      assert parcels[0] in parcels;
      var parcelIds := set p | p in parcels :: p.id;
      var sensors := Filter(db.sensors, OnParcels(parcelIds));
      var sensorIds := set s | s in sensors :: s.id;
      var alerts := Filter(db.alerts, OpenOnSensors(sensorIds));
      DashboardSummary(|parcels|, |sensors|, |alerts|)
  }

  /** `GET /dashboard`: the key owner's counts. */
  function GetDashboardSummary(db: Db, apiKey: Option<string>): (r: Result<DashboardSummary, ApiError>)
    ensures r.Ok? <==> VerifyApiKey(db, apiKey).Ok?
    ensures r.Ok? ==> r.value == SummaryFor(db, VerifyApiKey(db, apiKey).value.id)
  {
    match VerifyApiKey(db, apiKey)
    case Err(e) => Err(e)
    case Ok(user) => Ok(SummaryFor(db, user.id))
  }
}

=== FILE: auth.dfy ===
/**
 * The session (`app/states/auth_state.py`): logging in and out,
 * registering, the two page guards, and the shape of the API keys handed
 * out at registration.
 *
 * bcrypt is a pair of parameters: `hash` for `hashpw` (its salt folded
 * in) and `checkPw` for `checkpw`. The random source is `pick`, which gives
 * for each of the 20 draws an index into the 62 key characters.
 */
module Auth {
  import opened Basics
  import opened Database

  // ---------------------------------------------------------------------
  // API keys
  // ---------------------------------------------------------------------

  /** One draw of `random.choice`: an index into the key characters. */
  type Draw = x: nat | x < 62

  const KeyPrefix: string := "key_"
  const KeyLength: nat := 20

  predicate IsAlphanumeric(c: char) {
    'a' <= c <= 'z' || 'A' <= c <= 'Z' || '0' <= c <= '9'
  }

  /** "key_" followed by twenty ASCII letters or digits. */
  predicate IsApiKeyShape(k: string) {
    && |k| == |KeyPrefix| + KeyLength
    && k[..|KeyPrefix|] == KeyPrefix
    && forall i | |KeyPrefix| <= i < |k| :: IsAlphanumeric(k[i])
  }

  /**
   * `(string.ascii_letters + string.digits)[d]`: the key character a draw
   * selects, lower-case letters first, then upper-case letters, then digits.
   */
  function KeyChar(d: Draw): (c: char)
    ensures IsAlphanumeric(c)
  {
    if d < 26 then ('a' as int + d) as char
    else if d < 52 then ('A' as int + (d - 26)) as char
    else ('0' as int + (d - 52)) as char
  }

  /** `"key_" + "".join(random.choice(chars) for _ in range(20))`. */
  function ApiKey(pick: nat -> Draw): (k: string)
    ensures IsApiKeyShape(k)
    ensures forall i | 0 <= i < KeyLength :: k[|KeyPrefix| + i] == KeyChar(pick(i))
  {
    var body := seq(KeyLength, i requires 0 <= i < KeyLength => KeyChar(pick(i)));
    var k := KeyPrefix + body;
    assert k[..|KeyPrefix|] == KeyPrefix;
    assert forall i | |KeyPrefix| <= i < |k| :: k[i] == body[i - |KeyPrefix|];
    k
  }

  /** Where an alphanumeric character sits among the key characters. */
  function KeyCharIndex(c: char): (d: Draw)
    ensures IsAlphanumeric(c) ==> KeyChar(d) == c
  {
    if !IsAlphanumeric(c) then 0
    else if 'a' <= c <= 'z' then c as int - 'a' as int
    else if 'A' <= c <= 'Z' then 26 + (c as int - 'A' as int)
    else 52 + (c as int - '0' as int)
  }

  /** The draw that reproduces position `i` of the key body of `k`. */
  function DrawFor(k: string, i: nat): Draw {
    if |KeyPrefix| + i < |k| then KeyCharIndex(k[|KeyPrefix| + i]) else 0
  }

  /** Every key of the right shape is one the generator can produce: the shape is exactly the range. */
  lemma EveryShapedKeyCanBeDrawn(k: string)
    requires IsApiKeyShape(k)
    ensures exists pick: nat -> Draw :: ApiKey(pick) == k
  {
    var pick: nat -> Draw := (i: nat) => DrawFor(k, i);
    var g := ApiKey(pick);
    assert forall i | 0 <= i < |k| :: g[i] == k[i] by {
      forall i | 0 <= i < |k| ensures g[i] == k[i] {
        if i < |KeyPrefix| {
          assert g[i] == g[..|KeyPrefix|][i] && k[i] == k[..|KeyPrefix|][i];
        } else {
          var j := i - |KeyPrefix|;
          assert g[|KeyPrefix| + j] == KeyChar(pick(j));
        }
      }
    }
    assert g == k;
  }

  // ---------------------------------------------------------------------
  // Session
  // ---------------------------------------------------------------------

  datatype Session = Session(
    user: Option<User>,
    isAuthenticated: bool,
    loginEmail: string,
    loginPassword: string,
    registerUsername: string,
    registerEmail: string,
    registerPassword: string,
    registerRole: string)

  /** A fresh session: nobody logged in, empty forms, role "farmer". */
  const SignedOut: Session := Session(None, false, "", "", "", "", "", DefaultRole)

  datatype AuthNotice = FillAllFields | InvalidCredentials | Welcome | LoggedOut | EmailTaken | AccountCreated

  /** The session, the store, the message shown, and where the browser is sent. */
  datatype AuthStep = AuthStep(session: Session, db: Db, notice: AuthNotice, redirect: Option<string>)

  /**
   * `login`: refused with an empty field; otherwise the first user with the
   * e-mail address whose hash accepts the password is logged in, the
   * password field is cleared and the browser goes home. Anything else is
   * refused with the session untouched.
   */
  function Login(s: Session, db: Db, checkPw: (string, string) -> bool): (r: AuthStep)
    ensures r.db == db
    ensures s.loginEmail == [] || s.loginPassword == [] ==> r == AuthStep(s, db, FillAllFields, None)
    ensures r.notice == Welcome <==>
              && s.loginEmail != [] && s.loginPassword != []
              && var u := FindUserByEmail(db.users, s.loginEmail);
                 u.Some? && checkPw(s.loginPassword, u.value.passwordHash)
    ensures r.notice == Welcome ==>
              && r.session == s.(user := r.session.user, isAuthenticated := true, loginPassword := "")
              && r.session.user == FindUserByEmail(db.users, s.loginEmail)
              && r.session.user.value in db.users && r.session.user.value.email == s.loginEmail
              && r.redirect == Some("/")
    ensures r.notice != Welcome ==> r.session == s && r.redirect.None?
  {
    if s.loginEmail == [] || s.loginPassword == [] then AuthStep(s, db, FillAllFields, None)
    else
      var found := FindUserByEmail(db.users, s.loginEmail);
      if found.Some? && checkPw(s.loginPassword, found.value.passwordHash) then
        AuthStep(s.(user := found, isAuthenticated := true, loginPassword := ""), db, Welcome, Some("/"))
      else AuthStep(s, db, InvalidCredentials, None)
  }

  /** `logout`: nobody is logged in any more; the forms keep what they held. */
  function Logout(s: Session, db: Db): (r: AuthStep)
    ensures r.session == s.(user := None, isAuthenticated := false) && r.db == db
    ensures r.redirect == Some("/login")
  {
    AuthStep(s.(user := None, isAuthenticated := false), db, LoggedOut, Some("/login"))
  }

  /**
   * `register`: refused with an empty field or an e-mail address already
   * taken, creating no user; otherwise a user with a fresh key, the hashed
   * password, the chosen role and a new API key is added and logged in,
   * and the username, e-mail and password fields are cleared (the role
   * stays).
   */
  function Register(s: Session, db: Db, hash: string -> string, pick: nat -> Draw): (r: AuthStep)
    ensures s.registerUsername == [] || s.registerEmail == [] || s.registerPassword == [] ==>
              r == AuthStep(s, db, FillAllFields, None)
    ensures r.notice == EmailTaken <==>
              && s.registerUsername != [] && s.registerEmail != [] && s.registerPassword != []
              && exists u | u in db.users :: u.email == s.registerEmail
    ensures r.notice != AccountCreated ==> r.session == s && r.db == db && r.redirect.None?
    ensures r.notice == AccountCreated ==>
              && |r.db.users| == |db.users| + 1
              && r.db == db.(users := db.users + [r.db.users[|db.users|]])
              && var u := r.db.users[|db.users|];
              && u.username == s.registerUsername && u.email == s.registerEmail
              && u.passwordHash == hash(s.registerPassword) && u.role == s.registerRole
              && u.apiKey.Some? && IsApiKeyShape(u.apiKey.value)
              && (forall v | v in db.users :: v.id != u.id && v.email != u.email)
              && r.session == s.(user := Some(u), isAuthenticated := true,
                                 registerUsername := "", registerEmail := "", registerPassword := "")
              && r.redirect == Some("/")
  {
    if s.registerUsername == [] || s.registerEmail == [] || s.registerPassword == [] then
      AuthStep(s, db, FillAllFields, None)
    else if FindUserByEmail(db.users, s.registerEmail).Some? then
      AuthStep(s, db, EmailTaken, None)
    else
      var u := User(FreshId(db.users, UserId), s.registerUsername, s.registerEmail,
                    hash(s.registerPassword), s.registerRole, Some(ApiKey(pick)));
      var session := s.(user := Some(u), isAuthenticated := true,
                        registerUsername := "", registerEmail := "", registerPassword := "");
      AuthStep(session, db.(users := db.users + [u]), AccountCreated, Some("/"))
  }

  /** Registration keeps every e-mail address unique, and the rest of the store's integrity. */
  lemma RegisterKeepsStoreValid(s: Session, db: Db, hash: string -> string, pick: nat -> Draw)
    requires Valid(db)
    ensures UniqueEmails(Register(s, db, hash, pick).db.users)
    ensures Valid(Register(s, db, hash, pick).db)
  {
    var r := Register(s, db, hash, pick);
    if r.notice == AccountCreated {
      var users := r.db.users;
      var u := users[|db.users|];
      assert UniqueEmails(users) by {
        forall i, j | 0 <= i < j < |users| ensures users[i].email != users[j].email {
          assert users[i] == db.users[i];
          if j < |db.users| {
            assert users[j] == db.users[j];
          } else {
            assert db.users[i] in db.users;
          }
        }
      }
      assert UniqueIds(users, UserId) by {
        forall i, j | 0 <= i < j < |users| ensures users[i].id != users[j].id {
          assert users[i] == db.users[i];
          if j < |db.users| {
            assert users[j] == db.users[j];
          } else {
            assert db.users[i] in db.users;
          }
        }
      }
      assert forall p | p in r.db.parcels :: HasUser(r.db, p.farmerId) by {
        forall p | p in r.db.parcels ensures HasUser(r.db, p.farmerId) {
          var v :| v in db.users && v.id == p.farmerId;
          assert v in users;
        }
      }
    }
  }

  /**
   * Whoever has just registered can log in with the same address and
   * password, as long as the password check accepts what the hash made
   * of the password, and is logged in as the new user.
   */
  lemma RegisteredUserCanLogIn(s: Session, db: Db, hash: string -> string, pick: nat -> Draw,
                               checkPw: (string, string) -> bool)
    requires forall p :: checkPw(p, hash(p))
    requires Register(s, db, hash, pick).notice == AccountCreated
    ensures var r := Register(s, db, hash, pick);
            var login := Login(r.session.(loginEmail := s.registerEmail, loginPassword := s.registerPassword),
                               r.db, checkPw);
            login.notice == Welcome && login.session.user == r.session.user
  {
    var r := Register(s, db, hash, pick);
    var u := r.db.users[|db.users|];
    NewUserIsFoundByEmail(db.users, u);
  }

  /** A user appended under an address no earlier user holds is the one found by that address. */
  lemma {:induction false} NewUserIsFoundByEmail(users: seq<User>, u: User)
    requires forall v | v in users :: v.email != u.email
    ensures FindUserByEmail(users + [u], u.email) == Some(u)
  {
    if users != [] {
      assert users[0] in users;
      assert forall v | v in users[1..] :: v in users;
      NewUserIsFoundByEmail(users[1..], u);
      assert (users + [u])[1..] == users[1..] + [u];
    }
  }

  /** `check_login`: pages that need a user send everyone else to the login page. */
  function CheckLogin(s: Session): (redirect: Option<string>)
    ensures redirect.Some? <==> !s.isAuthenticated
    ensures redirect.Some? ==> redirect.value == "/login"
  {
    if !s.isAuthenticated then Some("/login") else None
  }

  /** `check_already_logged_in`: the login and register pages send a logged-in user home. */
  function CheckAlreadyLoggedIn(s: Session): (redirect: Option<string>)
    ensures redirect.Some? <==> s.isAuthenticated
    ensures redirect.Some? ==> redirect.value == "/"
  {
    if s.isAuthenticated then Some("/") else None
  }

  /** Exactly one of the two guards redirects: a session is on one side of the login page. */
  lemma GuardsAreComplementary(s: Session, db: Db)
    ensures CheckLogin(s).Some? != CheckAlreadyLoggedIn(s).Some?
    ensures CheckLogin(Logout(s, db).session) == Some("/login")
  {
  }
}

=== FILE: basics.dfy ===
/** Small shared vocabulary: optional values and a success-or-error result. */
module Basics {

  /** An absent or present value; `None` plays the part of Python's `None`. */
  datatype Option<+T> = None | Some(value: T) {

    /** The present value, or `default` when absent. */
    function GetOr(default: T): T {
      match this
      case Some(v) => v
      case None => default
    }
  }

  /** Either a value or the error that replaced it (an HTTP error, a rejected form). */
  datatype Result<+T, +E> = Ok(value: T) | Err(error: E)

  function Min(a: int, b: int): int {
    if a <= b then a else b
  }

  function Max(a: int, b: int): int {
    if a <= b then b else a
  }
}

=== FILE: calendar.dfy ===
/**
 * Naive (time-zone free) date-times as the application stores them, their
 * chronological order, whole-day arithmetic, and the `YYYY-MM-DD`
 * calendar-date form (ISO 8601:2004, section 4.1.2.2) used for the
 * analytics date range.
 *
 * A timestamp is an integer tuple; comparing tuples field by field is the
 * chronological order, which is what makes "sort by bucket key" mean
 * "sort by time". Day arithmetic follows the proleptic Gregorian calendar
 * of Python's `datetime`, whose years run from 1 to 9999; stepping outside
 * that range is an overflow the callers model as a failure.
 */
module Calendar {
  import opened Basics

  datatype Date = Date(year: int, month: int, day: int)

  datatype Timestamp = Timestamp(date: Date, hour: int, minute: int, second: int, micro: int)

  const MinYear: int := 1
  const MaxYear: int := 9999

  /** The earliest representable day; nothing precedes it. */
  const FirstDate: Date := Date(MinYear, 1, 1)

  predicate IsLeapYear(y: int) {
    y % 4 == 0 && (y % 100 != 0 || y % 400 == 0)
  }

  function DaysInMonth(y: int, m: int): (n: int)
    ensures 28 <= n <= 31
    ensures m == 2 ==> (n == 29 <==> IsLeapYear(y))
  {
    if m == 2 then (if IsLeapYear(y) then 29 else 28)
    else if m == 4 || m == 6 || m == 9 || m == 11 then 30
    else 31
  }

  predicate ValidDate(d: Date) {
    && MinYear <= d.year <= MaxYear
    && 1 <= d.month <= 12
    && 1 <= d.day <= DaysInMonth(d.year, d.month)
  }

  predicate ValidTimestamp(t: Timestamp) {
    && ValidDate(t.date)
    && 0 <= t.hour < 24
    && 0 <= t.minute < 60
    && 0 <= t.second < 60
    && 0 <= t.micro < 1000000
  }

  /** Strict lexicographic order on (year, month, day). */
  predicate DateBefore(a: Date, b: Date) {
    || a.year < b.year
    || (a.year == b.year && a.month < b.month)
    || (a.year == b.year && a.month == b.month && a.day < b.day)
  }

  /** Strict chronological order: lexicographic on all seven fields. */
  predicate Before(a: Timestamp, b: Timestamp) {
    || DateBefore(a.date, b.date)
    || (a.date == b.date && a.hour < b.hour)
    || (a.date == b.date && a.hour == b.hour && a.minute < b.minute)
    || (a.date == b.date && a.hour == b.hour && a.minute == b.minute && a.second < b.second)
    || (a.date == b.date && a.hour == b.hour && a.minute == b.minute && a.second == b.second
        && a.micro < b.micro)
  }

  predicate NotAfter(a: Timestamp, b: Timestamp) {
    !Before(b, a)
  }

  /** The first instant of a day. */
  function Midnight(d: Date): Timestamp {
    Timestamp(d, 0, 0, 0, 0)
  }

  /** `Before` is a strict total order on timestamps. */
  lemma BeforeIsStrictTotalOrder(a: Timestamp, b: Timestamp, c: Timestamp)
    ensures !Before(a, a)
    ensures Before(a, b) ==> !Before(b, a)
    ensures Before(a, b) && Before(b, c) ==> Before(a, c)
    ensures a != b ==> Before(a, b) || Before(b, a)
  {
  }

  // ---------------------------------------------------------------------
  // Whole-day arithmetic
  // ---------------------------------------------------------------------

  /** The calendar day after `d` (`d + timedelta(days=1)`), possibly past year 9999. */
  function NextDay(d: Date): (n: Date)
    requires ValidDate(d)
    ensures DateBefore(d, n)
    ensures n.year <= MaxYear <==> ValidDate(n)
    ensures n.year <= d.year + 1
  {
    if d.day < DaysInMonth(d.year, d.month) then Date(d.year, d.month, d.day + 1)
    else if d.month < 12 then Date(d.year, d.month + 1, 1)
    else Date(d.year + 1, 1, 1)
  }

  /** No valid day lies strictly between `d` and `NextDay(d)`. */
  lemma NextDayIsImmediate(d: Date, e: Date)
    requires ValidDate(d) && ValidDate(e)
    requires DateBefore(d, e)
    ensures !DateBefore(e, NextDay(d))
  {
    if d.day < DaysInMonth(d.year, d.month) {
    } else if d.month < 12 {
      assert e.year > d.year || e.month > d.month;
    } else {
      assert e.year > d.year;
    }
  }

  /** The calendar day before `d` (`d - timedelta(days=1)`); it undoes `NextDay`. */
  function PrevDay(d: Date): (p: Date)
    requires ValidDate(d) && d != FirstDate
    ensures ValidDate(p)
    ensures DateBefore(p, d)
    ensures NextDay(p) == d
  {
    if d.day > 1 then Date(d.year, d.month, d.day - 1)
    else if d.month > 1 then Date(d.year, d.month - 1, DaysInMonth(d.year, d.month - 1))
    else Date(d.year - 1, 12, 31)
  }

  /** `NextDay` is undone by `PrevDay` whenever it stays in range. */
  lemma PrevDayUndoesNextDay(d: Date)
    requires ValidDate(d) && ValidDate(NextDay(d))
    ensures NextDay(d) != FirstDate
    ensures PrevDay(NextDay(d)) == d
  {
  }

  function YearLength(y: int): (n: int)
    ensures n == 365 || n == 366
  {
    if IsLeapYear(y) then 366 else 365
  }

  /** Days in the months of year `y` before month `m`. */
  function DaysBeforeMonth(y: int, m: int): (n: int)
    requires 1 <= m <= 12
    ensures 0 <= n <= 31 * (m - 1)
    decreases m
  {
    if m == 1 then 0 else DaysBeforeMonth(y, m - 1) + DaysInMonth(y, m - 1)
  }

  /** Days in the years from 1 up to, not including, year `y`. */
  function DaysBeforeYear(y: int): (n: int)
    requires y >= MinYear
    ensures n >= 365 * (y - 1)
    decreases y
  {
    if y == MinYear then 0 else DaysBeforeYear(y - 1) + YearLength(y - 1)
  }

  /**
   * The number of days from the first representable day to `d`
   * (`d.toordinal() - 1`).
   */
  function DayNumber(d: Date): (n: int)
    requires ValidDate(d)
    ensures n >= 0
    ensures n == 0 <==> d == FirstDate
  {
    DaysBeforeYear(d.year) + DaysBeforeMonth(d.year, d.month) + d.day - 1
  }

  /** The first eleven months of a year together last 334 days, plus a leap day. */
  lemma DaysBeforeDecember(y: int)
    ensures DaysBeforeMonth(y, 12) == 334 + (if IsLeapYear(y) then 1 else 0)
  {
    assert DaysBeforeMonth(y, 3) == 59 + (if IsLeapYear(y) then 1 else 0);
    assert DaysBeforeMonth(y, 6) == 151 + (if IsLeapYear(y) then 1 else 0);
    assert DaysBeforeMonth(y, 9) == 243 + (if IsLeapYear(y) then 1 else 0);
  }

  /** December 31 is the day before the next year's first. */
  lemma LastDayOfYear(y: int)
    requires MinYear <= y < MaxYear
    ensures DayNumber(Date(y, 12, 31)) == DaysBeforeYear(y + 1) - 1
  {
    DaysBeforeDecember(y);
    assert DaysBeforeYear(y + 1) == DaysBeforeYear(y) + YearLength(y);
  }

  /** Stepping back one day lowers the day number by exactly one. */
  lemma DayNumberOfPrevDay(d: Date)
    requires ValidDate(d) && d != FirstDate
    ensures DayNumber(PrevDay(d)) == DayNumber(d) - 1
  {
    var p := PrevDay(d);
    if d.day > 1 {
      assert p == d.(day := d.day - 1);
    } else if d.month > 1 {
      assert p == Date(d.year, d.month - 1, DaysInMonth(d.year, d.month - 1));
      assert DaysBeforeMonth(d.year, d.month) == DaysBeforeMonth(d.year, d.month - 1) + p.day;
      assert DayNumber(p) == DaysBeforeYear(d.year) + DaysBeforeMonth(d.year, d.month) - 1;
    } else {
      assert p == Date(d.year - 1, 12, 31);
      assert DayNumber(d) == DaysBeforeYear(d.year);
      LastDayOfYear(d.year - 1);
    }
  }

  /** Day numbers count days: the next day's is one more. */
  lemma DayNumberOfNextDay(d: Date)
    requires ValidDate(d) && ValidDate(NextDay(d))
    ensures DayNumber(NextDay(d)) == DayNumber(d) + 1
  {
    PrevDayUndoesNextDay(d);
    DayNumberOfPrevDay(NextDay(d));
  }

  /**
   * `d - timedelta(days=k)`: `None` when the result would precede year 1
   * (Python raises OverflowError there), which is when `d` is fewer than
   * `k` days after the first representable day.
   */
  function DaysBefore(d: Date, k: nat): (r: Option<Date>)
    requires ValidDate(d)
    ensures r.Some? <==> k <= DayNumber(d)
    ensures r.Some? ==> ValidDate(r.value) && DayNumber(r.value) == DayNumber(d) - k
    ensures r.Some? && k > 0 ==> DateBefore(r.value, d)
  {
    if k == 0 then Some(d)
    else
      match DaysBefore(d, k - 1)
      case None => None
      case Some(e) =>
        if e == FirstDate then None
        else
          DayNumberOfPrevDay(e);
          Some(PrevDay(e))
  }

  /** Every day of year 2 or later is at least a year after the first day. */
  lemma {:induction false} DaysBeforeSucceedsFromYearTwo(d: Date, k: nat)
    requires ValidDate(d) && d.year >= 2 && k <= 365
    ensures DaysBefore(d, k).Some?
  {
    assert DaysBeforeYear(d.year) >= 365;
  }

  /** `d + timedelta(days=k)`: `None` when the result would pass year 9999. */
  function DaysAfter(d: Date, k: nat): (r: Option<Date>)
    requires ValidDate(d)
    ensures r.Some? ==> ValidDate(r.value)
    ensures r.Some? && k > 0 ==> DateBefore(d, r.value)
    decreases k
  {
    if k == 0 then Some(d)
    else
      var n := NextDay(d);
      if n.year > MaxYear then None else DaysAfter(n, k - 1)
  }

  /** Going back `k` days and then forward `k` days returns to the start. */
  lemma {:induction false} DaysAfterUndoesDaysBefore(d: Date, k: nat)
    requires ValidDate(d)
    ensures DaysBefore(d, k).Some? ==> DaysAfter(DaysBefore(d, k).value, k) == Some(d)
  {
    if k > 0 && DaysBefore(d, k).Some? {
      var e1 := DaysBefore(d, k - 1).value;
      DaysAfterUndoesDaysBefore(d, k - 1);
      var e := PrevDay(e1);
      assert DaysBefore(d, k) == Some(e);
      assert NextDay(e) == e1;
      assert DaysAfter(e, k) == DaysAfter(e1, k - 1);
    }
  }

  /** Going forward `k` days and then back `k` days returns to the start. */
  lemma {:induction false} DaysBeforeUndoesDaysAfter(e: Date, k: nat)
    requires ValidDate(e)
    ensures DaysAfter(e, k).Some? ==> DaysBefore(DaysAfter(e, k).value, k) == Some(e)
    decreases k
  {
    if k > 0 && DaysAfter(e, k).Some? {
      var n := NextDay(e);
      assert n.year <= MaxYear && ValidDate(n);
      var d := DaysAfter(e, k).value;
      assert DaysAfter(n, k - 1) == Some(d);
      DaysBeforeUndoesDaysAfter(n, k - 1);
      assert DaysBefore(d, k - 1) == Some(n);
      PrevDayUndoesNextDay(e);
      assert n != FirstDate && PrevDay(n) == e;
    }
  }

  /** `t - timedelta(days=k)`: the same time of day, `k` calendar days earlier. */
  function ShiftBackDays(t: Timestamp, k: nat): (r: Option<Timestamp>)
    requires ValidTimestamp(t)
    ensures r.Some? ==> ValidTimestamp(r.value)
    ensures r.Some? ==> DaysBefore(t.date, k) == Some(r.value.date)
    ensures r.Some? ==> (r.value.hour, r.value.minute, r.value.second, r.value.micro)
                        == (t.hour, t.minute, t.second, t.micro)
    ensures r.None? <==> DaysBefore(t.date, k).None?
    ensures r.Some? <==> k <= DayNumber(t.date)
  {
    match DaysBefore(t.date, k)
    case None => None
    case Some(d) => Some(t.(date := d))
  }

  /**
   * The half-open window `[Midnight(start), Midnight(NextDay(end)))` holds
   * exactly the instants whose day lies in the closed range `start..end`:
   * the end day is included in full and nothing of the day after it.
   */
  lemma EndDayIncludedInFull(t: Timestamp, start: Date, end: Date)
    requires ValidTimestamp(t) && ValidDate(start) && ValidDate(end)
    ensures (NotAfter(Midnight(start), t) && Before(t, Midnight(NextDay(end))))
            <==> (!DateBefore(t.date, start) && !DateBefore(end, t.date))
  {
    if DateBefore(end, t.date) {
      NextDayIsImmediate(end, t.date);
    }
  }

  // ---------------------------------------------------------------------
  // The YYYY-MM-DD text form
  // ---------------------------------------------------------------------

  predicate IsAsciiDigit(c: char) {
    '0' <= c <= '9'
  }

  function DigitValue(c: char): (v: int)
    requires IsAsciiDigit(c)
    ensures 0 <= v < 10
  {
    c as int - '0' as int
  }

  function DigitChar(n: int): (c: char)
    requires 0 <= n < 10
    ensures IsAsciiDigit(c) && DigitValue(c) == n
  {
    ('0' as int + n) as char
  }

  /** `%Y` when parsing: exactly four digits. */
  function YearToken(tok: string): (r: Option<int>)
    ensures r.Some? ==> 0 <= r.value <= 9999
  {
    if |tok| == 4 && IsAsciiDigit(tok[0]) && IsAsciiDigit(tok[1])
       && IsAsciiDigit(tok[2]) && IsAsciiDigit(tok[3])
    then Some(1000 * DigitValue(tok[0]) + 100 * DigitValue(tok[1])
              + 10 * DigitValue(tok[2]) + DigitValue(tok[3]))
    else None
  }

  /** `%m` when parsing: the alternatives `1[0-2]`, `0[1-9]` or a lone `[1-9]`. */
  function MonthToken(tok: string): (r: Option<int>)
    ensures r.Some? ==> 1 <= r.value <= 12
  {
    if |tok| == 1 && '1' <= tok[0] <= '9' then Some(DigitValue(tok[0]))
    else if |tok| == 2 && tok[0] == '1' && '0' <= tok[1] <= '2' then Some(10 + DigitValue(tok[1]))
    else if |tok| == 2 && tok[0] == '0' && '1' <= tok[1] <= '9' then Some(DigitValue(tok[1]))
    else None
  }

  /**
   * `%d` when parsing, as the whole rest of the text: `3[01]`, `[12]` plus a
   * digit, `0[1-9]`, a lone `[1-9]`, or a space and `[1-9]`. Any other
   * remainder either fails to match or leaves unconverted text.
   */
  function DayToken(tok: string): (r: Option<int>)
    ensures r.Some? ==> 1 <= r.value <= 31
  {
    if |tok| == 1 && '1' <= tok[0] <= '9' then Some(DigitValue(tok[0]))
    else if |tok| != 2 then None
    else if tok[0] == '3' && '0' <= tok[1] <= '1' then Some(30 + DigitValue(tok[1]))
    else if '1' <= tok[0] <= '2' && IsAsciiDigit(tok[1]) then Some(10 * DigitValue(tok[0]) + DigitValue(tok[1]))
    else if (tok[0] == '0' || tok[0] == ' ') && '1' <= tok[1] <= '9' then Some(DigitValue(tok[1]))
    else None
  }

  /**
   * `datetime.strptime(s, "%Y-%m-%d")`: the month token ends at the second
   * dash, the day token is the rest, and the three numbers must name a real
   * calendar day. `None` stands for the ValueError the caller catches.
   */
  function ParseDate(s: string): (r: Option<Date>)
    ensures r.Some? ==> ValidDate(r.value)
    ensures r.Some? ==> 8 <= |s| <= 10 && s[4] == '-'
    ensures r.Some? ==> SpellsDate(s, r.value)
  {
    if |s| < 8 || s[4] != '-' then None
    else
      var monthEnd := if s[6] == '-' then 6 else 7;
      if s[monthEnd] != '-' then None
      else
        match (YearToken(s[..4]), MonthToken(s[5..monthEnd]), DayToken(s[monthEnd + 1..]))
        case (Some(y), Some(m), Some(d)) =>
          if ValidDate(Date(y, m, d)) then
            YearTokenIsPad4(s[..4]);
            MonthTokenIsSpelling(s[5..monthEnd]);
            DayTokenIsSpelling(s[monthEnd + 1..]);
            Some(Date(y, m, d))
          else None
        case _ => None
  }

  function Pad2(n: int): (s: string)
    requires 0 <= n < 100
    ensures |s| == 2
  {
    [DigitChar(n / 10), DigitChar(n % 10)]
  }

  function Pad4(n: int): (s: string)
    requires 0 <= n < 10000
    ensures |s| == 4
  {
    Pad2(n / 100) + Pad2(n % 100)
  }

  /** `strftime("%Y-%m-%d")`: zero-padded year, month and day. */
  function FormatDate(d: Date): (s: string)
    requires ValidDate(d)
    ensures |s| == 10 && s[4] == '-' && s[7] == '-'
  {
    Pad4(d.year) + "-" + Pad2(d.month) + "-" + Pad2(d.day)
  }

  lemma YearTokenReadsPad4(y: int)
    requires 0 <= y < 10000
    ensures YearToken(Pad4(y)) == Some(y)
  {
    var hi, lo := y / 100, y % 100;
    var s := Pad4(y);
    assert s == Pad2(hi) + Pad2(lo);
    assert DigitValue(s[0]) == hi / 10 && DigitValue(s[1]) == hi % 10;
    assert DigitValue(s[2]) == lo / 10 && DigitValue(s[3]) == lo % 10;
    assert y == 100 * hi + lo;
    assert hi == 10 * (hi / 10) + hi % 10;
    assert lo == 10 * (lo / 10) + lo % 10;
  }

  lemma MonthTokenReadsPad2(m: int)
    requires 1 <= m <= 12
    ensures MonthToken(Pad2(m)) == Some(m)
  {
    var s := Pad2(m);
    assert DigitValue(s[0]) == m / 10 && DigitValue(s[1]) == m % 10;
  }

  lemma DayTokenReadsPad2(d: int)
    requires 1 <= d <= 31
    ensures DayToken(Pad2(d)) == Some(d)
  {
    var s := Pad2(d);
    assert DigitValue(s[0]) == d / 10 && DigitValue(s[1]) == d % 10;
  }

  /** Formatting a valid day and parsing the text back gives the same day. */
  lemma ParseDateReadsFormatDate(d: Date)
    requires ValidDate(d)
    ensures ParseDate(FormatDate(d)) == Some(d)
  {
    var s := FormatDate(d);
    assert s[..4] == Pad4(d.year);
    assert s[5..7] == Pad2(d.month);
    assert s[8..] == Pad2(d.day);
    assert s[6] == Pad2(d.month)[1];
    YearTokenReadsPad4(d.year);
    MonthTokenReadsPad2(d.month);
    DayTokenReadsPad2(d.day);
  }

  /** The spellings `%m` accepts for month `m`: two digits, or one digit below ten. */
  predicate MonthSpelling(t: string, m: int) {
    && 1 <= m <= 12
    && (t == Pad2(m) || (m < 10 && t == [DigitChar(m)]))
  }

  /** The spellings `%d` accepts for day `d`: two digits, or below ten one digit alone or after a space. */
  predicate DaySpelling(t: string, d: int) {
    && 1 <= d <= 31
    && (t == Pad2(d) || (d < 10 && (t == [DigitChar(d)] || t == [' ', DigitChar(d)])))
  }

  /**
   * The text spells the date: four year digits, a dash, the month, a dash
   * and the day. A one-character month puts the second dash at position 6,
   * a two-character one at position 7.
   */
  predicate SpellsDate(s: string, d: Date) {
    && 8 <= |s|
    && 0 <= d.year < 10000
    && s[..4] == Pad4(d.year) && s[4] == '-'
    && if s[6] == '-' then MonthSpelling(s[5..6], d.month) && DaySpelling(s[7..], d.day)
       else s[7] == '-' && MonthSpelling(s[5..7], d.month) && DaySpelling(s[8..], d.day)
  }

  lemma DigitCharReadsDigit(c: char)
    requires IsAsciiDigit(c)
    ensures DigitChar(DigitValue(c)) == c
  {
  }

  /** Four digits are the zero-padded spelling of the year they read as. */
  lemma YearTokenIsPad4(tok: string)
    requires YearToken(tok).Some?
    ensures tok == Pad4(YearToken(tok).value)
  {
    var a, b, c, e := DigitValue(tok[0]), DigitValue(tok[1]), DigitValue(tok[2]), DigitValue(tok[3]);
    var y := YearToken(tok).value;
    assert y == 1000 * a + 100 * b + 10 * c + e;
    var hi, lo := y / 100, y % 100;
    assert hi == 10 * a + b && lo == 10 * c + e;
    assert hi / 10 == a && hi % 10 == b && lo / 10 == c && lo % 10 == e;
    DigitCharReadsDigit(tok[0]);
    DigitCharReadsDigit(tok[1]);
    DigitCharReadsDigit(tok[2]);
    DigitCharReadsDigit(tok[3]);
  }

  lemma MonthTokenIsSpelling(tok: string)
    requires MonthToken(tok).Some?
    ensures MonthSpelling(tok, MonthToken(tok).value)
  {
    DigitCharReadsDigit(tok[0]);
    if |tok| == 2 {
      DigitCharReadsDigit(tok[1]);
    }
  }

  lemma DayTokenIsSpelling(tok: string)
    requires DayToken(tok).Some?
    ensures DaySpelling(tok, DayToken(tok).value)
  {
    var d := DayToken(tok).value;
    if |tok| == 1 {
      DigitCharReadsDigit(tok[0]);
    } else {
      DigitCharReadsDigit(tok[1]);
      if tok[0] != ' ' {
        DigitCharReadsDigit(tok[0]);
        assert d / 10 == DigitValue(tok[0]) && d % 10 == DigitValue(tok[1]);
      }
    }
  }

  lemma MonthTokenReadsSpelling(t: string, m: int)
    requires MonthSpelling(t, m)
    ensures MonthToken(t) == Some(m)
  {
    if t == Pad2(m) {
      MonthTokenReadsPad2(m);
    }
  }

  lemma DayTokenReadsSpelling(t: string, d: int)
    requires DaySpelling(t, d)
    ensures DayToken(t) == Some(d)
  {
    if t == Pad2(d) {
      DayTokenReadsPad2(d);
    }
  }

  /** Every spelling of a valid date, with one- or two-character month and day, is accepted as that date. */
  lemma ParseDateAcceptsEverySpelling(s: string, d: Date)
    requires ValidDate(d) && SpellsDate(s, d)
    ensures ParseDate(s) == Some(d)
  {
    YearTokenReadsPad4(d.year);
    if s[6] == '-' {
      MonthTokenReadsSpelling(s[5..6], d.month);
      DayTokenReadsSpelling(s[7..], d.day);
    } else {
      MonthTokenReadsSpelling(s[5..7], d.month);
      DayTokenReadsSpelling(s[8..], d.day);
    }
  }

  /** `ParseDate` reads `s` as `d` exactly when `d` is a valid date that `s` spells. */
  lemma ParseDateExactly(s: string, d: Date)
    ensures ParseDate(s) == Some(d) <==> ValidDate(d) && SpellsDate(s, d)
  {
    if ValidDate(d) && SpellsDate(s, d) {
      ParseDateAcceptsEverySpelling(s, d);
    }
  }
}

=== FILE: dashboard.dfy ===
/**
 * The dashboard page (`app/states/dashboard_state.py`): the signed-in
 * user's counts, open alerts, ten newest readings and a down-sampled chart
 * of one sensor type over a trailing window.
 */
module Dashboard {
  import opened Basics
  import opened Calendar
  import opened Query
  import opened Database
  import opened Api
  import opened Alerts

  // ---------------------------------------------------------------------
  // Read models
  // ---------------------------------------------------------------------

  /** `Sensor JOIN Parcel WHERE farmer_id == userId`. */
  function SensorsOf(db: Db, userId: int): Sensor -> bool {
    (s: Sensor) => OnParcelOf(db, s, userId)
  }

  /** `SensorData JOIN Sensor JOIN Parcel WHERE farmer_id == userId`. */
  function ReadingsOf(db: Db, userId: int): Reading -> bool {
    (x: Reading) => OwnsSensorId(db, x.sensorId, userId)
  }

  /** How many recent readings the dashboard lists. */
  const RecentLimit: nat := 10

  /** The user's ten newest readings, newest first; none left out is newer than one listed. */
  function RecentReadings(db: Db, userId: int): (r: seq<Reading>)
    ensures NewestFirst(r, ReadingTime)
    ensures |r| == Min(RecentLimit, Count(db.readings, ReadingsOf(db, userId)))
    ensures forall x | x in r :: x in db.readings && OwnsSensorId(db, x.sensorId, userId)
    ensures forall x, y | x in r && y in db.readings && OwnsSensorId(db, y.sensorId, userId) && y !in r ::
              NotAfter(y.timestamp, x.timestamp)
    ensures multiset(r) <= multiset(Filter(db.readings, ReadingsOf(db, userId)))
  {
    var r := NewestWhere(db.readings, ReadingsOf(db, userId), ReadingTime, RecentLimit);
    assert forall x, y | x in r && y in db.readings && OwnsSensorId(db, y.sensorId, userId) && y !in r ::
             NotAfter(y.timestamp, x.timestamp) by {
      forall x, y | x in r && y in db.readings && OwnsSensorId(db, y.sensorId, userId) && y !in r
        ensures NotAfter(y.timestamp, x.timestamp)
      {
        assert ReadingsOf(db, userId)(y);
        assert NotAfter(ReadingTime(y), ReadingTime(x));
      }
    }
    r
  }

  /** One line of the recent-readings table: the reading with its sensor and parcel. */
  datatype RecentRow = RecentRow(reading: Reading, sensor: Sensor, parcel: Parcel)

  function RecentRows(db: Db, readings: seq<Reading>): (r: seq<RecentRow>)
    requires forall x | x in readings :: JoinSensor(db, x.sensorId).Some?
    ensures |r| == |readings|
    ensures forall i | 0 <= i < |readings| ::
              r[i].reading == readings[i] && Some(Joined(r[i].sensor, r[i].parcel)) == JoinSensor(db, readings[i].sensorId)
  {
    seq(|readings|, i requires 0 <= i < |readings| =>
      assert readings[i] in readings;
      var j := JoinSensor(db, readings[i].sensorId).value;
      RecentRow(readings[i], j.sensor, j.parcel))
  }

  // ---------------------------------------------------------------------
  // Chart
  // ---------------------------------------------------------------------

  /** The window's length in days: "24h" is one day back, "7d" seven, anything else thirty. */
  function WindowDays(timeFilter: string): (k: nat)
    ensures timeFilter == "24h" ==> k == 1
    ensures timeFilter == "7d" ==> k == 7
    ensures timeFilter != "24h" && timeFilter != "7d" ==> k == 30
  {
    if timeFilter == "24h" then 1
    else if timeFilter == "7d" then 7
    else 30
  }

  /**
   * The window's start: `now` moved back by the window at the same time of
   * day, or `None` when that falls before year 1 (Python raises there).
   */
  function WindowStart(now: Timestamp, timeFilter: string): (r: Option<Timestamp>)
    requires ValidTimestamp(now)
    ensures r.Some? ==> && ValidTimestamp(r.value)
                        && DaysBefore(now.date, WindowDays(timeFilter)) == Some(r.value.date)
                        && (r.value.hour, r.value.minute, r.value.second, r.value.micro)
                           == (now.hour, now.minute, now.second, now.micro)
                        && Before(r.value, now)
    ensures r.None? <==> DaysBefore(now.date, WindowDays(timeFilter)).None?
    ensures r.Some? <==> WindowDays(timeFilter) <= DayNumber(now.date)
  {
    ShiftBackDays(now, WindowDays(timeFilter))
  }

  /** From year 2 on, every window starts within the calendar. */
  lemma WindowStartExistsFromYearTwo(now: Timestamp, timeFilter: string)
    requires ValidTimestamp(now) && now.date.year >= 2
    ensures WindowStart(now, timeFilter).Some?
  {
    DaysBeforeSucceedsFromYearTwo(now.date, WindowDays(timeFilter));
  }

  /** The user's readings of sensors of type `kind`. */
  function ChartReadingsOf(db: Db, userId: int, kind: string): Reading -> bool {
    (x: Reading) => OwnsSensorId(db, x.sensorId, userId) && JoinSensor(db, x.sensorId).value.sensor.kind == kind
  }

  /** The user's readings of type `kind` at or after `start`, oldest first. */
  function ChartPoints(db: Db, userId: int, kind: string, start: Timestamp): (r: seq<Reading>)
    ensures OldestFirst(r, ReadingTime)
    ensures forall x :: x in r <==> && x in db.readings && OwnsSensorId(db, x.sensorId, userId)
                                     && JoinSensor(db, x.sensorId).value.sensor.kind == kind
                                     && NotAfter(start, x.timestamp)
    ensures multiset(r) <= multiset(db.readings)
  {
    var mine := Filter(db.readings, ChartReadingsOf(db, userId, kind));
    OldestFirstSince(mine, ReadingTime, start)
  }

  /** How many of the positions 0, step, 2·step, … lie below `n`: ⌈n / step⌉. */
  function StrideCount(n: nat, step: nat): (c: nat)
    requires step >= 1
    ensures n <= c * step
    ensures c == 0 || (c - 1) * step < n
  {
    var c := (n + step - 1) / step;
    var rem := (n + step - 1) % step;
    assert n + step - 1 == c * step + rem;
    MulDistributes(c - 1, step);
    c
  }

  /** Every position `k · step` with `k` below the stride count lies inside the sequence. */
  lemma StridesStayInside(n: nat, step: nat, k: nat)
    requires step >= 1
    requires k < StrideCount(n, step)
    ensures k * step < n
  {
    MulMonotone(k, StrideCount(n, step) - 1, step);
  }

  /**
   * `range(0, len(s), step)` read off `s`: the elements at positions 0,
   * step, 2·step, … in order, as many as it takes to cover `s`.
   */
  function Strided<T>(s: seq<T>, step: nat): (r: seq<T>)
    requires step >= 1
    ensures |s| <= |r| * step
    ensures |r| == 0 || (|r| - 1) * step < |s|
    ensures forall k | 0 <= k < |r| :: k * step < |s| && r[k] == s[k * step]
  {
    var count := StrideCount(|s|, step);
    assert forall k | 0 <= k < count :: k * step < |s| by {
      forall k | 0 <= k < count ensures k * step < |s| {
        StridesStayInside(|s|, step, k);
      }
    }
    seq(count, k requires 0 <= k < count && k * step < |s| => s[k * step])
  }

  lemma MulDistributes(a: int, d: int)
    ensures (a + 1) * d == a * d + d
  {
  }

  lemma MulMonotone(a: int, b: int, d: nat)
    requires a <= b
    ensures a * d <= b * d
  {
  }

  /** The point count the chart thins towards. */
  const ChartTarget: nat := 50

  /** `step = max(1, n // 50)`. */
  function DownsampleStep(n: nat): (step: nat)
    ensures step >= 1
    ensures n < ChartTarget ==> step == 1
    ensures n >= ChartTarget ==> step * ChartTarget <= n < (step + 1) * ChartTarget
  {
    Max(1, n / ChartTarget)
  }

  /** The chart's points: every `step`-th reading, from the first, in order, covering the whole input. */
  function Downsample<T>(points: seq<T>): (r: seq<T>)
    ensures points == [] <==> r == []
    ensures |points| <= |r| * DownsampleStep(|points|)
    ensures forall k | 0 <= k < |r| :: k * DownsampleStep(|points|) < |points|
                                       && r[k] == points[k * DownsampleStep(|points|)]
  {
    Strided(points, DownsampleStep(|points|))
  }

  /** Fewer than 50 points are all kept; from 50 on, between 50 and 99 survive. */
  lemma DownsampleSize<T>(points: seq<T>)
    ensures |points| < ChartTarget ==> Downsample(points) == points
    ensures |points| >= ChartTarget ==> ChartTarget <= |Downsample(points)| < 2 * ChartTarget
  {
    var n := |points|;
    var out := Downsample(points);
    if n < ChartTarget {
      assert |out| == n;
      assert forall k | 0 <= k < n :: out[k] == points[k];
    } else {
      StrideCountNearTarget(n, DownsampleStep(n), |out|);
    }
  }

  lemma StrideCountNearTarget(n: nat, step: nat, c: nat)
    requires step >= 1
    requires step * ChartTarget <= n < (step + 1) * ChartTarget
    requires n <= c * step && (c == 0 || (c - 1) * step < n)
    ensures ChartTarget <= c < 2 * ChartTarget
  {
    if c < ChartTarget {
      MulMonotone(c, ChartTarget - 1, step);
      assert false;
    }
    if c >= 2 * ChartTarget {
      MulMonotone(2 * ChartTarget - 1, c - 1, step);
      assert false;
    }
  }

  // ---------------------------------------------------------------------
  // The page
  // ---------------------------------------------------------------------

  datatype DashboardPage = DashboardPage(
    totalParcels: nat,
    totalSensors: nat,
    activeAlertsCount: nat,
    activeAlerts: seq<Alert>,
    recentReadings: seq<RecentRow>,
    chartData: seq<Reading>,
    timeFilter: string,
    selectedSensorType: string,
    isLoading: bool)

  /** The counts and lists of the page are the user's: parcels, sensors, open alerts and recent readings. */
  predicate ShowsUser(r: DashboardPage, db: Db, uid: int) {
    && r.totalParcels == Count(db.parcels, OwnedBy(uid))
    && r.totalSensors == Count(db.sensors, SensorsOf(db, uid))
    && r.activeAlerts == ActiveAlerts(db, uid)
    && r.activeAlertsCount == |r.activeAlerts|
    && |r.recentReadings| == |RecentReadings(db, uid)|
    && (forall i | 0 <= i < |r.recentReadings| :: r.recentReadings[i].reading == RecentReadings(db, uid)[i])
  }

  /**
   * `load_dashboard_data` with the clock reading `now`. Without a signed-in
   * user only the loading flag drops. Otherwise the counts, the open alerts
   * and the recent readings are refreshed, then the chart; a window that
   * falls before year 1 raises in the chart step, which leaves the chart as
   * it was and the page still loading.
   */
  function LoadDashboard(page: DashboardPage, db: Db, user: Option<User>, now: Timestamp): (r: DashboardPage)
    requires ValidTimestamp(now)
    ensures user.None? ==> r == page.(isLoading := false)
    ensures r.timeFilter == page.timeFilter && r.selectedSensorType == page.selectedSensorType
    ensures user.Some? ==>
              var uid := user.value.id;
              && ShowsUser(r, db, uid)
              && match WindowStart(now, page.timeFilter)
                 case None => r.chartData == page.chartData && r.isLoading
                 case Some(start) =>
                   r.chartData == Downsample(ChartPoints(db, uid, page.selectedSensorType, start)) && !r.isLoading
  {
    match user
    case None => page.(isLoading := false)
    case Some(u) =>
      var alerts := ActiveAlerts(db, u.id);
      var recent := RecentReadings(db, u.id);
      var loaded := page.(
        totalParcels := Count(db.parcels, OwnedBy(u.id)),
        totalSensors := Count(db.sensors, SensorsOf(db, u.id)),
        activeAlerts := alerts,
        activeAlertsCount := |alerts|,
        recentReadings := RecentRows(db, recent),
        isLoading := true);
      match WindowStart(now, page.timeFilter)
      case None => loaded
      case Some(start) =>
        loaded.(chartData := Downsample(ChartPoints(db, u.id, page.selectedSensorType, start)), isLoading := false)
  }

  // `set_time_filter` and `set_sensor_type_filter` end with
  // `await self.load_dashboard_data()`. That handler contains `yield`, so
  // the call makes an async generator and awaiting it raises TypeError
  // before the reload starts. `...AsWritten` models that: the setting
  // changes and nothing else. The plain names are the evidently intended
  // handlers, which reload with the new setting.

  /** `set_time_filter` as written: only the window setting changes; counts, lists and chart stay. */
  function SetTimeFilterAsWritten(page: DashboardPage, value: string): (r: DashboardPage)
    ensures r.timeFilter == value
    ensures r.(timeFilter := page.timeFilter) == page
  {
    page.(timeFilter := value)
  }

  /** `set_time_filter` as intended: the window changes and the page reloads with it; the chart follows the new window. */
  function SetTimeFilter(page: DashboardPage, db: Db, user: Option<User>, now: Timestamp, value: string): (r: DashboardPage)
    requires ValidTimestamp(now)
    ensures r.timeFilter == value && r.selectedSensorType == page.selectedSensorType
    ensures user.Some? && WindowStart(now, value).Some? ==>
              r.chartData == Downsample(ChartPoints(db, user.value.id, page.selectedSensorType, WindowStart(now, value).value))
    ensures user.Some? ==> ShowsUser(r, db, user.value.id)
    ensures user.Some? && WindowStart(now, value).None? ==> r.chartData == page.chartData
    ensures user.None? ==> r == page.(timeFilter := value, isLoading := false)
    ensures user.Some? ==> (r.isLoading <==> WindowStart(now, value).None?)
  {
    LoadDashboard(SetTimeFilterAsWritten(page, value), db, user, now)
  }

  /** `set_sensor_type_filter` as written: only the type setting changes; the chart keeps the old type's points. */
  function SetSensorTypeFilterAsWritten(page: DashboardPage, value: string): (r: DashboardPage)
    ensures r.selectedSensorType == value
    ensures r.(selectedSensorType := page.selectedSensorType) == page
  {
    page.(selectedSensorType := value)
  }

  /** `set_sensor_type_filter` as intended: the sensor type changes and the page reloads; the chart shows only that type. */
  function SetSensorTypeFilter(page: DashboardPage, db: Db, user: Option<User>, now: Timestamp, value: string): (r: DashboardPage)
    requires ValidTimestamp(now)
    ensures r.selectedSensorType == value && r.timeFilter == page.timeFilter
    ensures user.Some? && WindowStart(now, page.timeFilter).Some? ==>
              forall x | x in r.chartData :: exists s | s in db.sensors :: s.id == x.sensorId && s.kind == value
    ensures user.Some? && WindowStart(now, page.timeFilter).Some? ==>
              r.chartData == Downsample(ChartPoints(db, user.value.id, value, WindowStart(now, page.timeFilter).value))
    ensures user.Some? ==> ShowsUser(r, db, user.value.id)
    ensures user.Some? && WindowStart(now, page.timeFilter).None? ==> r.chartData == page.chartData
    ensures user.None? ==> r == page.(selectedSensorType := value, isLoading := false)
    ensures user.Some? ==> (r.isLoading <==> WindowStart(now, page.timeFilter).None?)
  {
    var r := LoadDashboard(SetSensorTypeFilterAsWritten(page, value), db, user, now);
    if user.Some? && WindowStart(now, page.timeFilter).Some? then
      ChartKeepsItsType(db, user.value.id, value, WindowStart(now, page.timeFilter).value);
      r
    else r
  }

  /**
   * Switching the sensor type while the chart shows a point of a sensor
   * of another type: as written that point stays on the chart under the
   * new type's heading; as intended every point is of the new type.
   */
  lemma TypeSwitchAsWrittenShowsOtherTypes(page: DashboardPage, db: Db, user: User, now: Timestamp,
                                           value: string, x: Reading)
    requires ValidTimestamp(now) && WindowStart(now, page.timeFilter).Some?
    requires x in page.chartData
    requires forall s | s in db.sensors && s.id == x.sensorId :: s.kind != value
    ensures var w := SetSensorTypeFilterAsWritten(page, value);
            w.selectedSensorType == value && x in w.chartData
    ensures x !in SetSensorTypeFilter(page, db, Some(user), now, value).chartData
  {
  }

  /** Every point the chart shows is a reading of a sensor of the chosen type. */
  lemma ChartKeepsItsType(db: Db, userId: int, kind: string, start: Timestamp)
    ensures forall x | x in Downsample(ChartPoints(db, userId, kind, start)) ::
              exists s | s in db.sensors :: s.id == x.sensorId && s.kind == kind
  {
    var pts := ChartPoints(db, userId, kind, start);
    var shown := Downsample(pts);
    DownsampleKeepsMembers(pts);
    forall x | x in shown ensures exists s | s in db.sensors :: s.id == x.sensorId && s.kind == kind {
      PointHasKind(db, userId, kind, start, x);
    }
  }

  /** Down-sampling only drops points: whatever it keeps was in the input. */
  lemma DownsampleKeepsMembers<T>(points: seq<T>)
    ensures forall x | x in Downsample(points) :: x in points
  {
    var r := Downsample(points);
    var step := DownsampleStep(|points|);
    forall x | x in r ensures x in points {
      var k :| 0 <= k < |r| && r[k] == x;
      var i := k * step;
      assert 0 <= i < |points| && points[i] == x;
    }
  }

  lemma PointHasKind(db: Db, userId: int, kind: string, start: Timestamp, x: Reading)
    requires x in ChartPoints(db, userId, kind, start)
    ensures exists s | s in db.sensors :: s.id == x.sensorId && s.kind == kind
  {
    var j := JoinSensor(db, x.sensorId).value;
    assert j.sensor in db.sensors && j.sensor.id == x.sensorId;
  }

  // ---------------------------------------------------------------------
  // Agreement with the HTTP summary, and acknowledging from the dashboard
  // ---------------------------------------------------------------------

  /**
   * With unique keys, `GET /dashboard` (which collects id lists and filters
   * by membership) reports the same three counts the dashboard page computes
   * through its joins.
   */
  lemma {:induction false} ApiSummaryMatchesDashboard(db: Db, userId: int)
    requires UniqueIds(db.sensors, SensorId) && UniqueIds(db.parcels, ParcelId)
    ensures SummaryFor(db, userId) == DashboardSummary(
              Count(db.parcels, OwnedBy(userId)),
              Count(db.sensors, SensorsOf(db, userId)),
              |ActiveAlerts(db, userId)|)
  {
    var parcels := Filter(db.parcels, OwnedBy(userId));
    var parcelIds := set p | p in parcels :: p.id;
    forall s | s in db.sensors ensures OnParcels(parcelIds)(s) == SensorsOf(db, userId)(s) {
      OnParcelOfIsOwnership(db, s, userId);
      if s.parcelId in parcelIds {
        var p :| p in parcels && p.id == s.parcelId;
      }
    }
    FilterAgreeing(db.sensors, OnParcels(parcelIds), SensorsOf(db, userId));
    var sensors := Filter(db.sensors, SensorsOf(db, userId));
    var sensorIds := set s | s in sensors :: s.id;
    forall a | a in db.alerts ensures OpenOnSensors(sensorIds)(a) == OpenOf(db, userId)(a) {
      OwnsSensorIdIsOwnership(db, a.sensorId, userId);
      if a.sensorId in sensorIds {
        var s :| s in sensors && s.id == a.sensorId;
        OnParcelOfIsOwnership(db, s, userId);
      }
      if OwnsSensorId(db, a.sensorId, userId) {
        var s :| s in db.sensors && s.id == a.sensorId && SensorOwnedBy(db, s, userId);
        OnParcelOfIsOwnership(db, s, userId);
        assert s in sensors;
      }
    }
    FilterAgreeing(db.alerts, OpenOnSensors(sensorIds), OpenOf(db, userId));
    if parcels == [] {
      NothingOwnedNothingCounted(db, userId);
    }
  }

  /** A user without parcels has no sensors and no open alerts. */
  lemma NothingOwnedNothingCounted(db: Db, userId: int)
    requires Filter(db.parcels, OwnedBy(userId)) == []
    ensures Count(db.sensors, SensorsOf(db, userId)) == 0
    ensures Count(db.alerts, OpenOf(db, userId)) == 0
  {
    FilterKeepsNothing(db.sensors, SensorsOf(db, userId));
    forall a | a in db.alerts ensures !OpenOf(db, userId)(a) {
      if OwnsSensorId(db, a.sensorId, userId) {
        assert JoinSensor(db, a.sensorId).value.parcel in db.parcels;
      }
    }
    FilterKeepsNothing(db.alerts, OpenOf(db, userId));
  }

  /**
   * The dashboard's `acknowledge_alert`: after it, the reloaded open-alert
   * list no longer holds that alert and still holds every other one.
   */
  lemma AcknowledgeFromDashboard(db: Db, userId: int, alertId: int)
    ensures forall a | a in ActiveAlerts(Acknowledge(db, alertId), userId) :: a.id != alertId
    ensures forall a | a in ActiveAlerts(db, userId) && a.id != alertId :: a in ActiveAlerts(Acknowledge(db, alertId), userId)
  {
    AcknowledgedAlertLeavesActiveList(db, userId, alertId);
    OtherOpenAlertsStay(db, userId, alertId);
  }

  lemma OtherOpenAlertsStay(db: Db, userId: int, alertId: int)
    ensures forall a | a in ActiveAlerts(db, userId) && a.id != alertId :: a in ActiveAlerts(Acknowledge(db, alertId), userId)
  {
    var db' := Acknowledge(db, alertId);
    assert db'.sensors == db.sensors && db'.parcels == db.parcels;
    forall a | a in db.alerts && a.id != alertId && IsOpen(a) && OwnsSensorId(db, a.sensorId, userId)
      ensures a in db'.alerts && OwnsSensorId(db', a.sensorId, userId)
    {
      var i :| 0 <= i < |db.alerts| && db.alerts[i] == a;
      assert db'.alerts[i] == a;
      assert JoinSensor(db', a.sensorId) == JoinSensor(db, a.sensorId);
    }
  }
}

=== FILE: database.dfy ===
/**
 * The relational schema of the application (users, parcels, sensors,
 * readings, alerts) as immutable records held in an in-memory store.
 *
 * Each table is a sequence in insertion order; `session.get(Model, id)` is
 * the first row with that primary key, and a new row's key is one more than
 * the largest key in its table, the way SQLite assigns row ids. Foreign keys
 * are plain integer fields; `Valid` states the integrity the application
 * relies on.
 */
module Database {
  import opened Basics
  import opened Calendar

  datatype User = User(
    id: int,
    username: string,
    email: string,
    passwordHash: string,
    role: string,
    apiKey: Option<string>)

  datatype Parcel = Parcel(
    id: int,
    name: string,
    size: real,
    cropType: string,
    location: string,
    farmerId: int)

  datatype Sensor = Sensor(
    id: int,
    name: string,
    kind: string,
    status: string,
    parcelId: int,
    lastReadingTime: Option<Timestamp>,
    thresholdLow: real,
    thresholdHigh: real)

  /** One `SensorData` row: an immutable reading. */
  datatype Reading = Reading(id: int, sensorId: int, value: real, timestamp: Timestamp)

  /**
   * The text of an alert. The ingestion endpoint writes a breach message
   * naming the sensor type, the value and the threshold crossed; other
   * writers may store arbitrary text.
   */
  datatype AlertMessage =
    | LowReading(sensorType: string, value: real, threshold: real)
    | HighReading(sensorType: string, value: real, threshold: real)
    | Text(text: string)

  datatype Alert = Alert(
    id: int,
    sensorId: int,
    message: AlertMessage,
    level: string,
    isActive: bool,
    acknowledged: bool,
    createdAt: Timestamp)

  datatype Db = Db(
    users: seq<User>,
    parcels: seq<Parcel>,
    sensors: seq<Sensor>,
    readings: seq<Reading>,
    alerts: seq<Alert>)

  // Column defaults of the schema.
  const DefaultRole: string := "farmer"
  const DefaultSensorStatus: string := "active"
  const DefaultThresholdLow: real := 0.0
  const DefaultThresholdHigh: real := 100.0
  const DefaultAlertLevel: string := "warning"

  /** A sensor row built with every column default (status, thresholds, no reading yet). */
  function NewSensor(id: int, name: string, kind: string, parcelId: int, low: real, high: real): Sensor {
    Sensor(id, name, kind, DefaultSensorStatus, parcelId, None, low, high)
  }

  /** An alert row built with the column defaults: level "warning", active, unacknowledged. */
  function NewAlert(id: int, sensorId: int, message: AlertMessage, createdAt: Timestamp): Alert {
    Alert(id, sensorId, message, DefaultAlertLevel, true, false, createdAt)
  }

  // Primary keys.
  function UserId(u: User): int { u.id }
  function ParcelId(p: Parcel): int { p.id }
  function SensorId(s: Sensor): int { s.id }
  function ReadingId(r: Reading): int { r.id }
  function AlertId(a: Alert): int { a.id }

  /** `session.get(Model, id)`: the first row of the table carrying the key. */
  function FindById<T(!new)>(rows: seq<T>, idOf: T -> int, id: int): (r: Option<T>)
    ensures r.Some? ==> r.value in rows && idOf(r.value) == id
    ensures r.None? <==> forall x | x in rows :: idOf(x) != id
  {
    if rows == [] then None
    else if idOf(rows[0]) == id then Some(rows[0])
    else FindById(rows[1..], idOf, id)
  }

  /**
   * `UPDATE ... WHERE id = ?`: every row whose key is `id` rewritten by `f`,
   * the other rows left in place; an unknown key changes nothing.
   */
  function UpdateById<T(!new)>(rows: seq<T>, idOf: T -> int, id: int, f: T -> T): (r: seq<T>)
    ensures |r| == |rows|
    ensures forall i | 0 <= i < |rows| :: r[i] == if idOf(rows[i]) == id then f(rows[i]) else rows[i]
    ensures FindById(rows, idOf, id).None? ==> r == rows
  {
    seq(|rows|, i requires 0 <= i < |rows| => if idOf(rows[i]) == id then f(rows[i]) else rows[i])
  }

  /** The key SQLite gives a new row: one past the largest key in the table. */
  function FreshId<T(!new)>(rows: seq<T>, idOf: T -> int): (r: int)
    ensures r >= 1
    ensures forall x | x in rows :: idOf(x) < r
  {
    if rows == [] then 1
    else Max(idOf(rows[0]) + 1, FreshId(rows[1..], idOf))
  }

  predicate UniqueIds<T>(rows: seq<T>, idOf: T -> int) {
    forall i, j | 0 <= i < j < |rows| :: idOf(rows[i]) != idOf(rows[j])
  }

  /** With unique keys, looking a row up by its own key finds that row. */
  lemma {:induction false} FindByIdFindsRow<T(!new)>(rows: seq<T>, idOf: T -> int, x: T)
    requires UniqueIds(rows, idOf)
    requires x in rows
    ensures FindById(rows, idOf, idOf(x)) == Some(x)
  {
    if rows[0] != x {
      assert forall i, j | 0 <= i < j < |rows[1..]| :: rows[1..][i] == rows[i + 1] && rows[1..][j] == rows[j + 1];
      var k :| 0 <= k < |rows| && rows[k] == x;
      assert idOf(rows[0]) != idOf(x);
      FindByIdFindsRow(rows[1..], idOf, x);
    }
  }

  function FindUser(db: Db, id: int): Option<User> { FindById(db.users, UserId, id) }
  function FindParcel(db: Db, id: int): Option<Parcel> { FindById(db.parcels, ParcelId, id) }
  function FindSensor(db: Db, id: int): Option<Sensor> { FindById(db.sensors, SensorId, id) }
  function FindAlert(db: Db, id: int): Option<Alert> { FindById(db.alerts, AlertId, id) }

  /** `select(User).where(User.email == email).first()`. */
  function FindUserByEmail(users: seq<User>, email: string): (r: Option<User>)
    ensures r.Some? ==> r.value in users && r.value.email == email
    ensures r.None? <==> forall u | u in users :: u.email != email
  {
    if users == [] then None
    else if users[0].email == email then Some(users[0])
    else FindUserByEmail(users[1..], email)
  }

  predicate UniqueEmails(users: seq<User>) {
    forall i, j | 0 <= i < j < |users| :: users[i].email != users[j].email
  }

  predicate HasUser(db: Db, id: int) {
    exists u | u in db.users :: u.id == id
  }

  predicate HasParcel(db: Db, id: int) {
    exists p | p in db.parcels :: p.id == id
  }

  predicate HasSensor(db: Db, id: int) {
    exists s | s in db.sensors :: s.id == id
  }

  /**
   * The integrity the schema declares and the application keeps: primary
   * keys are unique, e-mail addresses are unique, every parcel belongs to an
   * existing user and every sensor to an existing parcel.
   */
  predicate Valid(db: Db) {
    && UniqueIds(db.users, UserId)
    && UniqueIds(db.parcels, ParcelId)
    && UniqueIds(db.sensors, SensorId)
    && UniqueIds(db.readings, ReadingId)
    && UniqueIds(db.alerts, AlertId)
    && UniqueEmails(db.users)
    && (forall p | p in db.parcels :: HasUser(db, p.farmerId))
    && (forall s | s in db.sensors :: HasParcel(db, s.parcelId))
  }

  /** Every reading and alert refers to an existing sensor. */
  predicate Attached(db: Db) {
    && (forall r | r in db.readings :: HasSensor(db, r.sensorId))
    && (forall a | a in db.alerts :: HasSensor(db, a.sensorId))
  }

  // ---------------------------------------------------------------------
  // Ownership, walked back from a row to the parcel's farmer
  // ---------------------------------------------------------------------

  predicate ParcelOwnedBy(p: Parcel, userId: int) {
    p.farmerId == userId
  }

  /** The sensor sits on a parcel of `userId` (`Sensor JOIN Parcel WHERE farmer_id = userId`). */
  predicate SensorOwnedBy(db: Db, s: Sensor, userId: int) {
    exists p | p in db.parcels :: p.id == s.parcelId && p.farmerId == userId
  }

  /** A sensor row together with the parcel it joins to. */
  datatype Joined = Joined(sensor: Sensor, parcel: Parcel)

  /**
   * `JOIN Sensor JOIN Parcel` from a row carrying `sensorId`: the sensor with
   * that key and its parcel, when both exist.
   */
  function JoinSensor(db: Db, sensorId: int): (r: Option<Joined>)
    ensures r.Some? ==> && r.value.sensor in db.sensors && r.value.sensor.id == sensorId
                        && r.value.parcel in db.parcels && r.value.parcel.id == r.value.sensor.parcelId
    ensures FindSensor(db, sensorId).None? ==> r.None?
  {
    match FindSensor(db, sensorId)
    case None => None
    case Some(s) =>
      match FindParcel(db, s.parcelId)
      case None => None
      case Some(p) => Some(Joined(s, p))
  }

  /** A row carrying `sensorId` joins through its sensor to a parcel of `userId`. */
  predicate OwnsSensorId(db: Db, sensorId: int, userId: int) {
    JoinSensor(db, sensorId).Some? && JoinSensor(db, sensorId).value.parcel.farmerId == userId
  }

  /** The sensor's parcel, looked up by key, belongs to `userId` (`Sensor JOIN Parcel WHERE farmer_id`). */
  predicate OnParcelOf(db: Db, s: Sensor, userId: int) {
    FindParcel(db, s.parcelId).Some? && FindParcel(db, s.parcelId).value.farmerId == userId
  }

  /** With unique keys, looking the parcel up agrees with the relational reading of ownership. */
  lemma OnParcelOfIsOwnership(db: Db, s: Sensor, userId: int)
    requires UniqueIds(db.parcels, ParcelId)
    ensures OnParcelOf(db, s, userId) <==> SensorOwnedBy(db, s, userId)
  {
    if SensorOwnedBy(db, s, userId) {
      var p :| p in db.parcels && p.id == s.parcelId && p.farmerId == userId;
      FindByIdFindsRow(db.parcels, ParcelId, p);
    }
  }

  /**
   * With unique keys, the key-lookup join agrees with the relational one:
   * some stored sensor with this key sits on a parcel of `userId`.
   */
  lemma OwnsSensorIdIsOwnership(db: Db, sensorId: int, userId: int)
    requires UniqueIds(db.sensors, SensorId) && UniqueIds(db.parcels, ParcelId)
    ensures OwnsSensorId(db, sensorId, userId) <==>
            exists s | s in db.sensors :: s.id == sensorId && SensorOwnedBy(db, s, userId)
  {
    if exists s | s in db.sensors :: s.id == sensorId && SensorOwnedBy(db, s, userId) {
      var s :| s in db.sensors && s.id == sensorId && SensorOwnedBy(db, s, userId);
      FindByIdFindsRow(db.sensors, SensorId, s);
      OnParcelOfIsOwnership(db, s, userId);
    }
  }

  /** Alert lifecycle states, as pairs of the two flags. */
  predicate IsOpen(a: Alert) {
    a.isActive && !a.acknowledged
  }

  /** Acknowledged or resolved: the alert page's history. */
  predicate IsClosed(a: Alert) {
    a.acknowledged || !a.isActive
  }

  /** `select(Alert).where(sensor_id == id, is_active, not acknowledged).first()` finds a row. */
  predicate HasOpenAlert(alerts: seq<Alert>, sensorId: int) {
    exists a | a in alerts :: a.sensorId == sensorId && IsOpen(a)
  }

  /** No sensor has two open alerts. */
  predicate AtMostOneOpenPerSensor(alerts: seq<Alert>) {
    forall i, j | 0 <= i < |alerts| && 0 <= j < |alerts|
      && IsOpen(alerts[i]) && IsOpen(alerts[j]) && alerts[i].sensorId == alerts[j].sensorId :: i == j
  }
}

=== FILE: export.dfy ===
/**
 * The analytics page's legend and its two downloads
 * (`app/states/analytics_state.py`): one legend entry per offered sensor
 * of the selection, a CSV table with one column per legend entry, and a
 * JSON record of the period, the sensors, the chart and the statistics.
 *
 * Only the structure of the downloads is modelled: CSV quoting and JSON
 * serialisation belong to Python's libraries, and the bucket key's text
 * form is the key itself.
 */
module Export {
  import opened Basics
  import opened Calendar
  import opened Database
  import opened Query
  import opened Analytics

  // ---------------------------------------------------------------------
  // Legend
  // ---------------------------------------------------------------------

  /** The series colours, handed out by position in the selection. */
  const Colors: seq<string> := ["#3B82F6", "#10B981", "#F59E0B", "#EF4444", "#8B5CF6"]

  /**
   * One legend entry: the label, the sensor's position in the selection
   * (which picks the colour), and the sensor whose `sensor_<id>` series it
   * names.
   */
  datatype LegendEntry = LegendEntry(name: string, position: nat, sensorId: int)

  /** `f"{parcel_name} - {name}"`. */
  function LegendName(o: SensorOption): string {
    o.parcelName + " - " + o.name
  }

  /** The page offers the sensor. */
  function Offered(available: seq<SensorOption>): int -> bool {
    (id: int) => FindOption(available, id).Some?
  }

  /** `colors[idx % len(colors)]`. */
  function ColorOf(e: LegendEntry): string {
    Colors[e.position % |Colors|]
  }

  /**
   * The legend for the selection from position `offset` on: selection
   * order, ids the page does not offer skipped, each colour chosen by the
   * id's position in the whole selection (not in the legend).
   */
  function LegendFrom(selected: seq<int>, available: seq<SensorOption>, offset: nat): (r: seq<LegendEntry>)
    ensures |r| <= |selected|
  {
    if selected == [] then []
    else
      var rest := LegendFrom(selected[1..], available, offset + 1);
      match FindOption(available, selected[0])
      case None => rest
      case Some(o) => [LegendEntry(LegendName(o), offset, selected[0])] + rest
  }

  /** Every legend entry is an offered, selected sensor, named after its parcel and itself. */
  lemma {:induction false} LegendEntriesAreOffered(selected: seq<int>, available: seq<SensorOption>, offset: nat)
    ensures forall e | e in LegendFrom(selected, available, offset) ::
              && e.sensorId in selected
              && FindOption(available, e.sensorId).Some?
              && e.name == LegendName(FindOption(available, e.sensorId).value)
  {
    if selected != [] {
      LegendEntriesAreOffered(selected[1..], available, offset + 1);
      assert forall id | id in selected[1..] :: id in selected;
      UnfoldLegend(selected, available, offset);
    }
  }

  /** Every legend entry takes the colour of its sensor's position in the selection. */
  lemma {:induction false} LegendColorsFollowPositions(selected: seq<int>, available: seq<SensorOption>, offset: nat)
    ensures forall e | e in LegendFrom(selected, available, offset) ::
              exists i | 0 <= i < |selected| :: selected[i] == e.sensorId && e.position == offset + i
  {
    if selected != [] {
      LegendColorsFollowPositions(selected[1..], available, offset + 1);
      var rest := LegendFrom(selected[1..], available, offset + 1);
      forall e | e in rest
        ensures exists i | 0 <= i < |selected| :: selected[i] == e.sensorId && e.position == offset + i
      {
        var i :| 0 <= i < |selected[1..]| && selected[1..][i] == e.sensorId && e.position == offset + 1 + i;
        assert selected[i + 1] == e.sensorId;
      }
    }
  }

  /** Every offered sensor of the selection has its entry, coloured by its position. */
  lemma LegendListsEveryOfferedSensor(selected: seq<int>, available: seq<SensorOption>, offset: nat)
    ensures forall i | 0 <= i < |selected| && FindOption(available, selected[i]).Some? ::
              LegendEntry(LegendName(FindOption(available, selected[i]).value), offset + i, selected[i])
                in LegendFrom(selected, available, offset)
  {
    forall i | 0 <= i < |selected| && FindOption(available, selected[i]).Some?
      ensures LegendEntry(LegendName(FindOption(available, selected[i]).value), offset + i, selected[i])
                in LegendFrom(selected, available, offset)
    {
      OfferedSensorIsListed(selected, available, offset, i, FindOption(available, selected[i]).value);
    }
  }

  /** The offered sensor at index `i` of the selection has its entry. */
  lemma {:induction false} OfferedSensorIsListed(selected: seq<int>, available: seq<SensorOption>, offset: nat,
                                                 i: nat, o: SensorOption)
    requires i < |selected| && FindOption(available, selected[i]) == Some(o)
    ensures LegendEntry(LegendName(o), offset + i, selected[i]) in LegendFrom(selected, available, offset)
    decreases i
  {
    if i == 0 {
      UnfoldLegend(selected, available, offset);
    } else {
      var tail := selected[1..];
      assert tail[i - 1] == selected[i];
      OfferedSensorIsListed(tail, available, offset + 1, i - 1, o);
      var e := LegendEntry(LegendName(o), offset + 1 + (i - 1), tail[i - 1]);
      LegendKeepsLaterEntries(selected, available, offset, e);
      assert e == LegendEntry(LegendName(o), offset + i, selected[i]);
    }
  }

  /** Every entry of the tail's legend is an entry of the whole legend. */
  lemma LegendKeepsLaterEntries(selected: seq<int>, available: seq<SensorOption>, offset: nat, e: LegendEntry)
    requires selected != []
    requires e in LegendFrom(selected[1..], available, offset + 1)
    ensures e in LegendFrom(selected, available, offset)
  {
    UnfoldLegend(selected, available, offset);
  }

  /** An offered head shifts the tail's entries one place back. */
  lemma LegendShiftsLaterEntries(selected: seq<int>, available: seq<SensorOption>, offset: nat, k: nat)
    requires selected != [] && FindOption(available, selected[0]).Some?
    requires 0 < k && k - 1 < |LegendFrom(selected[1..], available, offset + 1)|
    ensures k < |LegendFrom(selected, available, offset)|
    ensures LegendFrom(selected, available, offset)[k] == LegendFrom(selected[1..], available, offset + 1)[k - 1]
  {
    UnfoldLegend(selected, available, offset);
  }

  /** One step of `LegendFrom`: an offered head adds its entry in front of the tail's legend. */
  lemma UnfoldLegend(selected: seq<int>, available: seq<SensorOption>, offset: nat)
    requires selected != []
    ensures FindOption(available, selected[0]).None? ==>
              LegendFrom(selected, available, offset) == LegendFrom(selected[1..], available, offset + 1)
    ensures FindOption(available, selected[0]).Some? ==>
              LegendFrom(selected, available, offset)
                == [LegendEntry(LegendName(FindOption(available, selected[0]).value), offset, selected[0])]
                   + LegendFrom(selected[1..], available, offset + 1)
  {
  }

  /** The legend has one entry per offered id of the selection. */
  lemma {:induction false} LegendLength(selected: seq<int>, available: seq<SensorOption>, offset: nat)
    ensures |LegendFrom(selected, available, offset)| == Count(selected, Offered(available))
  {
    if selected != [] {
      LegendLength(selected[1..], available, offset + 1);
      UnfoldLegend(selected, available, offset);
      assert selected == [selected[0]] + selected[1..];
    }
  }

  /** `current_sensors_legend`. */
  function Legend(selected: seq<int>, available: seq<SensorOption>): seq<LegendEntry> {
    LegendFrom(selected, available, 0)
  }

  /** Entry `k` is the `k`-th selected sensor, at position `offset + k`. */
  predicate FollowsSelection(legend: seq<LegendEntry>, selected: seq<int>, available: seq<SensorOption>, offset: nat)
    requires |legend| == |selected|
  {
    forall k | 0 <= k < |legend| ::
      && legend[k].sensorId == selected[k]
      && legend[k].position == offset + k
      && FindOption(available, selected[k]).Some?
      && legend[k].name == LegendName(FindOption(available, selected[k]).value)
  }

  /** When every selected sensor is offered, entry `k` is the `k`-th selected sensor with the `k`-th colour. */
  lemma FullyOfferedLegendFollowsSelection(selected: seq<int>, available: seq<SensorOption>, offset: nat)
    requires forall id | id in selected :: FindOption(available, id).Some?
    ensures |LegendFrom(selected, available, offset)| == |selected|
    ensures FollowsSelection(LegendFrom(selected, available, offset), selected, available, offset)
  {
    FullyOfferedLegendHasEveryEntry(selected, available, offset);
    var r := LegendFrom(selected, available, offset);
    forall k | 0 <= k < |r|
      ensures && r[k].sensorId == selected[k] && r[k].position == offset + k
              && FindOption(available, selected[k]).Some?
              && r[k].name == LegendName(FindOption(available, selected[k]).value)
    {
      assert selected[k] in selected;
      FullyOfferedEntryAt(selected, available, offset, k, FindOption(available, selected[k]).value);
    }
  }

  /** With every selected sensor offered, the legend is as long as the selection. */
  lemma {:induction false} FullyOfferedLegendHasEveryEntry(selected: seq<int>, available: seq<SensorOption>, offset: nat)
    requires forall id | id in selected :: FindOption(available, id).Some?
    ensures |LegendFrom(selected, available, offset)| == |selected|
  {
    if selected != [] {
      assert selected[0] in selected;
      assert forall id | id in selected[1..] :: id in selected;
      FullyOfferedLegendHasEveryEntry(selected[1..], available, offset + 1);
      UnfoldLegend(selected, available, offset);
    }
  }

  /** With the first `k + 1` selected sensors offered, entry `k` belongs to the `k`-th selected sensor. */
  lemma {:induction false} FullyOfferedEntryAt(selected: seq<int>, available: seq<SensorOption>, offset: nat,
                                               k: nat, o: SensorOption)
    requires k < |selected| && FindOption(available, selected[k]) == Some(o)
    requires forall j | 0 <= j < k :: FindOption(available, selected[j]).Some?
    ensures k < |LegendFrom(selected, available, offset)|
    ensures LegendFrom(selected, available, offset)[k] == LegendEntry(LegendName(o), offset + k, selected[k])
    decreases k
  {
    if k == 0 {
      UnfoldLegend(selected, available, offset);
    } else {
      var tail := selected[1..];
      assert forall j | 0 <= j < k - 1 :: tail[j] == selected[j + 1];
      assert tail[k - 1] == selected[k];
      FullyOfferedEntryAt(tail, available, offset + 1, k - 1, o);
      LegendShiftsLaterEntries(selected, available, offset, k);
      assert LegendEntry(LegendName(o), offset + 1 + (k - 1), tail[k - 1]) == LegendEntry(LegendName(o), offset + k, selected[k]);
    }
  }

  /** Entries at different positions among the first five get different colours. */
  lemma PositionsPickDistinctColors(e: LegendEntry, f: LegendEntry)
    requires e.position < f.position < |Colors|
    ensures ColorOf(e) != ColorOf(f)
  {
    assert e.position % |Colors| == e.position && f.position % |Colors| == f.position;
  }

  /** Legend entries keep the order of the selection: their positions increase. */
  predicate PositionsWithin(legend: seq<LegendEntry>, lo: nat, hi: nat) {
    forall k | 0 <= k < |legend| :: lo <= legend[k].position < hi
  }

  predicate PositionsIncrease(legend: seq<LegendEntry>) {
    forall i, j | 0 <= i < j < |legend| :: legend[i].position < legend[j].position
  }

  lemma {:induction false} LegendPositionsIncrease(selected: seq<int>, available: seq<SensorOption>, offset: nat)
    ensures PositionsWithin(LegendFrom(selected, available, offset), offset, offset + |selected|)
    ensures PositionsIncrease(LegendFrom(selected, available, offset))
  {
    if selected != [] {
      LegendPositionsIncrease(selected[1..], available, offset + 1);
      var rest := LegendFrom(selected[1..], available, offset + 1);
      match FindOption(available, selected[0])
      case None =>
        assert LegendFrom(selected, available, offset) == rest;
      case Some(o) =>
        var e := LegendEntry(LegendName(o), offset, selected[0]);
        assert LegendFrom(selected, available, offset) == [e] + rest;
        PrependKeepsPositionsIncreasing(e, rest, offset + |selected|);
    }
  }

  /** An entry placed before later positions keeps the positions increasing. */
  lemma PrependKeepsPositionsIncreasing(e: LegendEntry, rest: seq<LegendEntry>, hi: nat)
    requires e.position < hi
    requires PositionsWithin(rest, e.position + 1, hi) && PositionsIncrease(rest)
    ensures PositionsWithin([e] + rest, e.position, hi) && PositionsIncrease([e] + rest)
  {
    var r := [e] + rest;
    forall k | 0 <= k < |r| ensures e.position <= r[k].position < hi {
      if k > 0 {
        assert r[k] == rest[k - 1];
      }
    }
    forall i, j | 0 <= i < j < |r| ensures r[i].position < r[j].position {
      assert r[j] == rest[j - 1];
      if i > 0 {
        assert r[i] == rest[i - 1];
      }
    }
  }

  predicate DistinctColors(legend: seq<LegendEntry>) {
    forall i, j | 0 <= i < j < |legend| :: ColorOf(legend[i]) != ColorOf(legend[j])
  }

  /** A selection of at most five sensors gets a different colour for every legend entry. */
  lemma SmallSelectionHasDistinctColors(selected: seq<int>, available: seq<SensorOption>)
    requires |selected| <= |Colors|
    ensures DistinctColors(Legend(selected, available))
  {
    var r := Legend(selected, available);
    assert r == LegendFrom(selected, available, 0);
    LegendPositionsIncrease(selected, available, 0);
    forall i, j | 0 <= i < j < |r| ensures ColorOf(r[i]) != ColorOf(r[j]) {
      PositionsPickDistinctColors(r[i], r[j]);
    }
  }

  // ---------------------------------------------------------------------
  // Downloads
  // ---------------------------------------------------------------------

  /** Why a download is refused: `"No data to export."`. */
  datatype ExportError = NoData

  datatype Download<T> = Download(filename: string, content: T)

  /** `sensor_data_<start>_to_<end>.<extension>`. */
  function ExportName(range: Range, extension: string): string {
    "sensor_data_" + range.startDate + "_to_" + range.endDate + "." + extension
  }

  /** A CSV cell: a row's bucket key, a sensor's mean, or `""` for a sensor with nothing in the bucket. */
  datatype Cell = KeyCell(key: Timestamp) | Number(value: real) | Blank

  datatype CsvTable = CsvTable(header: seq<string>, rows: seq<seq<Cell>>)

  /** `row.get(f"sensor_{id}", "")`. */
  function CellFor(row: ChartRow, e: LegendEntry): Cell {
    if e.sensorId in row.means then Number(row.means[e.sensorId]) else Blank
  }

  function DataCells(row: ChartRow, legend: seq<LegendEntry>): (cells: seq<Cell>)
    ensures |cells| == |legend|
    ensures forall j | 0 <= j < |legend| :: cells[j] == CellFor(row, legend[j])
  {
    seq(|legend|, j requires 0 <= j < |legend| => CellFor(row, legend[j]))
  }

  /** One CSV line: the key, then one cell per legend entry. */
  function CsvRow(row: ChartRow, legend: seq<LegendEntry>): (cells: seq<Cell>)
    ensures |cells| == 1 + |legend|
    ensures cells[0] == KeyCell(row.key) && cells[1..] == DataCells(row, legend)
  {
    [KeyCell(row.key)] + DataCells(row, legend)
  }

  function Names(legend: seq<LegendEntry>): (names: seq<string>)
    ensures |names| == |legend|
    ensures forall j | 0 <= j < |legend| :: names[j] == legend[j].name
  {
    seq(|legend|, j requires 0 <= j < |legend| => legend[j].name)
  }

  /**
   * `download_csv`: refused for an empty chart; otherwise a header of
   * "Timestamp" and the legend names, and one line of `1 + |legend|` cells
   * per chart row, in chart order.
   */
  function DownloadCsv(page: AnalyticsPage): (r: Result<Download<CsvTable>, ExportError>)
    ensures r.Err? <==> page.chartData == []
    ensures r.Ok? ==>
              var legend := Legend(page.selected, page.available);
              && r.value.filename == ExportName(page.range, "csv")
              && r.value.content.header == ["Timestamp"] + Names(legend)
              && |r.value.content.rows| == |page.chartData|
              && forall i | 0 <= i < |page.chartData| ::
                   && |r.value.content.rows[i]| == 1 + |legend|
                   && r.value.content.rows[i] == CsvRow(page.chartData[i], legend)
  {
    if page.chartData == [] then Err(NoData)
    else
      var legend := Legend(page.selected, page.available);
      var rows := seq(|page.chartData|, i requires 0 <= i < |page.chartData| => CsvRow(page.chartData[i], legend));
      Ok(Download(ExportName(page.range, "csv"), CsvTable(["Timestamp"] + Names(legend), rows)))
  }

  /**
   * What a CSV line says about the row it came from: the mean of every
   * legend sensor whose cell holds a number.
   */
  function ReadCells(cells: seq<Cell>, legend: seq<LegendEntry>): map<int, real>
    requires |cells| == |legend|
  {
    if legend == [] then map[]
    else
      var rest := ReadCells(cells[1..], legend[1..]);
      if cells[0].Number? then rest[legend[0].sensorId := cells[0].value] else rest
  }

  function LegendIds(legend: seq<LegendEntry>): set<int> {
    set e | e in legend :: e.sensorId
  }

  /** The entries of `m` whose keys are in `ids`. */
  function Restrict(m: map<int, real>, ids: set<int>): map<int, real> {
    map k | k in m && k in ids :: m[k]
  }

  lemma RestrictToOneMore(m: map<int, real>, ids: set<int>, id: int)
    ensures Restrict(m, {id} + ids) == if id in m then Restrict(m, ids)[id := m[id]] else Restrict(m, ids)
  {
    var a := Restrict(m, {id} + ids);
    var b := if id in m then Restrict(m, ids)[id := m[id]] else Restrict(m, ids);
    assert forall k :: k in a <==> k in b;
    assert forall k | k in a :: a[k] == b[k];
  }

  /**
   * Reading a CSV line back gives the row's means for exactly the legend's
   * sensors: the table loses nothing the legend names.
   */
  lemma {:induction false} ReadCellsUndoesCsvRow(row: ChartRow, legend: seq<LegendEntry>)
    ensures ReadCells(DataCells(row, legend), legend) == Restrict(row.means, LegendIds(legend))
  {
    if legend == [] {
      assert Restrict(row.means, LegendIds(legend)) == map[];
    } else {
      var tail := legend[1..];
      assert DataCells(row, legend)[1..] == DataCells(row, tail);
      ReadCellsUndoesCsvRow(row, tail);
      var id := legend[0].sensorId;
      assert LegendIds(legend) == {id} + LegendIds(tail) by {
        assert forall e | e in legend :: e == legend[0] || e in tail;
      }
      RestrictToOneMore(row.means, LegendIds(tail), id);
    }
  }

  /**
   * Every number in the CSV is a bucket mean of the readings it came from:
   * cell `j + 1` of line `i` holds a number exactly when legend sensor `j`
   * has readings in that line's bucket, and the number is their mean.
   */
  lemma CsvCellIsBucketMean(agg: Aggregation, page: AnalyticsPage, readings: seq<Reading>, i: nat, j: nat)
    requires page.chartData == ChartRows(agg, page.selected, readings)
    requires i < |page.chartData| && j < |Legend(page.selected, page.available)|
    ensures var legend := Legend(page.selected, page.available);
            var key := page.chartData[i].key;
            var id := legend[j].sensorId;
            var table := DownloadCsv(page).value.content;
            && DownloadCsv(page).Ok?
            && (table.rows[i][j + 1].Number? <==> exists x | x in readings :: x.sensorId == id && BucketKey(agg, x.timestamp) == key)
            && (table.rows[i][j + 1].Number? ==> table.rows[i][j + 1].value == Mean(BucketValues(agg, readings, id, key)))
  {
    var legend := Legend(page.selected, page.available);
    assert legend[j] in legend;
    LegendEntriesAreOffered(page.selected, page.available, 0);
    var row := page.chartData[i];
    assert row == RowFor(agg, page.selected, readings, row.key);
    assert CsvRow(row, legend)[j + 1] == DataCells(row, legend)[j];
  }

  /** The JSON download: the period, the legend's names, the chart rows and the statistics. */
  datatype JsonExport = JsonExport(
    start: string, end: string, sensors: seq<string>, data: seq<ChartRow>, statistics: seq<SensorStat>)

  /** `download_json`: refused for an empty chart; otherwise the page's data under the range's name. */
  function DownloadJson(page: AnalyticsPage): (r: Result<Download<JsonExport>, ExportError>)
    ensures r.Err? <==> page.chartData == []
    ensures r.Ok? ==> && r.value.filename == ExportName(page.range, "json")
                      && r.value.content.start == page.range.startDate
                      && r.value.content.end == page.range.endDate
                      && r.value.content.sensors == Names(Legend(page.selected, page.available))
                      && r.value.content.data == page.chartData
                      && r.value.content.statistics == page.stats
  {
    if page.chartData == [] then Err(NoData)
    else
      var legend := Legend(page.selected, page.available);
      Ok(Download(ExportName(page.range, "json"),
                  JsonExport(page.range.startDate, page.range.endDate, Names(legend), page.chartData, page.stats)))
  }
}

=== FILE: navbar.dfy ===
/** The mobile navigation menu (`app/states/navbar_state.py`): one flag. */
module Navbar {
  datatype Navbar = Navbar(isMenuOpen: bool)

  /** The menu starts closed. */
  const InitialNavbar: Navbar := Navbar(false)

  /** `toggle_menu`: an open menu closes and a closed one opens. */
  function ToggleMenu(n: Navbar): (r: Navbar)
    ensures r.isMenuOpen != n.isMenuOpen
  {
    Navbar(!n.isMenuOpen)
  }

  /** `close_menu`: whatever its state, the menu ends closed. */
  function CloseMenu(n: Navbar): (r: Navbar)
    ensures !r.isMenuOpen
  {
    Navbar(false)
  }

  /** Two toggles restore the menu; closing twice is closing once; a toggle after closing opens it. */
  lemma MenuEventsCompose(n: Navbar)
    ensures ToggleMenu(ToggleMenu(n)) == n
    ensures CloseMenu(CloseMenu(n)) == CloseMenu(n)
    ensures ToggleMenu(CloseMenu(n)).isMenuOpen
    ensures CloseMenu(n) == InitialNavbar
  {
  }
}

=== FILE: parcels.dfy ===
/**
 * The parcel pages (`app/states/parcel_state.py`): the list of the user's
 * parcels, the detail view of one parcel with its sensors, the add/edit
 * modals and delete dialogs, and the four writes — save and delete a
 * parcel, save and delete a sensor.
 *
 * A form field that is missing reads as the empty string, which Python
 * treats as false just as it treats `None`. Number parsing (`float`,
 * `int`) is a parameter: `None` where Python raises `ValueError`.
 */
module Parcels {
  import opened Basics
  import opened Calendar
  import opened Query
  import opened Database
  import opened Api

  datatype ParcelPage = ParcelPage(
    parcels: seq<Parcel>,
    currentParcel: Option<Parcel>,
    parcelSensors: seq<Sensor>,
    isParcelModalOpen: bool,
    isSensorModalOpen: bool,
    editingParcel: Option<Parcel>,
    editingSensor: Option<Sensor>,
    deleteParcelId: Option<int>,
    deleteSensorId: Option<int>,
    isDeleteParcelDialogOpen: bool,
    isDeleteSensorDialogOpen: bool)

  /** The page after one event, the store after it, and the message shown. */
  datatype Step = Step(page: ParcelPage, db: Db, notice: Notice)

  datatype Notice =
    | Silent
    | MustBeLoggedIn
    | FieldsRequired
    | SizeNotANumber
    | ParcelUpdated
    | ParcelCreated
    | ParcelDeleted
    | NameAndTypeRequired
    | SensorUpdated
    | SensorAdded
    | SensorDeleted
    | DeleteFailed
    | InvalidParcelId
    | NotFoundOrDenied

  // ---------------------------------------------------------------------
  // Loading
  // ---------------------------------------------------------------------

  /** `load_parcels`: the parcels of the logged-in user; nothing happens for nobody. */
  function LoadParcels(page: ParcelPage, db: Db, user: Option<User>): (r: ParcelPage)
    ensures user.None? ==> r == page
    ensures user.Some? ==> r == page.(parcels := r.parcels)
    ensures user.Some? ==> forall p :: p in r.parcels <==> p in db.parcels && p.farmerId == user.value.id
    ensures user.Some? ==> && |r.parcels| == Count(db.parcels, OwnedBy(user.value.id))
                           && multiset(r.parcels) <= multiset(Filter(db.parcels, OwnedBy(user.value.id)))
  {
    match user
    case None => page
    case Some(u) =>
      var parcels := Filter(db.parcels, OwnedBy(u.id));
      assert forall p :: p in parcels <==> p in db.parcels && p.farmerId == u.id by {
        forall p ensures p in parcels <==> p in db.parcels && p.farmerId == u.id {
          assert OwnedBy(u.id)(p) == (p.farmerId == u.id);
        }
      }
      page.(parcels := parcels)
  }

  /**
   * `load_parcel_detail` for the URL parameter `param`: an empty parameter
   * does nothing; one that is not an integer is refused; a parcel that is
   * missing, or that belongs to someone else while a user is logged in, is
   * refused; otherwise the parcel and its sensors are shown.
   */
  function LoadParcelDetail(page: ParcelPage, db: Db, user: Option<User>, param: string,
                            parseInt: string -> Option<int>): (r: Step)
    ensures r.db == db
    ensures param == [] ==> r == Step(page, db, Silent)
    ensures param != [] && parseInt(param).None? ==> r == Step(page, db, InvalidParcelId)
    ensures r.notice == NotFoundOrDenied <==>
              && param != [] && parseInt(param).Some?
              && var found := FindParcel(db, parseInt(param).value);
                 found.None? || (user.Some? && found.value.farmerId != user.value.id)
    ensures r.notice == NotFoundOrDenied ==> r.page == page
    ensures param != [] && parseInt(param).Some? && r.notice != NotFoundOrDenied ==>
              var id := parseInt(param).value;
              && r.notice == Silent
              && r.page.currentParcel == FindParcel(db, id)
              && r.page == page.(currentParcel := r.page.currentParcel, parcelSensors := r.page.parcelSensors)
              && (forall s :: s in r.page.parcelSensors <==> s in db.sensors && s.parcelId == id)
              && multiset(r.page.parcelSensors) <= multiset(db.sensors)
    ensures r.page.currentParcel != page.currentParcel || r.page.parcelSensors != page.parcelSensors ==>
              && r.page.currentParcel.Some?
              && r.page.currentParcel.value in db.parcels
              && (user.Some? ==> r.page.currentParcel.value.farmerId == user.value.id)
              && forall s :: s in r.page.parcelSensors <==>
                               s in db.sensors && s.parcelId == r.page.currentParcel.value.id
  {
    if param == [] then Step(page, db, Silent)
    else
      match parseInt(param)
      case None => Step(page, db, InvalidParcelId)
      case Some(id) =>
        match FindParcel(db, id)
        case None => Step(page, db, NotFoundOrDenied)
        case Some(p) =>
          if user.Some? && p.farmerId != user.value.id then Step(page, db, NotFoundOrDenied)
          else
            var sensors := Filter(db.sensors, OnParcel(id));
            assert forall s :: s in sensors <==> s in db.sensors && s.parcelId == id by {
              forall s ensures s in sensors <==> s in db.sensors && s.parcelId == id {
                assert OnParcel(id)(s) == (s.parcelId == id);
              }
            }
            Step(page.(currentParcel := Some(p), parcelSensors := sensors), db, Silent)
  }

  /**
   * Asking for a stored parcel by its own key, as its owner or logged out,
   * shows that parcel and exactly the sensors on it.
   */
  lemma DetailShowsRequestedParcel(page: ParcelPage, db: Db, user: Option<User>, param: string,
                                   parseInt: string -> Option<int>, p: Parcel)
    requires UniqueIds(db.parcels, ParcelId)
    requires p in db.parcels
    requires param != [] && parseInt(param) == Some(p.id)
    requires user.None? || user.value.id == p.farmerId
    ensures var r := LoadParcelDetail(page, db, user, param, parseInt);
            && r.notice == Silent
            && r.page.currentParcel == Some(p)
            && forall s :: s in r.page.parcelSensors <==> s in db.sensors && s.parcelId == p.id
  {
    FindByIdFindsRow(db.parcels, ParcelId, p);
  }

  // ---------------------------------------------------------------------
  // Modals and dialogs
  // ---------------------------------------------------------------------

  function OpenAddParcelModal(page: ParcelPage): (r: ParcelPage)
    ensures r.isParcelModalOpen && r.editingParcel.None?
    ensures r.(isParcelModalOpen := page.isParcelModalOpen, editingParcel := page.editingParcel) == page
  {
    page.(editingParcel := None, isParcelModalOpen := true)
  }

  function OpenEditParcelModal(page: ParcelPage, parcel: Parcel): (r: ParcelPage)
    ensures r.isParcelModalOpen && r.editingParcel == Some(parcel)
    ensures r.(isParcelModalOpen := page.isParcelModalOpen, editingParcel := page.editingParcel) == page
  {
    page.(editingParcel := Some(parcel), isParcelModalOpen := true)
  }

  function CloseParcelModal(page: ParcelPage): (r: ParcelPage)
    ensures !r.isParcelModalOpen && r.editingParcel.None?
    ensures r.(isParcelModalOpen := page.isParcelModalOpen, editingParcel := page.editingParcel) == page
  {
    page.(isParcelModalOpen := false, editingParcel := None)
  }

  function OpenAddSensorModal(page: ParcelPage): (r: ParcelPage)
    ensures r.isSensorModalOpen && r.editingSensor.None?
    ensures r.(isSensorModalOpen := page.isSensorModalOpen, editingSensor := page.editingSensor) == page
  {
    page.(editingSensor := None, isSensorModalOpen := true)
  }

  function OpenEditSensorModal(page: ParcelPage, sensor: Sensor): (r: ParcelPage)
    ensures r.isSensorModalOpen && r.editingSensor == Some(sensor)
    ensures r.(isSensorModalOpen := page.isSensorModalOpen, editingSensor := page.editingSensor) == page
  {
    page.(editingSensor := Some(sensor), isSensorModalOpen := true)
  }

  function CloseSensorModal(page: ParcelPage): (r: ParcelPage)
    ensures !r.isSensorModalOpen && r.editingSensor.None?
    ensures r.(isSensorModalOpen := page.isSensorModalOpen, editingSensor := page.editingSensor) == page
  {
    page.(isSensorModalOpen := false, editingSensor := None)
  }

  function ConfirmDeleteParcel(page: ParcelPage, parcelId: int): (r: ParcelPage)
    ensures r.isDeleteParcelDialogOpen && r.deleteParcelId == Some(parcelId)
    ensures r.(isDeleteParcelDialogOpen := page.isDeleteParcelDialogOpen, deleteParcelId := page.deleteParcelId) == page
  {
    page.(deleteParcelId := Some(parcelId), isDeleteParcelDialogOpen := true)
  }

  function CancelDeleteParcel(page: ParcelPage): (r: ParcelPage)
    ensures !r.isDeleteParcelDialogOpen && r.deleteParcelId.None?
    ensures r.(isDeleteParcelDialogOpen := page.isDeleteParcelDialogOpen, deleteParcelId := page.deleteParcelId) == page
  {
    page.(deleteParcelId := None, isDeleteParcelDialogOpen := false)
  }

  function ConfirmDeleteSensor(page: ParcelPage, sensorId: int): (r: ParcelPage)
    ensures r.isDeleteSensorDialogOpen && r.deleteSensorId == Some(sensorId)
    ensures r.(isDeleteSensorDialogOpen := page.isDeleteSensorDialogOpen, deleteSensorId := page.deleteSensorId) == page
  {
    page.(deleteSensorId := Some(sensorId), isDeleteSensorDialogOpen := true)
  }

  function CancelDeleteSensor(page: ParcelPage): (r: ParcelPage)
    ensures !r.isDeleteSensorDialogOpen && r.deleteSensorId.None?
    ensures r.(isDeleteSensorDialogOpen := page.isDeleteSensorDialogOpen, deleteSensorId := page.deleteSensorId) == page
  {
    page.(deleteSensorId := None, isDeleteSensorDialogOpen := false)
  }

  /** Opening a modal and closing it again leaves the page as a plain close would, whatever was open. */
  lemma CloseUndoesOpen(page: ParcelPage, parcel: Parcel, sensor: Sensor)
    ensures CloseParcelModal(OpenEditParcelModal(page, parcel)) == CloseParcelModal(page)
    ensures CloseParcelModal(OpenAddParcelModal(page)) == CloseParcelModal(page)
    ensures CloseSensorModal(OpenEditSensorModal(page, sensor)) == CloseSensorModal(page)
    ensures CloseSensorModal(OpenAddSensorModal(page)) == CloseSensorModal(page)
    ensures !page.isParcelModalOpen && page.editingParcel.None? ==>
              CloseParcelModal(OpenEditParcelModal(page, parcel)) == page
  {
  }

  // ---------------------------------------------------------------------
  // Saving a parcel
  // ---------------------------------------------------------------------

  /** The parcel form's four text fields. */
  datatype ParcelForm = ParcelForm(name: string, location: string, cropType: string, size: string)

  /** Every row carrying the key `id` gets the form's name, location, crop type and size. */
  function EditParcels(parcels: seq<Parcel>, id: int, form: ParcelForm, size: real): (r: seq<Parcel>)
    ensures |r| == |parcels|
    ensures forall i | 0 <= i < |parcels| ::
              if parcels[i].id == id then
                r[i] == parcels[i].(name := form.name, location := form.location, cropType := form.cropType, size := size)
              else r[i] == parcels[i]
  {
    seq(|parcels|, i requires 0 <= i < |parcels| =>
      if parcels[i].id == id then
        parcels[i].(name := form.name, location := form.location, cropType := form.cropType, size := size)
      else parcels[i])
  }

  /**
   * `save_parcel`: refused for nobody logged in, for an empty field and for
   * a size that is not a number, with nothing changed. Editing updates the
   * edited parcel's four fields in place (nothing, if it has gone);
   * creating appends a parcel of the current user. A successful save
   * closes the modal, and the parcel list is reloaded once the form got
   * through.
   */
  function SaveParcel(page: ParcelPage, db: Db, user: Option<User>, form: ParcelForm,
                      parseReal: string -> Option<real>): (r: Step)
    ensures user.None? ==> r == Step(page, db, MustBeLoggedIn)
    ensures user.Some? && (form.name == [] || form.location == [] || form.cropType == [] || form.size == []) ==>
              r == Step(page, db, FieldsRequired)
    ensures r.notice in {MustBeLoggedIn, FieldsRequired, SizeNotANumber} ==> r.page == page && r.db == db
    ensures r.notice == SizeNotANumber <==>
              user.Some? && form.name != [] && form.location != [] && form.cropType != [] && form.size != []
              && parseReal(form.size).None?
    ensures r.db.users == db.users && r.db.sensors == db.sensors && r.db.readings == db.readings && r.db.alerts == db.alerts
    ensures r.notice == ParcelUpdated ==>
              && page.editingParcel.Some?
              && var id := page.editingParcel.value.id;
              && FindParcel(db, id).Some?
              && |r.db.parcels| == |db.parcels|
              && forall i | 0 <= i < |db.parcels| ::
                   && r.db.parcels[i].id == db.parcels[i].id
                   && r.db.parcels[i].farmerId == db.parcels[i].farmerId
                   && (db.parcels[i].id != id ==> r.db.parcels[i] == db.parcels[i])
                   && (db.parcels[i].id == id ==> && r.db.parcels[i].name == form.name
                                                  && r.db.parcels[i].location == form.location
                                                  && r.db.parcels[i].cropType == form.cropType
                                                  && Some(r.db.parcels[i].size) == parseReal(form.size))
    ensures r.notice == ParcelCreated ==>
              && page.editingParcel.None?
              && |r.db.parcels| == |db.parcels| + 1
              && r.db.parcels == db.parcels + [r.db.parcels[|db.parcels|]]
              && var p := r.db.parcels[|db.parcels|];
              && p.farmerId == user.value.id
              && p.name == form.name && p.location == form.location && p.cropType == form.cropType
              && Some(p.size) == parseReal(form.size)
              && forall q | q in db.parcels :: q.id != p.id
    ensures r.notice in {ParcelUpdated, ParcelCreated} ==> !r.page.isParcelModalOpen && r.page.editingParcel.None?
    ensures r.notice == Silent ==> r.db == db && r.page.isParcelModalOpen == page.isParcelModalOpen
    ensures r.notice in {ParcelUpdated, ParcelCreated, Silent} ==>
              forall p :: p in r.page.parcels <==> p in r.db.parcels && p.farmerId == user.value.id
  {
    match user
    case None => Step(page, db, MustBeLoggedIn)
    case Some(u) =>
      if form.name == [] || form.location == [] || form.cropType == [] || form.size == [] then
        Step(page, db, FieldsRequired)
      else
        match parseReal(form.size)
        case None => Step(page, db, SizeNotANumber)
        case Some(size) =>
          match page.editingParcel
          case Some(editing) =>
            if FindParcel(db, editing.id).Some? then
              var db' := db.(parcels := EditParcels(db.parcels, editing.id, form, size));
              Step(LoadParcels(CloseParcelModal(page), db', user), db', ParcelUpdated)
            else
              Step(LoadParcels(page, db, user), db, Silent)
          case None =>
            var p := Parcel(FreshId(db.parcels, ParcelId), form.name, size, form.cropType, form.location, u.id);
            var db' := db.(parcels := db.parcels + [p]);
            Step(LoadParcels(CloseParcelModal(page), db', user), db', ParcelCreated)
  }

  /** Editing a parcel's four fields keeps the store's integrity. */
  lemma EditParcelsKeepsStoreValid(db: Db, id: int, form: ParcelForm, size: real)
    requires Valid(db)
    ensures Valid(db.(parcels := EditParcels(db.parcels, id, form, size)))
  {
    var db' := db.(parcels := EditParcels(db.parcels, id, form, size));
    assert UniqueIds(db'.parcels, ParcelId) by {
      forall i, j | 0 <= i < j < |db'.parcels| ensures db'.parcels[i].id != db'.parcels[j].id {
        assert db.parcels[i].id != db.parcels[j].id;
      }
    }
    assert forall p | p in db'.parcels :: HasUser(db', p.farmerId) by {
      forall p | p in db'.parcels ensures HasUser(db', p.farmerId) {
        var i :| 0 <= i < |db'.parcels| && db'.parcels[i] == p;
        assert db.parcels[i] in db.parcels;
      }
    }
    assert forall s | s in db'.sensors :: HasParcel(db', s.parcelId) by {
      forall s | s in db'.sensors ensures HasParcel(db', s.parcelId) {
        var q :| q in db.parcels && q.id == s.parcelId;
        var i :| 0 <= i < |db.parcels| && db.parcels[i] == q;
        assert db'.parcels[i] in db'.parcels;
      }
    }
  }

  /** Appending a parcel with a new key for an existing user keeps the store's integrity. */
  lemma AppendParcelKeepsStoreValid(db: Db, p: Parcel)
    requires Valid(db)
    requires HasUser(db, p.farmerId)
    requires forall q | q in db.parcels :: q.id != p.id
    ensures Valid(db.(parcels := db.parcels + [p]))
  {
    var db' := db.(parcels := db.parcels + [p]);
    FreshRowKeepsIdsUnique(db.parcels, db'.parcels, ParcelId);
    assert forall s | s in db'.sensors :: HasParcel(db', s.parcelId) by {
      forall s | s in db'.sensors ensures HasParcel(db', s.parcelId) {
        var q :| q in db.parcels && q.id == s.parcelId;
        assert q in db'.parcels;
      }
    }
  }

  /** Saving a parcel for a user of the store keeps the store's integrity. */
  lemma SaveParcelKeepsStoreValid(page: ParcelPage, db: Db, user: Option<User>, form: ParcelForm,
                                  parseReal: string -> Option<real>)
    requires Valid(db)
    requires user.Some? ==> HasUser(db, user.value.id)
    ensures Valid(SaveParcel(page, db, user, form, parseReal).db)
  {
    if user.Some? && form.name != [] && form.location != [] && form.cropType != [] && form.size != []
       && parseReal(form.size).Some? {
      var size := parseReal(form.size).value;
      match page.editingParcel
      case Some(editing) =>
        EditParcelsKeepsStoreValid(db, editing.id, form, size);
      case None =>
        var p := Parcel(FreshId(db.parcels, ParcelId), form.name, size, form.cropType, form.location, user.value.id);
        AppendParcelKeepsStoreValid(db, p);
    }
  }

  // ---------------------------------------------------------------------
  // Deleting
  // ---------------------------------------------------------------------

  /** `if not self.delete_parcel_id`: no id, or the id 0, which Python reads as false. */
  predicate Pending(id: Option<int>) {
    id.Some? && id.value != 0
  }

  // `Sensor.readings` and `Sensor.alerts` carry no delete cascade, and the
  // `sensor_id` columns of readings and alerts are NOT NULL. Deleting a
  // sensor through the ORM therefore sets its readings' and alerts' key to
  // NULL first, and the commit fails with IntegrityError: nothing is
  // deleted, and the handler stops before it closes the dialog. The
  // `...AsWritten` members model that. The plain names are the evidently
  // intended deletions, which take the sensors' readings and alerts along.

  /** Some reading or alert still refers to the sensor. */
  predicate HasDependents(db: Db, sensorId: int) {
    || (exists x | x in db.readings :: x.sensorId == sensorId)
    || (exists a | a in db.alerts :: a.sensorId == sensorId)
  }

  /** Some sensor on the parcel still has readings or alerts. */
  predicate ParcelHasDependents(db: Db, parcelId: int) {
    exists s | s in db.sensors && s.parcelId == parcelId :: HasDependents(db, s.id)
  }

  function NotOfParcel(parcelId: int): Sensor -> bool {
    (s: Sensor) => s.parcelId != parcelId
  }

  function NotParcel(parcelId: int): Parcel -> bool {
    (p: Parcel) => p.id != parcelId
  }

  function NotSensor(sensorId: int): Sensor -> bool {
    (s: Sensor) => s.id != sensorId
  }

  function ReadingNotOn(gone: set<int>): Reading -> bool {
    (x: Reading) => x.sensorId !in gone
  }

  function AlertNotOn(gone: set<int>): Alert -> bool {
    (a: Alert) => a.sensorId !in gone
  }

  /** The keys of the sensors on a parcel. */
  function SensorKeysOn(db: Db, parcelId: int): (gone: set<int>)
    ensures forall id :: id in gone <==> exists s | s in db.sensors :: s.parcelId == parcelId && s.id == id
  {
    set s | s in db.sensors && s.parcelId == parcelId :: s.id
  }

  /** The parcel with key `id` and every sensor on it taken out; the other tables stay. */
  function RemoveParcel(db: Db, id: int): (r: Db)
    ensures r == db.(parcels := r.parcels, sensors := r.sensors)
    ensures forall p :: p in r.parcels <==> p in db.parcels && p.id != id
    ensures forall s :: s in r.sensors <==> s in db.sensors && s.parcelId != id
  {
    var parcels := Filter(db.parcels, NotParcel(id));
    var sensors := Filter(db.sensors, NotOfParcel(id));
    assert forall p :: p in parcels <==> p in db.parcels && p.id != id by {
      forall p ensures p in parcels <==> p in db.parcels && p.id != id {
        assert NotParcel(id)(p) == (p.id != id);
      }
    }
    assert forall s :: s in sensors <==> s in db.sensors && s.parcelId != id by {
      forall s ensures s in sensors <==> s in db.sensors && s.parcelId != id {
        assert NotOfParcel(id)(s) == (s.parcelId != id);
      }
    }
    db.(parcels := parcels, sensors := sensors)
  }

  /** The sensor with key `id` taken out; the other tables stay. */
  function RemoveSensor(db: Db, id: int): (r: Db)
    ensures r == db.(sensors := r.sensors)
    ensures forall s :: s in r.sensors <==> s in db.sensors && s.id != id
  {
    var sensors := Filter(db.sensors, NotSensor(id));
    assert forall s :: s in sensors <==> s in db.sensors && s.id != id by {
      forall s ensures s in sensors <==> s in db.sensors && s.id != id {
        assert NotSensor(id)(s) == (s.id != id);
      }
    }
    db.(sensors := sensors)
  }

  /** The readings and alerts of the sensors keyed in `gone` taken out; the other tables stay. */
  function DropDependents(db: Db, gone: set<int>): (r: Db)
    ensures r == db.(readings := r.readings, alerts := r.alerts)
    ensures forall x :: x in r.readings <==> x in db.readings && x.sensorId !in gone
    ensures forall a :: a in r.alerts <==> a in db.alerts && a.sensorId !in gone
  {
    var readings := Filter(db.readings, ReadingNotOn(gone));
    var alerts := Filter(db.alerts, AlertNotOn(gone));
    assert forall x :: x in readings <==> x in db.readings && x.sensorId !in gone by {
      forall x ensures x in readings <==> x in db.readings && x.sensorId !in gone {
        assert ReadingNotOn(gone)(x) == (x.sensorId !in gone);
      }
    }
    assert forall a :: a in alerts <==> a in db.alerts && a.sensorId !in gone by {
      forall a ensures a in alerts <==> a in db.alerts && a.sensorId !in gone {
        assert AlertNotOn(gone)(a) == (a.sensorId !in gone);
      }
    }
    db.(readings := readings, alerts := alerts)
  }

  /** The dialog closed and the pending key cleared, as after a deletion that got through. */
  function CloseParcelDialog(page: ParcelPage): ParcelPage {
    page.(isDeleteParcelDialogOpen := false, deleteParcelId := None)
  }

  /**
   * `r` is `page` with the parcel dialog closed and the list reloaded from
   * `db`: the user's parcels, each as often as the store holds it; with
   * nobody logged in the list is not touched.
   */
  ghost predicate ClosedAndReloaded(r: ParcelPage, page: ParcelPage, db: Db, user: Option<User>) {
    && r == CloseParcelDialog(page).(parcels := r.parcels)
    && (user.None? ==> r == CloseParcelDialog(page))
    && (user.Some? ==> && (forall p :: p in r.parcels <==> p in db.parcels && p.farmerId == user.value.id)
                       && |r.parcels| == Count(db.parcels, OwnedBy(user.value.id)))
  }

  function CloseSensorDialog(page: ParcelPage): ParcelPage {
    page.(isDeleteSensorDialogOpen := false, deleteSensorId := None)
  }

  /**
   * `delete_parcel` as written: with no pending key nothing happens. When
   * the parcel exists and a sensor on it has readings or alerts, the commit
   * fails and page and store stay as they were. Otherwise the parcel and
   * its sensors are deleted (nothing, for a missing parcel), the dialog
   * closes, the pending key is cleared and the list reloads.
   */
  function DeleteParcelAsWritten(page: ParcelPage, db: Db, user: Option<User>): (r: Step)
    ensures !Pending(page.deleteParcelId) ==> r == Step(page, db, Silent)
    ensures Pending(page.deleteParcelId) ==>
              var id := page.deleteParcelId.value;
              if FindParcel(db, id).Some? && ParcelHasDependents(db, id) then r == Step(page, db, DeleteFailed)
              else
                && r.notice == ParcelDeleted
                && !r.page.isDeleteParcelDialogOpen && r.page.deleteParcelId.None?
                && ClosedAndReloaded(r.page, page, r.db, user)
                && (FindParcel(db, id).None? ==> r.db == db)
                && (FindParcel(db, id).Some? ==>
                      && r.db == db.(parcels := r.db.parcels, sensors := r.db.sensors)
                      && (forall p :: p in r.db.parcels <==> p in db.parcels && p.id != id)
                      && (forall s :: s in r.db.sensors <==> s in db.sensors && s.parcelId != id))
  {
    if !Pending(page.deleteParcelId) then Step(page, db, Silent)
    else
      var id := page.deleteParcelId.value;
      if FindParcel(db, id).Some? && ParcelHasDependents(db, id) then Step(page, db, DeleteFailed)
      else
        var db' := if FindParcel(db, id).Some? then RemoveParcel(db, id) else db;
        Step(LoadParcels(CloseParcelDialog(page), db', user), db', ParcelDeleted)
  }

  /**
   * `delete_parcel` as intended: with a pending key of an existing parcel,
   * the parcel, every sensor on it and those sensors' readings and alerts
   * are deleted; then the dialog closes, the pending key is cleared and
   * the list reloads. With no pending key nothing happens.
   */
  function DeleteParcel(page: ParcelPage, db: Db, user: Option<User>): (r: Step)
    ensures !Pending(page.deleteParcelId) ==> r == Step(page, db, Silent)
    ensures Pending(page.deleteParcelId) ==>
              && r.notice == ParcelDeleted
              && !r.page.isDeleteParcelDialogOpen && r.page.deleteParcelId.None?
              && ClosedAndReloaded(r.page, page, r.db, user)
    ensures Pending(page.deleteParcelId) && FindParcel(db, page.deleteParcelId.value).None? ==> r.db == db
    ensures Pending(page.deleteParcelId) && FindParcel(db, page.deleteParcelId.value).Some? ==>
              var id := page.deleteParcelId.value;
              var gone := SensorKeysOn(db, id);
              && r.db.users == db.users
              && (forall p :: p in r.db.parcels <==> p in db.parcels && p.id != id)
              && (forall s :: s in r.db.sensors <==> s in db.sensors && s.parcelId != id)
              && (forall x :: x in r.db.readings <==> x in db.readings && x.sensorId !in gone)
              && (forall a :: a in r.db.alerts <==> a in db.alerts && a.sensorId !in gone)
  {
    if !Pending(page.deleteParcelId) then Step(page, db, Silent)
    else
      var id := page.deleteParcelId.value;
      var db' := if FindParcel(db, id).Some? then DropDependents(RemoveParcel(db, id), SensorKeysOn(db, id)) else db;
      Step(LoadParcels(CloseParcelDialog(page), db', user), db', ParcelDeleted)
  }

  /** Keeping some rows of a table keeps its keys unique. */
  lemma {:induction false} FilterKeepsIdsUnique<T(!new)>(rows: seq<T>, keep: T -> bool, idOf: T -> int)
    requires UniqueIds(rows, idOf)
    ensures UniqueIds(Filter(rows, keep), idOf)
  {
    if rows != [] {
      var tail := rows[1..];
      assert UniqueIds(tail, idOf) by {
        forall i, j | 0 <= i < j < |tail| ensures idOf(tail[i]) != idOf(tail[j]) {
          assert tail[i] == rows[i + 1] && tail[j] == rows[j + 1];
        }
      }
      FilterKeepsIdsUnique(tail, keep, idOf);
      var rest := Filter(tail, keep);
      if keep(rows[0]) {
        var r := [rows[0]] + rest;
        forall i, j | 0 <= i < j < |r| ensures idOf(r[i]) != idOf(r[j]) {
          assert r[j] == rest[j - 1] && rest[j - 1] in tail;
          if i == 0 {
            var k :| 0 <= k < |tail| && tail[k] == rest[j - 1];
            assert rows[k + 1] == rest[j - 1];
          } else {
            assert r[i] == rest[i - 1];
          }
        }
      }
    }
  }

  /** Taking a parcel and its sensors out keeps the store's integrity. */
  lemma RemoveParcelKeepsStoreValid(db: Db, id: int)
    requires Valid(db)
    ensures Valid(RemoveParcel(db, id))
  {
    var r := RemoveParcel(db, id);
    FilterKeepsIdsUnique(db.parcels, NotParcel(id), ParcelId);
    FilterKeepsIdsUnique(db.sensors, NotOfParcel(id), SensorId);
    assert forall s | s in r.sensors :: HasParcel(r, s.parcelId) by {
      forall s | s in r.sensors ensures HasParcel(r, s.parcelId) {
        var q :| q in db.parcels && q.id == s.parcelId;
        assert q in r.parcels;
      }
    }
  }

  /** Taking readings and alerts out keeps the store's integrity. */
  lemma DropDependentsKeepsStoreValid(db: Db, gone: set<int>)
    requires Valid(db)
    ensures Valid(DropDependents(db, gone))
  {
    FilterKeepsIdsUnique(db.readings, ReadingNotOn(gone), ReadingId);
    FilterKeepsIdsUnique(db.alerts, AlertNotOn(gone), AlertId);
  }

  /**
   * A deletion that keeps every sensor outside `gone` and only keeps
   * readings and alerts of such sensors leaves nothing dangling.
   */
  lemma StaysAttached(db: Db, r: Db, gone: set<int>)
    requires Attached(db)
    requires forall s | s in db.sensors && s.id !in gone :: s in r.sensors
    requires forall x | x in r.readings :: x in db.readings && x.sensorId !in gone
    requires forall a | a in r.alerts :: a in db.alerts && a.sensorId !in gone
    ensures Attached(r)
  {
    forall x | x in r.readings ensures HasSensor(r, x.sensorId) {
      var s :| s in db.sensors && s.id == x.sensorId;
      assert s in r.sensors;
    }
    forall a | a in r.alerts ensures HasSensor(r, a.sensorId) {
      var s :| s in db.sensors && s.id == a.sensorId;
      assert s in r.sensors;
    }
  }

  /**
   * The intended deletion keeps the store's integrity, and leaves no
   * reading or alert behind that refers to a deleted sensor.
   */
  lemma DeleteParcelKeepsStoreValid(page: ParcelPage, db: Db, user: Option<User>)
    requires Valid(db)
    ensures Valid(DeleteParcel(page, db, user).db)
    ensures Attached(db) ==> Attached(DeleteParcel(page, db, user).db)
  {
    var r := DeleteParcel(page, db, user);
    if Pending(page.deleteParcelId) && FindParcel(db, page.deleteParcelId.value).Some? {
      var id := page.deleteParcelId.value;
      var gone := SensorKeysOn(db, id);
      RemoveParcelKeepsStoreValid(db, id);
      DropDependentsKeepsStoreValid(RemoveParcel(db, id), gone);
      if Attached(db) {
        StaysAttached(db, r.db, gone);
      }
    }
  }

  /** The deletion as written keeps the store's integrity: it only gets through when nothing would dangle. */
  lemma DeleteParcelAsWrittenKeepsStoreValid(page: ParcelPage, db: Db, user: Option<User>)
    requires Valid(db)
    ensures Valid(DeleteParcelAsWritten(page, db, user).db)
    ensures Attached(db) ==> Attached(DeleteParcelAsWritten(page, db, user).db)
  {
    var r := DeleteParcelAsWritten(page, db, user);
    if Pending(page.deleteParcelId) {
      var id := page.deleteParcelId.value;
      if FindParcel(db, id).Some? && !ParcelHasDependents(db, id) {
        RemoveParcelKeepsStoreValid(db, id);
        if Attached(db) {
          forall x | x in r.db.readings ensures HasSensor(r.db, x.sensorId) {
            var s :| s in db.sensors && s.id == x.sensorId;
            assert HasDependents(db, s.id);
            assert s in r.db.sensors;
          }
          forall a | a in r.db.alerts ensures HasSensor(r.db, a.sensorId) {
            var s :| s in db.sensors && s.id == a.sensorId;
            assert HasDependents(db, s.id);
            assert s in r.db.sensors;
          }
        }
      }
    }
  }

  /**
   * A parcel whose sensors have collected any reading or alert cannot be
   * deleted as written: page and store stay as they were. The intended
   * deletion removes it, its sensors and their readings and alerts.
   */
  lemma DeletingAParcelWithReadingsFails(page: ParcelPage, db: Db, user: Option<User>)
    requires Pending(page.deleteParcelId)
    requires FindParcel(db, page.deleteParcelId.value).Some?
    requires ParcelHasDependents(db, page.deleteParcelId.value)
    ensures DeleteParcelAsWritten(page, db, user) == Step(page, db, DeleteFailed)
    ensures var r := DeleteParcel(page, db, user);
            var id := page.deleteParcelId.value;
            && r.notice == ParcelDeleted
            && (forall p | p in r.db.parcels :: p.id != id)
            && (forall x | x in r.db.readings :: x.sensorId !in SensorKeysOn(db, id))
  {
  }

  /**
   * `delete_sensor` as written: with no pending key nothing happens. When
   * the sensor exists and has readings or alerts, the commit fails and page
   * and store stay as they were. Otherwise the sensor is deleted (nothing,
   * for a missing sensor), the dialog closes and the pending key is cleared.
   */
  function DeleteSensorAsWritten(page: ParcelPage, db: Db): (r: Step)
    ensures !Pending(page.deleteSensorId) ==> r == Step(page, db, Silent)
    ensures Pending(page.deleteSensorId) ==>
              var id := page.deleteSensorId.value;
              if FindSensor(db, id).Some? && HasDependents(db, id) then r == Step(page, db, DeleteFailed)
              else
                && r.notice == SensorDeleted
                && r.page == page.(isDeleteSensorDialogOpen := false, deleteSensorId := None)
                && (FindSensor(db, id).None? ==> r.db == db)
                && (FindSensor(db, id).Some? ==>
                      && r.db == db.(sensors := r.db.sensors)
                      && forall s :: s in r.db.sensors <==> s in db.sensors && s.id != id)
  {
    if !Pending(page.deleteSensorId) then Step(page, db, Silent)
    else
      var id := page.deleteSensorId.value;
      if FindSensor(db, id).Some? && HasDependents(db, id) then Step(page, db, DeleteFailed)
      else
        var db' := if FindSensor(db, id).Some? then RemoveSensor(db, id) else db;
        Step(CloseSensorDialog(page), db', SensorDeleted)
  }

  /**
   * `delete_sensor` as intended: with a pending key of an existing sensor,
   * that sensor and its readings and alerts are deleted; then the dialog
   * closes and the pending key is cleared.
   */
  function DeleteSensor(page: ParcelPage, db: Db): (r: Step)
    ensures !Pending(page.deleteSensorId) ==> r == Step(page, db, Silent)
    ensures Pending(page.deleteSensorId) ==>
              && r.notice == SensorDeleted
              && r.page == page.(isDeleteSensorDialogOpen := false, deleteSensorId := None)
    ensures Pending(page.deleteSensorId) && FindSensor(db, page.deleteSensorId.value).None? ==> r.db == db
    ensures Pending(page.deleteSensorId) && FindSensor(db, page.deleteSensorId.value).Some? ==>
              var id := page.deleteSensorId.value;
              && r.db.users == db.users && r.db.parcels == db.parcels
              && (forall s :: s in r.db.sensors <==> s in db.sensors && s.id != id)
              && (forall x :: x in r.db.readings <==> x in db.readings && x.sensorId != id)
              && (forall a :: a in r.db.alerts <==> a in db.alerts && a.sensorId != id)
  {
    if !Pending(page.deleteSensorId) then Step(page, db, Silent)
    else
      var id := page.deleteSensorId.value;
      var db' := if FindSensor(db, id).Some? then DropDependents(RemoveSensor(db, id), {id}) else db;
      Step(CloseSensorDialog(page), db', SensorDeleted)
  }

  /** The intended deletion keeps the store's integrity and leaves nothing referring to the deleted sensor. */
  lemma DeleteSensorKeepsStoreValid(page: ParcelPage, db: Db)
    requires Valid(db)
    ensures Valid(DeleteSensor(page, db).db)
    ensures Attached(db) ==> Attached(DeleteSensor(page, db).db)
  {
    var r := DeleteSensor(page, db);
    if Pending(page.deleteSensorId) && FindSensor(db, page.deleteSensorId.value).Some? {
      var id := page.deleteSensorId.value;
      FilterKeepsIdsUnique(db.sensors, NotSensor(id), SensorId);
      DropDependentsKeepsStoreValid(RemoveSensor(db, id), {id});
      if Attached(db) {
        StaysAttached(db, r.db, {id});
      }
    }
  }

  /** The deletion as written keeps the store's integrity: it only gets through when nothing would dangle. */
  lemma DeleteSensorAsWrittenKeepsStoreValid(page: ParcelPage, db: Db)
    requires Valid(db)
    ensures Valid(DeleteSensorAsWritten(page, db).db)
    ensures Attached(db) ==> Attached(DeleteSensorAsWritten(page, db).db)
  {
    var r := DeleteSensorAsWritten(page, db);
    if Pending(page.deleteSensorId) {
      var id := page.deleteSensorId.value;
      if FindSensor(db, id).Some? && !HasDependents(db, id) {
        FilterKeepsIdsUnique(db.sensors, NotSensor(id), SensorId);
        if Attached(db) {
          forall x | x in r.db.readings ensures HasSensor(r.db, x.sensorId) {
            var s :| s in db.sensors && s.id == x.sensorId;
            assert s in r.db.sensors;
          }
          forall a | a in r.db.alerts ensures HasSensor(r.db, a.sensorId) {
            var s :| s in db.sensors && s.id == a.sensorId;
            assert s in r.db.sensors;
          }
        }
      }
    }
  }

  /**
   * A sensor that has ever stored a reading or raised an alert cannot be
   * deleted as written: page and store stay as they were, the dialog still
   * open. The intended deletion removes the sensor and everything that
   * refers to it.
   */
  lemma DeletingASensorWithReadingsFails(page: ParcelPage, db: Db)
    requires Pending(page.deleteSensorId)
    requires FindSensor(db, page.deleteSensorId.value).Some?
    requires HasDependents(db, page.deleteSensorId.value)
    ensures DeleteSensorAsWritten(page, db) == Step(page, db, DeleteFailed)
    ensures var r := DeleteSensor(page, db);
            var id := page.deleteSensorId.value;
            && r.notice == SensorDeleted && !r.page.isDeleteSensorDialogOpen
            && (forall s | s in r.db.sensors :: s.id != id)
            && (forall x | x in r.db.readings :: x.sensorId != id)
            && (forall a | a in r.db.alerts :: a.sensorId != id)
  {
  }

  // ---------------------------------------------------------------------
  // Saving a sensor
  // ---------------------------------------------------------------------

  datatype SensorForm = SensorForm(name: string, kind: string, thresholdLow: string, thresholdHigh: string)

  /** A threshold field: blank means the default, anything else must parse. */
  function Threshold(field: string, default: real, parseReal: string -> Option<real>): (r: Option<real>)
    ensures field == [] ==> r == Some(default)
    ensures field != [] ==> r == parseReal(field)
  {
    if field == [] then Some(default) else parseReal(field)
  }

  /** Every row carrying the key `id` gets the form's name, type and thresholds. */
  function EditSensors(sensors: seq<Sensor>, id: int, name: string, kind: string, low: real, high: real): (r: seq<Sensor>)
    ensures |r| == |sensors|
    ensures forall i | 0 <= i < |sensors| ::
              if sensors[i].id == id then
                r[i] == sensors[i].(name := name, kind := kind, thresholdLow := low, thresholdHigh := high)
              else r[i] == sensors[i]
  {
    seq(|sensors|, i requires 0 <= i < |sensors| =>
      if sensors[i].id == id then sensors[i].(name := name, kind := kind, thresholdLow := low, thresholdHigh := high)
      else sensors[i])
  }

  /**
   * `save_sensor`: nothing without a parcel on screen; refused without a
   * name or type; a threshold that does not parse raises, so nothing is
   * saved. Editing updates the edited sensor in place; adding appends an
   * active sensor on the parcel on screen. Blank thresholds default to 0
   * and 100.
   */
  function SaveSensor(page: ParcelPage, db: Db, form: SensorForm, parseReal: string -> Option<real>): (r: Step)
    ensures page.currentParcel.None? ==> r == Step(page, db, Silent)
    ensures page.currentParcel.Some? && (form.name == [] || form.kind == []) ==> r == Step(page, db, NameAndTypeRequired)
    ensures (|| Threshold(form.thresholdLow, DefaultThresholdLow, parseReal).None?
             || Threshold(form.thresholdHigh, DefaultThresholdHigh, parseReal).None?) ==> r.db == db && r.page == page
    ensures r.db == db.(sensors := r.db.sensors)
    ensures r.notice == SensorUpdated ==>
              && page.editingSensor.Some?
              && var id := page.editingSensor.value.id;
              && |r.db.sensors| == |db.sensors|
              && forall i | 0 <= i < |db.sensors| ::
                   && (db.sensors[i].id != id ==> r.db.sensors[i] == db.sensors[i])
                   && (db.sensors[i].id == id ==>
                         && r.db.sensors[i].(name := db.sensors[i].name, kind := db.sensors[i].kind,
                                             thresholdLow := db.sensors[i].thresholdLow,
                                             thresholdHigh := db.sensors[i].thresholdHigh) == db.sensors[i]
                         && r.db.sensors[i].name == form.name && r.db.sensors[i].kind == form.kind
                         && Some(r.db.sensors[i].thresholdLow) == Threshold(form.thresholdLow, DefaultThresholdLow, parseReal)
                         && Some(r.db.sensors[i].thresholdHigh) == Threshold(form.thresholdHigh, DefaultThresholdHigh, parseReal))
    ensures r.notice == SensorAdded ==>
              && page.editingSensor.None? && page.currentParcel.Some?
              && |r.db.sensors| == |db.sensors| + 1
              && r.db.sensors == db.sensors + [r.db.sensors[|db.sensors|]]
              && var s := r.db.sensors[|db.sensors|];
              && s.parcelId == page.currentParcel.value.id
              && s.status == DefaultSensorStatus && s.lastReadingTime.None?
              && s.name == form.name && s.kind == form.kind
              && Some(s.thresholdLow) == Threshold(form.thresholdLow, DefaultThresholdLow, parseReal)
              && Some(s.thresholdHigh) == Threshold(form.thresholdHigh, DefaultThresholdHigh, parseReal)
              && forall t | t in db.sensors :: t.id != s.id
    ensures r.notice in {SensorUpdated, SensorAdded} ==> r.page == CloseSensorModal(page)
    ensures r.notice == Silent ==> r.db == db && r.page == page
  {
    if page.currentParcel.None? then Step(page, db, Silent)
    else if form.name == [] || form.kind == [] then Step(page, db, NameAndTypeRequired)
    else
      var low := Threshold(form.thresholdLow, DefaultThresholdLow, parseReal);
      var high := Threshold(form.thresholdHigh, DefaultThresholdHigh, parseReal);
      if low.None? || high.None? then Step(page, db, Silent)
      else
        match page.editingSensor
        case Some(editing) =>
          if FindSensor(db, editing.id).Some? then
            var db' := db.(sensors := EditSensors(db.sensors, editing.id, form.name, form.kind, low.value, high.value));
            Step(CloseSensorModal(page), db', SensorUpdated)
          else Step(page, db, Silent)
        case None =>
          var s := NewSensor(FreshId(db.sensors, SensorId), form.name, form.kind, page.currentParcel.value.id,
                             low.value, high.value);
          Step(CloseSensorModal(page), db.(sensors := db.sensors + [s]), SensorAdded)
  }

  /** Editing a sensor's name, type and thresholds keeps the store's integrity. */
  lemma EditSensorsKeepsStoreValid(db: Db, id: int, name: string, kind: string, low: real, high: real)
    requires Valid(db)
    ensures Valid(db.(sensors := EditSensors(db.sensors, id, name, kind, low, high)))
  {
    var db' := db.(sensors := EditSensors(db.sensors, id, name, kind, low, high));
    assert UniqueIds(db'.sensors, SensorId) by {
      forall i, j | 0 <= i < j < |db'.sensors| ensures db'.sensors[i].id != db'.sensors[j].id {
        assert db.sensors[i].id != db.sensors[j].id;
      }
    }
    assert forall s | s in db'.sensors :: HasParcel(db', s.parcelId) by {
      forall s | s in db'.sensors ensures HasParcel(db', s.parcelId) {
        var i :| 0 <= i < |db'.sensors| && db'.sensors[i] == s;
        assert db.sensors[i] in db.sensors;
      }
    }
  }

  /** Adding a sensor to a parcel of the store, or editing one, keeps the store's integrity. */
  lemma SaveSensorKeepsStoreValid(page: ParcelPage, db: Db, form: SensorForm, parseReal: string -> Option<real>)
    requires Valid(db)
    requires page.currentParcel.Some? ==> HasParcel(db, page.currentParcel.value.id)
    ensures Valid(SaveSensor(page, db, form, parseReal).db)
  {
    var low := Threshold(form.thresholdLow, DefaultThresholdLow, parseReal);
    var high := Threshold(form.thresholdHigh, DefaultThresholdHigh, parseReal);
    if page.currentParcel.Some? && form.name != [] && form.kind != [] && low.Some? && high.Some? {
      match page.editingSensor
      case Some(editing) =>
        EditSensorsKeepsStoreValid(db, editing.id, form.name, form.kind, low.value, high.value);
      case None =>
        var s := NewSensor(FreshId(db.sensors, SensorId), form.name, form.kind, page.currentParcel.value.id,
                           low.value, high.value);
        FreshRowKeepsIdsUnique(db.sensors, db.sensors + [s], SensorId);
    }
  }
}

=== FILE: query.dfy ===
/**
 * The relational shapes the application's queries take, over in-memory
 * sequences of rows: `WHERE` (a filter that keeps row order), `ORDER BY`
 * a timestamp ascending or descending, and `LIMIT`.
 *
 * Rows with equal timestamps may come back in any order from the database;
 * the sort here picks one such order, and every contract below holds for
 * whichever order the ties take.
 */
module Query {
  import opened Basics
  import opened Calendar

  /** `WHERE keep(row)`: the rows satisfying `keep`, in their original order. */
  function Filter<T(==,!new)>(s: seq<T>, keep: T -> bool): (r: seq<T>)
    ensures |r| <= |s|
    ensures forall x :: x in r <==> x in s && keep(x)
    ensures multiset(r) <= multiset(s)
  {
    if s == [] then []
    else
      assert s == [s[0]] + s[1..];
      if keep(s[0]) then [s[0]] + Filter(s[1..], keep)
      else Filter(s[1..], keep)
  }

  /** Filters that agree on every row of `s` keep the same rows. */
  lemma {:induction false} FilterAgreeing<T(!new)>(s: seq<T>, p: T -> bool, q: T -> bool)
    requires forall x | x in s :: p(x) == q(x)
    ensures Filter(s, p) == Filter(s, q)
  {
    if s != [] {
      assert s[0] in s;
      assert forall x | x in s[1..] :: x in s;
      FilterAgreeing(s[1..], p, q);
    }
  }

  /** A filter no row passes keeps nothing. */
  lemma FilterKeepsNothing<T(!new)>(s: seq<T>, keep: T -> bool)
    requires forall x | x in s :: !keep(x)
    ensures Filter(s, keep) == []
  {
  }

  /** `SELECT count(*) ... WHERE keep(row)`. */
  function Count<T(==,!new)>(s: seq<T>, keep: T -> bool): nat {
    |Filter(s, keep)|
  }

  predicate OldestFirst<T>(s: seq<T>, key: T -> Timestamp) {
    forall i, j | 0 <= i < j < |s| :: NotAfter(key(s[i]), key(s[j]))
  }

  predicate NewestFirst<T>(s: seq<T>, key: T -> Timestamp) {
    forall i, j | 0 <= i < j < |s| :: NotAfter(key(s[j]), key(s[i]))
  }

  function InsertOldestFirst<T(==,!new)>(x: T, s: seq<T>, key: T -> Timestamp): (r: seq<T>)
    requires OldestFirst(s, key)
    ensures OldestFirst(r, key)
    ensures multiset(r) == multiset(s) + multiset{x}
    ensures |r| == |s| + 1
    ensures forall i | 0 <= i < |r| :: r[i] == x || r[i] in s
  {
    if s == [] then [x]
    else if NotAfter(key(x), key(s[0])) then [x] + s
    else
      var rest := InsertOldestFirst(x, s[1..], key);
      HeadPrecedesInsertion(x, s, rest, key);
      assert s == [s[0]] + s[1..];
      [s[0]] + rest
  }

  /** The head of a sorted sequence comes no later than anything inserted behind it. */
  lemma HeadPrecedesInsertion<T>(x: T, s: seq<T>, rest: seq<T>, key: T -> Timestamp)
    requires s != [] && OldestFirst(s, key)
    requires NotAfter(key(s[0]), key(x))
    requires forall i | 0 <= i < |rest| :: rest[i] == x || rest[i] in s[1..]
    requires OldestFirst(rest, key)
    ensures OldestFirst([s[0]] + rest, key)
  {
    forall i | 0 <= i < |rest|
      ensures NotAfter(key(s[0]), key(rest[i]))
    {
      if rest[i] != x {
        var j :| 0 <= j < |s[1..]| && s[1..][j] == rest[i];
        assert s[j + 1] == rest[i];
      }
    }
    var t := [s[0]] + rest;
    forall i, j | 0 <= i < j < |t|
      ensures NotAfter(key(t[i]), key(t[j]))
    {
      if i > 0 {
        assert t[i] == rest[i - 1] && t[j] == rest[j - 1];
      } else {
        assert t[j] == rest[j - 1];
      }
    }
  }

  /** `ORDER BY key ASC` (insertion sort). */
  function SortOldestFirst<T(==,!new)>(s: seq<T>, key: T -> Timestamp): (r: seq<T>)
    ensures OldestFirst(r, key)
    ensures multiset(r) == multiset(s)
    ensures |r| == |s|
  {
    if s == [] then []
    else
      assert s == [s[0]] + s[1..];
      InsertOldestFirst(s[0], SortOldestFirst(s[1..], key), key)
  }

  function Reverse<T>(s: seq<T>): (r: seq<T>)
    ensures |r| == |s|
    ensures forall i | 0 <= i < |s| :: r[i] == s[|s| - 1 - i]
  {
    if s == [] then [] else Reverse(s[1..]) + [s[0]]
  }

  lemma {:induction false} ReversePreservesMultiset<T>(s: seq<T>)
    ensures multiset(Reverse(s)) == multiset(s)
  {
    if s != [] {
      ReversePreservesMultiset(s[1..]);
      assert s == [s[0]] + s[1..];
    }
  }

  /** `ORDER BY key DESC`. */
  function SortNewestFirst<T(==,!new)>(s: seq<T>, key: T -> Timestamp): (r: seq<T>)
    ensures NewestFirst(r, key)
    ensures multiset(r) == multiset(s)
    ensures |r| == |s|
  {
    var asc := SortOldestFirst(s, key);
    ReversePreservesMultiset(asc);
    Reverse(asc)
  }

  /** How many rows `LIMIT n` lets through; SQLite reads a negative limit as no limit. */
  function LimitCount(n: int, available: nat): (c: nat)
    ensures c <= available
    ensures n >= 0 ==> c <= n
    ensures c == available || c == n
  {
    if n < 0 then available else Min(n, available)
  }

  lemma SliceSplitsMultiset<T>(t: seq<T>, m: nat)
    requires m <= |t|
    ensures multiset(t) == multiset(t[..m]) + multiset(t[m..])
  {
    assert t == t[..m] + t[m..];
  }

  lemma SameMultisetSameElements<T>(a: seq<T>, b: seq<T>)
    requires multiset(a) == multiset(b)
    ensures forall x :: x in a <==> x in b
  {
    forall x
      ensures x in a <==> x in b
    {
      assert x in a <==> x in multiset(a);
      assert x in b <==> x in multiset(b);
    }
  }

  /** In a newest-first sequence, nothing after a prefix is newer than anything in it. */
  lemma PrefixHoldsTheNewest<T>(t: seq<T>, key: T -> Timestamp, m: nat)
    requires NewestFirst(t, key)
    requires m <= |t|
    ensures forall x, y | x in t[..m] && y in t && y !in t[..m] :: NotAfter(key(y), key(x))
  {
    forall x, y | x in t[..m] && y in t && y !in t[..m]
      ensures NotAfter(key(y), key(x))
    {
      var i :| 0 <= i < m && t[i] == x;
      var j :| 0 <= j < |t| && t[j] == y;
    }
  }

  /**
   * `ORDER BY key DESC LIMIT n`: as many rows as the limit allows, newest
   * first, taken from `s`, and none of the rows left out is newer than any
   * row returned.
   */
  function Newest<T(==,!new)>(s: seq<T>, key: T -> Timestamp, n: int): (r: seq<T>)
    ensures NewestFirst(r, key)
    ensures |r| == LimitCount(n, |s|)
    ensures multiset(r) <= multiset(s)
    ensures n < 0 ==> multiset(r) == multiset(s)
    ensures forall x | x in r :: x in s
    ensures forall x, y | x in r && y in s && y !in r :: NotAfter(key(y), key(x))
  {
    var t := SortNewestFirst(s, key);
    var m := LimitCount(n, |s|);
    SliceSplitsMultiset(t, m);
    SameMultisetSameElements(t, s);
    PrefixHoldsTheNewest(t, key, m);
    t[..m]
  }

  /**
   * `WHERE keep(row) ORDER BY key DESC LIMIT n`: the newest rows satisfying
   * `keep`, and no row satisfying `keep` that is left out is newer than any
   * row returned.
   */
  function NewestWhere<T(==,!new)>(s: seq<T>, keep: T -> bool, key: T -> Timestamp, n: int): (r: seq<T>)
    ensures NewestFirst(r, key)
    ensures |r| == LimitCount(n, Count(s, keep))
    ensures forall x | x in r :: x in s && keep(x)
    ensures forall x, y | x in r && y in s && keep(y) && y !in r :: NotAfter(key(y), key(x))
    ensures n < 0 ==> forall x | x in s && keep(x) :: x in r
    ensures multiset(r) <= multiset(Filter(s, keep))
    ensures n < 0 ==> multiset(r) == multiset(Filter(s, keep))
  {
    var kept := Filter(s, keep);
    var r := Newest(kept, key, n);
    assert n < 0 ==> forall x | x in kept :: x in r by {
      if n < 0 {
        SameMultisetSameElements(r, kept);
      }
    }
    r
  }

  /** `key >= from`. */
  function Since<T>(key: T -> Timestamp, from: Timestamp): T -> bool {
    (x: T) => NotAfter(from, key(x))
  }

  /**
   * `WHERE key >= from ORDER BY key ASC`: the rows of `s` whose key is at or
   * after `from`, each as often as it occurs in `s`, oldest first.
   */
  function OldestFirstSince<T(==,!new)>(s: seq<T>, key: T -> Timestamp, from: Timestamp): (r: seq<T>)
    ensures OldestFirst(r, key)
    ensures forall x :: x in r <==> x in s && NotAfter(from, key(x))
    ensures multiset(r) == multiset(Filter(s, Since(key, from)))
    ensures |r| <= |s|
  {
    var kept := Filter(s, Since(key, from));
    assert forall x :: x in kept <==> x in s && NotAfter(from, key(x)) by {
      forall x ensures x in kept <==> x in s && NotAfter(from, key(x)) {
        assert Since(key, from)(x) == NotAfter(from, key(x));
      }
    }
    var r := SortOldestFirst(kept, key);
    assert forall x :: x in r <==> x in kept by {
      forall x
        ensures x in r <==> x in kept
      {
        assert x in r <==> x in multiset(r);
        assert x in kept <==> x in multiset(kept);
      }
    }
    r
  }
}

=== FILE: settings.dfy ===
/**
 * The settings page (`app/states/settings_state.py`): the tab and
 * notification switches, changing the password, and regenerating the API
 * key. The logged-in user comes from the session of `Auth`; bcrypt is the
 * parameter `hash` and the random source is `pick`, as there.
 */
module Settings {
  import opened Basics
  import opened Database
  import opened Api
  import opened Auth

  datatype SettingsPage = SettingsPage(
    activeTab: string,
    notificationsEnabled: bool,
    newPassword: string,
    confirmPassword: string)

  /** The page as it first appears: the profile tab, notifications on, empty password fields. */
  const InitialSettings: SettingsPage := SettingsPage("profile", true, "", "")

  datatype SettingsNotice = PasswordEmpty | PasswordsDiffer | PasswordUpdated | KeyRegenerated

  /** The page, the session, the store, and the toast shown (if any). */
  datatype SettingsStep = SettingsStep(page: SettingsPage, session: Session, db: Db, notice: Option<SettingsNotice>)

  /** `set_active_tab_val`: the tab becomes `tab`; nothing else on the page moves. */
  function SetActiveTab(p: SettingsPage, tab: string): (r: SettingsPage)
    ensures r.activeTab == tab
    ensures r.(activeTab := p.activeTab) == p
  {
    p.(activeTab := tab)
  }

  /**
   * `toggle_notifications`: despite its name the switch is set to the value
   * the control reports, not flipped.
   */
  function ToggleNotifications(p: SettingsPage, on: bool): (r: SettingsPage)
    ensures r.notificationsEnabled == on
    ensures r.(notificationsEnabled := p.notificationsEnabled) == p
  {
    p.(notificationsEnabled := on)
  }

  /** Setting the switch twice leaves it where the second call put it, so repeating a call changes nothing. */
  lemma ToggleNotificationsLastWins(p: SettingsPage, a: bool, b: bool)
    ensures ToggleNotifications(ToggleNotifications(p, a), b) == ToggleNotifications(p, b)
    ensures ToggleNotifications(ToggleNotifications(p, a), a) == ToggleNotifications(p, a)
  {
  }

  function WithPasswordHash(h: string): User -> User {
    (u: User) => u.(passwordHash := h)
  }

  function WithApiKey(k: string): User -> User {
    (u: User) => u.(apiKey := Some(k))
  }

  /**
   * `update_password`: an empty new password is refused first, then a
   * confirmation that differs; both keep what was typed. Without a
   * logged-in user, or when the user's row is gone, nothing happens and
   * nothing is said. Otherwise the row's hash becomes the hash of the new
   * password and both fields are cleared. The session keeps the row it
   * held: the hash in it is not refreshed.
   */
  function UpdatePassword(p: SettingsPage, s: Session, db: Db, hash: string -> string): (r: SettingsStep)
    ensures r.session == s
    ensures p.newPassword == [] ==> r == SettingsStep(p, s, db, Some(PasswordEmpty))
    ensures p.newPassword != [] && p.newPassword != p.confirmPassword ==>
              r == SettingsStep(p, s, db, Some(PasswordsDiffer))
    ensures r.notice == Some(PasswordUpdated) <==>
              && p.newPassword != [] && p.newPassword == p.confirmPassword
              && s.user.Some? && HasUser(db, s.user.value.id)
    ensures r.notice != Some(PasswordUpdated) ==> r.page == p && r.db == db
    ensures r.notice == Some(PasswordUpdated) ==>
              && r.page == p.(newPassword := "", confirmPassword := "")
              && r.db == db.(users := r.db.users)
              && |r.db.users| == |db.users|
              && forall i | 0 <= i < |db.users| ::
                   r.db.users[i] == if db.users[i].id == s.user.value.id
                                    then db.users[i].(passwordHash := hash(p.newPassword))
                                    else db.users[i]
  {
    if p.newPassword == [] then SettingsStep(p, s, db, Some(PasswordEmpty))
    else if p.newPassword != p.confirmPassword then SettingsStep(p, s, db, Some(PasswordsDiffer))
    else if s.user.None? then SettingsStep(p, s, db, None)
    else
      var id := s.user.value.id;
      match FindUser(db, id)
      case None => SettingsStep(p, s, db, None)
      case Some(_) =>
        var users := UpdateById(db.users, UserId, id, WithPasswordHash(hash(p.newPassword)));
        SettingsStep(p.(newPassword := "", confirmPassword := ""), s, db.(users := users), Some(PasswordUpdated))
  }

  /**
   * `regenerate_api_key`: without a logged-in user, or when the user's row
   * is gone, nothing happens. Otherwise the row gets a freshly drawn key
   * and the session is given the refreshed row. The page is not touched.
   */
  function RegenerateApiKey(p: SettingsPage, s: Session, db: Db, pick: nat -> Draw): (r: SettingsStep)
    ensures r.page == p
    ensures r.notice == Some(KeyRegenerated) <==> s.user.Some? && HasUser(db, s.user.value.id)
    ensures r.notice != Some(KeyRegenerated) ==> r.session == s && r.db == db && r.notice.None?
    ensures r.notice == Some(KeyRegenerated) ==>
              && r.db == db.(users := r.db.users)
              && |r.db.users| == |db.users|
              && (forall i | 0 <= i < |db.users| ::
                    r.db.users[i] == if db.users[i].id == s.user.value.id
                                     then db.users[i].(apiKey := Some(ApiKey(pick)))
                                     else db.users[i])
              && r.session == s.(user := r.session.user)
              && r.session.user.Some? && r.session.user.value in r.db.users
              && r.session.user.value.id == s.user.value.id
              && r.session.user.value.apiKey == Some(ApiKey(pick))
  {
    if s.user.None? then SettingsStep(p, s, db, None)
    else
      var id := s.user.value.id;
      match FindUser(db, id)
      case None => SettingsStep(p, s, db, None)
      case Some(u) =>
        var key := ApiKey(pick);
        var users := UpdateById(db.users, UserId, id, WithApiKey(key));
        var k :| 0 <= k < |db.users| && db.users[k] == u;
        assert users[k] == u.(apiKey := Some(key));
        SettingsStep(p, s.(user := Some(u.(apiKey := Some(key)))), db.(users := users), Some(KeyRegenerated))
  }

  /** Rewriting rows without touching keys or addresses keeps the store's integrity. */
  lemma {:induction false} UserEditKeepsStoreValid(db: Db, users: seq<User>)
    requires Valid(db)
    requires |users| == |db.users|
    requires forall i | 0 <= i < |users| :: users[i].id == db.users[i].id && users[i].email == db.users[i].email
    ensures Valid(db.(users := users))
  {
    var db' := db.(users := users);
    forall p | p in db'.parcels ensures HasUser(db', p.farmerId) {
      var v :| v in db.users && v.id == p.farmerId;
      var i :| 0 <= i < |db.users| && db.users[i] == v;
      assert users[i] in users;
    }
    forall s | s in db'.sensors ensures HasParcel(db', s.parcelId) {
      assert HasParcel(db, s.parcelId);
    }
  }

  lemma UpdatePasswordKeepsStoreValid(p: SettingsPage, s: Session, db: Db, hash: string -> string)
    requires Valid(db)
    ensures Valid(UpdatePassword(p, s, db, hash).db)
  {
    var r := UpdatePassword(p, s, db, hash);
    if r.notice == Some(PasswordUpdated) {
      UserEditKeepsStoreValid(db, r.db.users);
    }
  }

  lemma RegenerateKeepsStoreValid(p: SettingsPage, s: Session, db: Db, pick: nat -> Draw)
    requires Valid(db)
    ensures Valid(RegenerateApiKey(p, s, db, pick).db)
  {
    var r := RegenerateApiKey(p, s, db, pick);
    if r.notice == Some(KeyRegenerated) {
      UserEditKeepsStoreValid(db, r.db.users);
    }
  }

  /** With unique addresses, looking a user up by their own address finds them. */
  lemma {:induction false} OwnEmailFindsUser(users: seq<User>, u: User)
    requires UniqueEmails(users)
    requires u in users
    ensures FindUserByEmail(users, u.email) == Some(u)
  {
    if users[0] != u {
      var k :| 0 <= k < |users| && users[k] == u;
      assert users[0].email != u.email;
      assert UniqueEmails(users[1..]) by {
        forall i, j | 0 <= i < j < |users[1..]| ensures users[1..][i].email != users[1..][j].email {
          assert users[1..][i] == users[i + 1] && users[1..][j] == users[j + 1];
        }
      }
      assert users[1..][k - 1] == u;
      OwnEmailFindsUser(users[1..], u);
    }
  }

  /**
   * After a password change the user logs in with a password exactly when
   * bcrypt accepts it against the hash of the new password: the old hash
   * is no longer consulted.
   */
  lemma NewPasswordGovernsLogin(p: SettingsPage, s: Session, db: Db, hash: string -> string,
                                checkPw: (string, string) -> bool, attempt: string)
    requires Valid(db)
    requires UpdatePassword(p, s, db, hash).notice == Some(PasswordUpdated)
    ensures var r := UpdatePassword(p, s, db, hash);
            var u := FindUser(db, s.user.value.id).value;
            var login := Login(s.(loginEmail := u.email, loginPassword := attempt), r.db, checkPw);
            login.notice == Welcome <==> u.email != [] && attempt != [] && checkPw(attempt, hash(p.newPassword))
  {
    var r := UpdatePassword(p, s, db, hash);
    var id := s.user.value.id;
    var u := FindUser(db, id).value;
    var k :| 0 <= k < |db.users| && db.users[k] == u;
    var u' := r.db.users[k];
    assert u' == u.(passwordHash := hash(p.newPassword));
    UserEditKeepsStoreValid(db, r.db.users);
    OwnEmailFindsUser(r.db.users, u');
  }

  /** The only row holding a key is the one the key finds. */
  lemma {:induction false} SoleHolderIsFound(users: seq<User>, key: string, u: User)
    requires u in users && u.apiKey == Some(key)
    requires forall v | v in users && v.apiKey == Some(key) :: v == u
    ensures FindByApiKey(users, key) == Some(u)
  {
    if users[0] != u {
      var k :| 0 <= k < |users| && users[k] == u;
      assert users[1..][k - 1] == u;
      assert forall v | v in users[1..] :: v in users;
      SoleHolderIsFound(users[1..], key, u);
    }
  }

  /**
   * The regenerated key authenticates its owner at the API, provided no
   * other user already holds the same key (the column is indexed, not
   * unique).
   */
  lemma NewKeyAuthenticates(p: SettingsPage, s: Session, db: Db, pick: nat -> Draw)
    requires Valid(db)
    requires s.user.Some? && HasUser(db, s.user.value.id)
    requires forall v | v in db.users && v.id != s.user.value.id :: v.apiKey != Some(ApiKey(pick))
    ensures var r := RegenerateApiKey(p, s, db, pick);
            VerifyApiKey(r.db, Some(ApiKey(pick))) == Ok(r.session.user.value)
  {
    var r := RegenerateApiKey(p, s, db, pick);
    var key := ApiKey(pick);
    var u := r.session.user.value;
    var uid := s.user.value.id;
    assert r.notice == Some(KeyRegenerated);
    forall v | v in r.db.users && v.apiKey == Some(key) ensures v == u {
      var i :| 0 <= i < |r.db.users| && r.db.users[i] == v;
      var j :| 0 <= j < |r.db.users| && r.db.users[j] == u;
      assert db.users[i] in db.users;
      assert r.db.users[i].id == db.users[i].id;
      assert db.users[i].id == uid;
      assert r.db.users[j].id == db.users[j].id;
      assert i == j;
    }
    SoleHolderIsFound(r.db.users, key, u);
  }

  /** The key the user held before no longer opens the API as them, unless the draw repeated it. */
  lemma OldKeyIsRevoked(p: SettingsPage, s: Session, db: Db, pick: nat -> Draw)
    requires s.user.Some? && HasUser(db, s.user.value.id)
    requires FindUser(db, s.user.value.id).value.apiKey.Some?
    requires FindUser(db, s.user.value.id).value.apiKey != Some(ApiKey(pick))
    ensures var r := RegenerateApiKey(p, s, db, pick);
            var was := FindUser(db, s.user.value.id).value.apiKey;
            var v := VerifyApiKey(r.db, was);
            v.Ok? ==> v.value.id != s.user.value.id
  {
    var r := RegenerateApiKey(p, s, db, pick);
    var was := FindUser(db, s.user.value.id).value.apiKey;
    var v := VerifyApiKey(r.db, was);
    if v.Ok? {
      var i :| 0 <= i < |r.db.users| && r.db.users[i] == v.value;
    }
  }
}
